=== FILE: README.md ===
# Auth microservice core in Dafny

This project models the core of a multi-tenant authentication and
authorization service:

- its role-based access control engine (`rbac/service.py`), which loads
  `(role, permission, organization, "access")` policies and
  `(user, role, organization)` groupings from the database and answers
  `enforce` and `get_user_permissions` within one organization;
- the services that change the tables behind that engine: roles,
  permissions and their links, users, contact information, organizations
  with their admin role, the platform bootstrap and registration, login
  and SSO;
- the request checks in front of them: bearer-token and session
  validation, the permission guards, the organization-scoping guards and
  the mapping of service errors to HTTP answers in the auth, RBAC, user
  and billing views;
- billing plans, subscriptions with their history, and invoices;
- security alerts, per-organization feature flags kept in Redis hashes,
  the in-memory AMQP stand-in broker, and the shared-secret gates of the
  metrics, admin and internal endpoints.

The database is the class `Tables.Database`. Each table is a map keyed by
id, and role-permission links are a set of triples. Its `Valid()`
predicate carries the unique constraints of the schema: names of
organizations, roles and permissions, usernames, contact emails and SSO
provider uids are unique.

A service method takes the database and changes only the fields its
`modifies` clause names. Every method that can fail returns a `Result`.
On failure the tables are exactly as they were, because the request's
transaction is rolled back. An insert that would break a unique
constraint becomes the `IntegrityError` code.

Views return `Response<T>`: a body, or an `HttpError(status, code)`.

Everything the code only calls is a parameter:

- `hash_password` and `verify_password` are a `PasswordHasher`. Its
  `Sound` predicate says a password verifies against its own hash.
- `decode_token` is a function from a string to optional claims.
- The clock is an integer.
- The Redis server and the broker are classes with their own state.
- The settings object is a datatype.
- `secrets.compare_digest` is equality.

The `Authorization` header is split at its first space. The scheme is
compared with "bearer" without regard to letter case, and any non-empty
rest is the token: its syntax (the `b64token` of section 2.1 of RFC 6750)
is not checked, so a token may hold spaces. The `sub` and `exp` claims
follow sections 4.1.2 and 4.1.4 of RFC 7519. The SSO `state` value
follows section 4.1.1 of RFC 6749.

## Model

| member | source | states |
|---|---|---|
| RbacEngine.PolicyFacts | auth_microservice/rbac/service.py:48-63 | every policy built from the role-permission rows has action `"access"` |
| RbacEngine.GroupingFacts | auth_microservice/rbac/service.py:65-73 | every grouping is a user's current `(role, organization)`; users without a role contribute none |
| RbacEngine.RbacService.constructor | auth_microservice/rbac/service.py:19-28 | a new engine holds no policies or groupings and is not loaded |
| RbacEngine.RbacService.ReloadPolicies | auth_microservice/rbac/service.py:37-46 | afterwards the policy and grouping sets are exactly those built from the current tables (earlier ones are cleared), and the loaded flag is set |
| RbacEngine.RbacService.LoadRolePermissions | auth_microservice/rbac/service.py:48-63 | adds exactly the policies of all joinable role-permission rows |
| RbacEngine.RbacService.LoadUserRoles | auth_microservice/rbac/service.py:65-73 | adds exactly the groupings of all users that hold a role |
| RbacEngine.RbacService.EnsurePoliciesLoaded | auth_microservice/rbac/service.py:30-35 | reloads if and only if the flag was clear; afterwards the flag is set and a loaded engine keeps its sets |
| RbacEngine.RbacService.Enforce | auth_microservice/rbac/service.py:75-99 | evaluates with the flag set; the answer is true iff some role the user holds in that organization has a policy for the permission there |
| RbacEngine.RbacService.GetUserPermissions | auth_microservice/rbac/service.py:101-119 | returns a strictly ascending list whose elements are exactly the permissions of the user's roles in that organization |
| RbacEngine.RbacService.InvalidateCache | auth_microservice/rbac/service.py:121-124 | clears the loaded flag and leaves both sets untouched |
| RbacEngine.ReloadedDecision | auth_microservice/rbac/service.py:48-99 | after a reload, access is allowed iff the user's row holds a role in that organization and some role-permission row of that role and organization names the permission |
| RbacEngine.GrantElsewhereIrrelevant | auth_microservice/rbac/service.py:85-99 | adding a policy for another organization never changes a decision in this one |
| RbacEngine.GroupingElsewhereIrrelevant | auth_microservice/rbac/service.py:85-99 | adding a grouping in another organization never changes a decision in this one |
| RbacEngine.NoGroupingDenied | auth_microservice/rbac/service.py:85-99 | a user with no grouping in the organization is always denied |
| RbacEngine.ListedIffAllowed | auth_microservice/rbac/service.py:101-119 | a permission is listed for the user iff `enforce` allows it with action `"access"` |
| RbacAdmin.CreateRole | auth_microservice/services/rbac_admin.py:44-63 | fails with `role_name_exists` iff the name is taken in any organization, with an integrity error iff the organization is missing; otherwise adds exactly that role under a fresh id |
| RbacAdmin.UpdateRole | auth_microservice/services/rbac_admin.py:65-81 | renames only to a non-empty, different name and fails iff that name is taken; the description changes only when given |
| RbacAdmin.DeleteRole | auth_microservice/services/rbac_admin.py:83-91 | removes the role and all its role-permission rows; users that held it hold no role; nothing else changes |
| RbacAdmin.GetEffectivePermissions | auth_microservice/services/rbac_admin.py:97-109 | returns ascending, distinct names granted to the user's role by rows whose role and link both belong to the organization |
| RbacAdmin.CreatePermission | auth_microservice/services/rbac_admin.py:111-130 | fails with `permission_name_exists` iff the name is taken; otherwise adds exactly that permission |
| RbacAdmin.AssignPermissionToRole | auth_microservice/services/rbac_admin.py:132-157 | the link is scoped to the role's organization; fails with `role_permission_exists` iff it is already there; afterwards the set is the old one plus that link |
| RbacAdmin.RevokePermissionFromRole | auth_microservice/services/rbac_admin.py:159-176 | fails with `role_permission_not_found` iff the role-scoped link is absent; afterwards the set is the old one minus that link |
| RbacAdmin.AssignRoleToUser | auth_microservice/services/rbac_admin.py:178-189 | fails with `role_not_in_organization` iff the user's and the role's organizations differ, leaving the user unchanged; otherwise only the user's role changes |
| RbacAdmin.RevokeRoleFromUser | auth_microservice/services/rbac_admin.py:191-202 | fails with `role_not_assigned` unless the user holds exactly that role; otherwise clears it |
| RbacAdmin.GrantAllowsHolders | auth_microservice/services/rbac_admin.py:132-157 | after a grant and a reload, every holder of the role in its organization is allowed the permission |
| RbacAdmin.RevokeDeniesHolders | auth_microservice/services/rbac_admin.py:159-176 | after a revoke and a reload, a user whose only role is that one is denied the permission |
| RbacAdmin.DeletedRoleGrantsNothing | auth_microservice/services/rbac_admin.py:83-91 | after a delete and a reload, no policy and no grouping mentions the role |
| RbacAdmin.EffectiveMatchesEngine | auth_microservice/services/rbac_admin.py:97-109 | the admin view of a user's permissions equals the engine's list after a reload |
| Organizations.AdminNamesDistinct | auth_microservice/services/organizations.py:20-57 | the admin permission names contain no duplicates |
| Organizations.AdminRoleNameRoundTrip | auth_microservice/services/organizations.py:244-246 | the admin role name is `"org_"`, the decimal id and `"_admin"`, and the id can be read back from it |
| Organizations.AdminRoleNameInjective | auth_microservice/services/organizations.py:244-246 | two organizations never share an admin role name |
| Organizations.Missing | auth_microservice/services/organizations.py:227 | a requested name is missing iff no permission has it |
| Organizations.NothingMissing | auth_microservice/services/organizations.py:227-240 | when every name exists, nothing is created |
| Organizations.MissingOfDistinct | auth_microservice/services/organizations.py:227 | distinct requested names give distinct missing names |
| Organizations.PermissionIdOf | auth_microservice/services/organizations.py:222-225 | the id found for an existing name is a permission with that name |
| Organizations.ExistingIds | auth_microservice/services/organizations.py:222-225 | the lookup is defined exactly on the requested names that exist, and maps each to its permission |
| Organizations.CreateMissing | auth_microservice/services/organizations.py:228-240 | creates exactly one permission per missing name, described from the fixed table or as `"Permission for <name>"`, and keeps every existing permission |
| Organizations.Describe | auth_microservice/services/organizations.py:59-96 | the description table answers a description exactly when it has an entry for the name, and then the description stored with that name |
| Organizations.DescriptionFor | auth_microservice/services/organizations.py:230-233 | a name in the description table gets its own description; any other name gets `"Permission for <name>"` |
| Organizations.EnsurePermissions | auth_microservice/services/organizations.py:214-242 | returns a map defined on every requested name; creates only the missing ones; empty input gives `{}`; fails with an integrity error iff the missing names repeat |
| Organizations.LinkPermissions | auth_microservice/services/organizations.py:157-170 | afterwards the links are the old ones plus one `(role, permission, organization)` triple per requested name |
| Organizations.GrantAll | auth_microservice/services/organizations.py:150-171 | every requested name exists and is linked to the role in the organization; a second call adds nothing |
| Organizations.EnsureAdminRole | auth_microservice/services/organizations.py:130-171 | afterwards the admin role exists in the organization and holds every admin permission; fails with an integrity error iff another organization's role has that name; idempotent |
| Organizations.CreateOrganization | auth_microservice/services/organizations.py:105-128 | rejects a taken name with `organization_name_exists`; otherwise adds the organization under the next id (license ACTIVE by default) and provisions its admin role: the roles gain exactly that new role, the permissions gain only the missing admin names, and the links gain only the admin role's links in the organization |
| Organizations.UpdateOrganization | auth_microservice/services/organizations.py:173-196 | a non-empty new name held by another organization is rejected; an organization may keep its own; an empty name or license is ignored |
| Organizations.DeactivateOrganization | auth_microservice/services/organizations.py:198-204 | sets the license to SUSPENDED and changes nothing else |
| Bootstrap.SuperAdminNamesShape | auth_microservice/services/bootstrap.py:36-50 | the super-admin names are strictly ascending and distinct, and are exactly the admin names plus the six platform names |
| Bootstrap.EnsureRootOrganization | auth_microservice/services/bootstrap.py:67-83 | returns the existing `"RootOrg"` untouched, or creates exactly one, ACTIVE |
| Bootstrap.EnsureSuperAdminRole | auth_microservice/services/bootstrap.py:85-121 | looks `"super_admin"` up across all organizations and creates it only when absent; afterwards every super-admin permission is linked to it in the organization, without duplicates |
| Bootstrap.BootstrapSuperuser | auth_microservice/services/bootstrap.py:123-160 | if some user already holds the super role, answers Ok with `created = false` and registers nobody; otherwise it succeeds exactly when the username and email are free and a first name is given, registering one user and contact in the root organization with the super role (a taken username or email fails with its own code); organizations gain at most `RootOrg`, existing roles are kept and at most `super_admin` is added, permissions gain only missing names and links only the super role's |
| Bootstrap.EnsureHolder | auth_microservice/services/bootstrap.py:132-160 | an existing holder of the super role gives Ok with `created = false` and nothing changes; otherwise the result is Ok exactly when registration can succeed (username free, email free, insertable), with `created = true` and the user and contact under the next id; a taken username or email fails with its code and changes no user or contact |
| Bootstrap.ProvisionRoot | auth_microservice/services/bootstrap.py:129-130 | the root organization and the super role provisioned in it, with the same organization, role, permission and link frames; a user holds the role named `super_admin` exactly when it holds the returned role |
| Users.ListUsers | auth_microservice/services/users.py:28-47 | lists exactly the organization's users with an allowed status, by ascending id, each with its contact |
| Users.UpdateUser | auth_microservice/services/users.py:49-79 | the stored user is the outcome of applying the allowed keys, where a set role id flushes the row (foreign key, NOT NULL columns) before the organization check; on any error the table is unchanged |
| Users.ApplyUpdatesOutcome | auth_microservice/services/users.py:54-71 | fails iff a `status` key holds a value that is not `None`, not a status member and not the text of a member, with that conversion's error; otherwise every allowed key present decides its column (status converted, role id as given), and every other column keeps its value |
| Users.StatusFrom | auth_microservice/services/users.py:66-70 | `None` and members pass; a text converts iff it is a member's value, to that member, else fails with that text; any other value fails with `invalid_status` |
| Users.UpdateKeepsOtherColumns | auth_microservice/services/users.py:54-66 | columns outside the allowed keys never change |
| Users.UpdateKeepsRoleInOrganization | auth_microservice/services/users.py:74-75 | after a successful update, a non-null role belongs to the user's organization |
| Users.ForeignRoleRejected | auth_microservice/services/users.py:64-75 | an existing role of another organization fails with `role_not_in_organization` once the patched row can be flushed (status and first name not `None`) |
| Users.MissingRoleIsIntegrityError | auth_microservice/services/users.py:64-75 | a role id that names no role fails at the autoflush with an integrity error, before the organization check |
| Users.DeactivateUser | auth_microservice/services/users.py:81-90 | sets the status to INACTIVE and appends exactly one archive entry `(user, organization)` |
| Users.UpsertedContact | auth_microservice/services/users.py:96-125 | a present `None` email, or no contact and no email, fails with `email_required`; an email held by another user fails with `email_already_exists`; a stored contact's email is never another user's |
| Users.UpsertContactInformation | auth_microservice/services/users.py:96-125 | stores exactly the upserted contact, or changes nothing on error |
| Users.ApplyContactOutcome | auth_microservice/services/users.py:117-121 | a non-None `email` sets the email unless `email_id` is also given, which then sets it; every non-key contact column in the payload takes its value; every other attribute keeps its value |
| Users.OwnEmailAccepted | auth_microservice/services/users.py:137-146 | re-submitting the user's own current email never fails as a duplicate |
| Users.UpsertStoresPayload | auth_microservice/services/users.py:117-121 | after a successful upsert, every attribute given in the payload reads back as given |
| Users.EnsureRoleInOrganization | auth_microservice/services/users.py:127-135 | passes iff the role exists in the organization, else `role_not_in_organization` |
| Users.EnsureUniqueEmail | auth_microservice/services/users.py:137-146 | passes iff no other user's contact has the email, else `email_already_exists` |
| AuthService.NewUser | auth_microservice/services/auth/service.py:41-45 | the new user stores the hash of the password, never the plain one, and is active with no last login |
| AuthService.RegisteredContact | auth_microservice/services/auth/service.py:47-59 | the contact holds the email and the given contact fields, with `verified_phone_number` false |
| AuthService.RegisterUser | auth_microservice/services/auth/service.py:23-63 | checks the username first, then the email, creating nothing on either error; on success adds exactly one user and one contact |
| AuthService.AuthenticateUser | auth_microservice/services/auth/service.py:65-87 | succeeds iff a user with the name has a contact row and the password verifies; both failures are the same `invalid_credentials`; success stamps `last_login` and records one successful STANDARD login |
| AuthService.RegisteredUserLogsIn | auth_microservice/services/auth/service.py:41-87 | with a sound hasher, a registered user logs in with the password it registered |
| AuthService.UserClaims | auth_microservice/services/auth/service.py:92-104 | the claims are username, organization and role, plus the email only when it is non-empty |
| AuthService.IssueToken | auth_microservice/services/auth/service.py:89-105 | the subject is the user id as text, and it reads back as that id; the expiry is `now + 60 × minutes`; the organization and role come from the user |
| AuthService.UpsertSsoProvider | auth_microservice/services/auth/service.py:107-130 | keeps at most one provider per uid and always overwrites its tokens; a non-text token is a data error that changes nothing |
| AuthService.SsoUser | auth_microservice/services/auth/service.py:162-170 | the username is the email; the display name splits at its first space into first and last name, the last being None if empty; the default name is `"Google User"` |
| AuthService.GetOrCreateUserFromSso | auth_microservice/services/auth/service.py:132-180 | a missing uid, then an empty email, fail in that order; a linked provider returns its user, or fails with `orphan_sso_provider` when that user is gone; otherwise a matching contact email returns the user owning that contact; otherwise the creation succeeds iff the email is free as a username and the organization exists, adding exactly one user and its contact, and fails with an integrity error otherwise |
| Tokens.AccessPayload | auth_microservice/core/security.py:29-41 | the payload keeps every given claim and adds `sub` and `exp` only where absent |
| Tokens.ClaimInt | auth_microservice/web/api/dependencies.py:55-59 | an integer or boolean claim, or a text claim that parses as a decimal integer, gives its value; a float claim gives its value truncated toward zero; `None` and any other value give none |
| Tokens.TruncatedQuotient | auth_microservice/web/api/dependencies.py:55-56 | the quotient rounded toward zero, as `int()` rounds a float: its multiple lies within one divisor of the dividend, on the dividend's side of zero |
| Principal.BearerToken | auth_microservice/web/api/dependencies.py:41-43 | a token is accepted only when the header is a scheme, one space and a non-empty token |
| Principal.BearerSchemeAnyCase | auth_microservice/web/api/dependencies.py:41-43 | any letter case of `bearer` followed by a non-empty token yields that token |
| Principal.SessionCheck | auth_microservice/web/api/dependencies.py:61-71 | passes iff the session exists, belongs to the user, is not revoked and has not expired, where equality with now still passes |
| Principal.RevocationBeforeExpiry | auth_microservice/web/api/dependencies.py:66-71 | a revoked session answers `session_revoked` whatever its expiry |
| Principal.CurrentPrincipal | auth_microservice/web/api/dependencies.py:33-86 | every failure is a 401; a missing or empty header is `not_authenticated`; a principal's organization, role, status and username come from the user record |
| Principal.AdmittedWhenAllChecksPass | auth_microservice/web/api/dependencies.py:33-86 | a well-formed header, a decodable token with integer claims, a passing session and an existing user give that user's principal |
| Principal.UsersConsultedLast | auth_microservice/web/api/dependencies.py:73-75 | a failure other than `user_not_found` does not depend on the user table |
| Principal.NoSessionClaimRefused | auth_microservice/web/api/dependencies.py:50-53 | a token without a `session_id` claim is refused with `invalid_token_payload` |
| Principal.IssuedPayloadHasNoSession | auth_microservice/services/auth/service.py:89-105 | the login token's claims carry no `session_id` |
| Principal.IssuedTokenHasNoSession | auth_microservice/web/api/dependencies.py:50-53 | so a token from the login service is refused by the bearer check |
| Principal.RequirePermission | auth_microservice/web/api/dependencies.py:89-106 | answers 403 `forbidden` exactly when `enforce` denies the permission in the principal's organization |
| Principal.RequirePermissions | auth_microservice/web/api/dependencies.py:109-127 | passes iff every listed permission is allowed |
| AuthViews.LoginState | auth_microservice/web/api/auth/views.py:97-98 | the state is `"org:"`, the decimal organization id, `":"` and the nonce |
| AuthViews.OrgFromState | auth_microservice/web/api/auth/views.py:103-113 | accepts only a state with at least two separators, the prefix `"org"` and an integer middle part, and then returns that integer; anything else is 400 `invalid_state` |
| AuthViews.StateRoundTrip | auth_microservice/web/api/auth/views.py:98-113 | reading back a state built for any organization and any nonce, even one containing `:`, gives the organization |
| AuthViews.BuildUserResponse | auth_microservice/web/api/auth/views.py:30-39 | a missing email becomes `""`; the other fields come from the user |
| AuthViews.RegisterFailure | auth_microservice/web/api/auth/views.py:62-71 | the two conflicts answer 409, database errors 500, any other code 400 |
| AuthViews.Register | auth_microservice/web/api/auth/views.py:52-72 | a taken username answers 409 `username_already_exists`, else a taken email 409 `email_already_exists`; it succeeds exactly when both are free and the row is insertable; a failure changes nothing and keeps the cache; a success registers the user and then invalidates the cache |
| AuthViews.Login | auth_microservice/web/api/auth/views.py:75-87 | fails with 401 `invalid_credentials` iff the credentials do not log in; otherwise stamps that user's last login, records one successful standard login and answers a bearer token with `expires_in` equal to minutes × 60; a failure changes neither |
| AuthViews.UnversionedProfileRefused | auth_microservice/web/api/auth/views.py:138-141 | the unversioned callback refuses a profile only when the uid or the email is None |
| AuthViews.VersionedProfileRefused | auth_microservice/web/api/v1/auth/views.py:298-301 | the versioned callback and link refuse an empty or missing uid or email |
| AuthViews.VersionedCheckStricter | auth_microservice/web/api/v1/auth/views.py:338-341 | every profile the unversioned check refuses, the versioned check refuses too |
| AuthViews.EmptyUidOnlyVersionedRefuses | auth_microservice/web/api/v1/auth/views.py:298-301 | an empty uid is refused only by the versioned check, so the stricter check is strictly stricter |
| AuthViews.UnversionedCheckAfterResolution | auth_microservice/web/api/auth/views.py:138-141 | a profile the SSO service accepts passes the unversioned check |
| AuthViews.BuildTokenPair | auth_microservice/web/api/v1/auth/views.py:90-100 | `expires_in` is the access minutes × 60 and `session_id` is the session's login id |
| AuthViews.ResolveEmail | auth_microservice/web/api/v1/auth/views.py:60-69 | a non-empty fallback is returned as is; otherwise the user's contact email, if any |
| AuthViews.ResolveEmailIgnoresStore | auth_microservice/web/api/v1/auth/views.py:65-66 | with a non-empty fallback the contacts are never consulted |
| AuthViews.ClientIp | auth_microservice/web/api/v1/auth/views.py:50-53 | the peer address wins; without one the forwarded-for header is used |
| AuthViews.ForgotPassword | auth_microservice/web/api/v1/auth/views.py:218-234 | the answer is `"ok"` with no reset token whether or not a token was issued, so it never reveals whether the account exists |
| RbacViews.AdminFailure | auth_microservice/web/api/v1/rbac/views.py:71-74 | the `*_exists` codes and `role_not_assigned` answer 409, `role_permission_not_found` 404, `role_not_in_organization` 400, and any other code 500 |
| RbacViews.CreateRole | auth_microservice/web/api/v1/rbac/views.py:57-77 | a taken name answers 409; on success the role is in the principal's organization with no permissions and the cache is invalidated after the change |
| RbacViews.UpdateRole | auth_microservice/web/api/v1/rbac/views.py:80-114 | a role outside the principal's organization is 404 `role_not_found` before any change; a rename to a taken name is 409; a success stores the role renamed only when the name is given and differs, with a given description replacing the old one, and the answer lists the role's permission ids in the organization, ascending |
| RbacViews.DeleteRole | auth_microservice/web/api/v1/rbac/views.py:117-135 | fails with 404 iff the role is not in the principal's organization; a success deletes it and invalidates the cache |
| RbacViews.CreatePermission | auth_microservice/web/api/v1/rbac/views.py:148-168 | fails with 409 iff the name is taken; a success adds it and invalidates the cache |
| RbacViews.AssignPermissionToRole | auth_microservice/web/api/v1/rbac/views.py:170-200 | checks the role's organization, then the permission's existence (404 `permission_not_found`); an existing link is 409 `role_permission_exists`; a failure changes nothing and keeps the cache |
| RbacViews.RevokePermissionFromRole | auth_microservice/web/api/v1/rbac/views.py:202-228 | a role outside the organization or an absent link answers 404 and changes nothing; a success removes the link and invalidates the cache |
| RbacViews.AssignRoleToUser | auth_microservice/web/api/v1/rbac/views.py:230-260 | checks the user's organization (`user_not_found`) before the role's (`role_not_found`); a success sets the role and invalidates the cache |
| RbacViews.RevokeRoleFromUser | auth_microservice/web/api/v1/rbac/views.py:262-287 | a user outside the organization is 404; a role not held is 409; a success clears it and invalidates the cache |
| RbacViews.GetEffectivePermissions | auth_microservice/web/api/v1/rbac/views.py:290-306 | a user outside the organization is 404 `user_not_found`; otherwise answers the service's sorted names |
| Principal.EnsureSameOrganization | auth_microservice/web/api/v1/users/views.py:33-35 | passes iff the path organization is the principal's, else 403 `forbidden`; `_ensure_same_org` at auth_microservice/web/api/v1/billing/views.py:91-93 has the same body and is this member too |
| UserViews.UserAccess | auth_microservice/web/api/v1/users/views.py:38-40 | a user in another organization is 404 `user_not_found`, not 403 |
| UserViews.SerializeContact | auth_microservice/web/api/v1/users/views.py:43-55 | a missing contact gives email None and every contact field None |
| UserViews.SerializeUser | auth_microservice/web/api/v1/users/views.py:58-72 | the response takes its fields from the user and its email from the contact |
| UserViews.AuditFields | auth_microservice/web/api/v1/users/views.py:211 | the audit `fields` value lists the update keys in ascending order |
| UserViews.CreateUserInOrganization | auth_microservice/web/api/v1/users/views.py:80-137 | checks in order an organization mismatch (403), an unknown organization (404) and a foreign role (400), all before any write; then a taken username or email is 409 with its code, another registration error 400 or 500; it succeeds exactly when the checks pass and registration can; a success registers and invalidates the cache |
| UserViews.ListUsersInOrganization | auth_microservice/web/api/v1/users/views.py:140-152 | fails with 403 iff the organization is not the principal's; otherwise answers the service's list |
| UserViews.GetUser | auth_microservice/web/api/v1/users/views.py:171-179 | a user outside the organization is 404; otherwise answers the serialized user |
| UserViews.UpdateFailure | auth_microservice/web/api/v1/users/views.py:197-201 | `invalid_status` and `role_not_in_organization` answer 400; other codes propagate as 500 |
| UserViews.UpdateUser | auth_microservice/web/api/v1/users/views.py:182-214 | the access check comes first; a service error is answered by `UpdateFailure` of its code (400 for `invalid_status` and `role_not_in_organization`, else 500); a failure changes nothing and emits no audit; a success stores the update, invalidates the cache and audits the sorted keys |
| UserViews.DeactivateUser | auth_microservice/web/api/v1/users/views.py:217-240 | fails with 404 iff the user is outside the organization; a success deactivates and invalidates the cache |
| UserViews.GetUserContact | auth_microservice/web/api/v1/users/views.py:243-256 | a user without a contact answers 404 `contact_not_found` |
| UserViews.ContactFailure | auth_microservice/web/api/v1/users/views.py:274-278 | `email_required` and `email_already_exists` answer 400; other codes 500 |
| UserViews.UpdateUserContact | auth_microservice/web/api/v1/users/views.py:259-285 | the access check comes first; a service error is answered by `ContactFailure` of its code (400 for `email_required` and `email_already_exists`, else 500); a failure changes nothing; a success stores the contact and invalidates the cache |
| Billing.BillingStore.constructor | auth_microservice/services/billing.py:28-29 | a new store is empty |
| Billing.CreatePlan | auth_microservice/services/billing.py:41-70 | fails with `plan_name_exists` iff the name is taken; otherwise adds exactly that plan |
| Billing.UpdatePlan | auth_microservice/services/billing.py:72-100 | renames only to a non-empty, different name and fails iff another plan holds it; the result follows the field rules |
| Billing.ApplyPlanUpdate | auth_microservice/services/billing.py:85-96 | the assignments produce the patched plan |
| Billing.PlanFieldRules | auth_microservice/services/billing.py:85-96 | price and cycle ignore None; description, limits and support level are overwritten even with None; an empty name keeps the old one |
| Billing.EmptyPlanUpdate | auth_microservice/services/billing.py:72-100 | an update with no keys leaves the plan as it was |
| Billing.PlanUpdateIdempotent | auth_microservice/services/billing.py:72-100 | applying the same update twice is applying it once |
| Billing.AsDateTime | auth_microservice/services/billing.py:184-195 | a date becomes midnight of that day, a datetime passes through, and None stays None |
| Billing.CreateSubscription | auth_microservice/services/billing.py:111-144 | fails with `subscription_exists` iff the organization already has one; otherwise adds it and exactly one history row |
| Billing.UpdateSubscription | auth_microservice/services/billing.py:146-173 | stores the patched subscription; a history row is appended iff the update carries one |
| Billing.SubscriptionFieldRules | auth_microservice/services/billing.py:151-158 | start and end are overwritten even with None; plan type and payment status ignore None; the organization never changes |
| Billing.UpdateInvoice | auth_microservice/services/billing.py:221-241 | stores exactly the patched invoice |
| Billing.InvoiceFieldRules | auth_microservice/services/billing.py:226-237 | amount, status, method and cycle ignore None; the payment and due dates are overwritten even with None |
| BillingViews.CreateBillingPlan | auth_microservice/web/api/v1/billing/views.py:44-65 | a taken name answers 409 and changes nothing |
| BillingViews.UpdateBillingPlan | auth_microservice/web/api/v1/billing/views.py:68-88 | an unknown plan answers 404 before any change; a taken name answers 409 |
| BillingViews.GetSubscription | auth_microservice/web/api/v1/billing/views.py:100-111 | answers the organization's own subscription, 403 for another organization, or 404 when there is none |
| BillingViews.CreateSubscriptionView | auth_microservice/web/api/v1/billing/views.py:119-147 | an unknown plan answers 404 before any change; succeeds iff the organization matches, the plan exists and there is no subscription yet |
| BillingViews.UpdateSubscriptionView | auth_microservice/web/api/v1/billing/views.py:150-195 | an unknown plan answers 404 and a history status without a plan id 400, before any change; it succeeds exactly when the organization matches, has a subscription and neither guard fires; history dates default to the current ones; a plan id without a plan type keeps the current type |
| BillingViews.GetInvoice | auth_microservice/web/api/v1/billing/views.py:214-225 | an unknown invoice answers 404 and another organization's 403 |
| BillingViews.UpdateInvoiceView | auth_microservice/web/api/v1/billing/views.py:228-244 | the same two checks precede the update; it succeeds exactly for an existing invoice of the principal's organization, storing the patched invoice; a failure changes nothing |
| SecurityAlerts.UpdatedAlert | auth_microservice/services/security.py:48-60 | an explicit `resolved_at` always wins, None included; otherwise a status change to RESOLVED stamps now and any other new status clears it; with neither, it is kept; status and message change only when given non-None values |
| SecurityAlerts.UpdateIdempotent | auth_microservice/services/security.py:48-60 | the same update at the same instant applied twice is applied once |
| SecurityAlerts.Alert.constructor | auth_microservice/db/models/oltp.py:706-721 | the object holds exactly the columns of the given row |
| SecurityAlerts.UpdateAlert | auth_microservice/services/security.py:43-64 | the object's new row is the updated row |
| SecurityAlerts.InsertNewest | auth_microservice/services/security.py:31 | inserting into a newest-first list keeps it newest-first and adds exactly that alert |
| SecurityAlerts.ListAlerts | auth_microservice/services/security.py:20-38 | exactly the alerts that pass the filter, each as often as in the table, newest first |
| SecurityAlerts.ListedOnlyOwnOrganization | auth_microservice/services/security.py:27-36 | a listed alert belongs to a user of the organization |
| FeatureFlags.KeyInjective | auth_microservice/services/feature_flags.py:16-17 | distinct organizations never share a key |
| FeatureFlags.Decode | auth_microservice/services/feature_flags.py:19-27 | every stored flag is read back, true iff it is `"1"` |
| FeatureFlags.Encode | auth_microservice/services/feature_flags.py:29-36 | every flag is written as `"1"` when truthy and `"0"` otherwise |
| FeatureFlags.MergeRoundTrip | auth_microservice/services/feature_flags.py:29-36 | after the merge, each written flag reads back as its truthiness and each other stored flag is kept |
| FeatureFlags.GetFlags | auth_microservice/services/feature_flags.py:19-27 | an absent hash reads as `{}`; otherwise the decoded stored hash |
| FeatureFlags.OtherOrganizationsUntouched | auth_microservice/services/feature_flags.py:16-17 | a write to one organization's key leaves every other organization's flags unchanged |
| FeatureFlags.SetFlags | auth_microservice/services/feature_flags.py:29-36 | no flags deletes the hash and answers `{}`; otherwise it merges and answers the whole stored map, where each written flag reads as its truthiness; other organizations are untouched |
| Broker.Queue.constructor | auth_microservice/services/rabbit/lifespan.py:31-34 | a new queue is empty |
| Broker.Queue.Get | auth_microservice/services/rabbit/lifespan.py:39-45 | returns and removes the oldest body, or raises `QueueEmpty` on an empty queue |
| Broker.Queue.Enqueue | auth_microservice/services/rabbit/lifespan.py:51-52 | the body goes to the back |
| Broker.Queue.Bind | auth_microservice/services/rabbit/lifespan.py:36-37 | adds the queue to the binding of its exchange and routing key |
| Broker.Queue.Delete | auth_microservice/services/rabbit/lifespan.py:47-48 | the broker forgets the queue and unbinds it |
| Broker.Exchange.constructor | auth_microservice/services/rabbit/lifespan.py:58-60 | an exchange is named and belongs to its broker |
| Broker.Exchange.Publish | auth_microservice/services/rabbit/lifespan.py:62-63 | delivers through the broker |
| Broker.Exchange.Delete | auth_microservice/services/rabbit/lifespan.py:65-66 | the broker drops the exchange and its bindings |
| Broker.WithBinding | auth_microservice/services/rabbit/lifespan.py:128-130 | the key's set gains the queue; every other binding is unchanged |
| Broker.BindIdempotent | auth_microservice/services/rabbit/lifespan.py:128-130 | binding twice is binding once |
| Broker.Unbind | auth_microservice/services/rabbit/lifespan.py:145-148 | the queue leaves every binding set; the keys stay |
| Broker.DropExchange | auth_microservice/services/rabbit/lifespan.py:139-143 | every binding on the exchange goes; every other binding stays |
| Broker.Delivery | auth_microservice/services/rabbit/lifespan.py:132-137 | a queue receives the body once if it is bound to the key, else nothing |
| Broker.UnboundQueueGetsNothing | auth_microservice/services/rabbit/lifespan.py:135-148 | after a queue is deleted, no publish reaches its name |
| Broker.InMemoryBroker.constructor | auth_microservice/services/rabbit/lifespan.py:109-112 | a new broker has no exchanges, queues or bindings |
| Broker.InMemoryBroker.GetExchange | auth_microservice/services/rabbit/lifespan.py:114-119 | the same name yields the same exchange, registered once |
| Broker.InMemoryBroker.GetQueue | auth_microservice/services/rabbit/lifespan.py:121-126 | the same name yields the same queue with its messages, registered once |
| Broker.InMemoryBroker.BindQueue | auth_microservice/services/rabbit/lifespan.py:128-130 | the bindings become the old ones with the queue added under the key |
| Broker.InMemoryBroker.Publish | auth_microservice/services/rabbit/lifespan.py:132-137 | appends the body exactly once to every registered queue bound to the key, and to no other |
| Broker.InMemoryBroker.DeleteExchange | auth_microservice/services/rabbit/lifespan.py:139-143 | removes the exchange and every binding keyed on it, leaving others intact |
| Broker.InMemoryBroker.DeleteQueue | auth_microservice/services/rabbit/lifespan.py:145-148 | removes the queue and its name from every binding set |
| Broker.Channel.constructor | auth_microservice/services/rabbit/lifespan.py:72-73 | a channel works on its broker |
| Broker.Channel.DeclareExchange | auth_microservice/services/rabbit/lifespan.py:75-76 | declaring is the broker's idempotent lookup |
| Broker.Channel.DeclareQueue | auth_microservice/services/rabbit/lifespan.py:78-79 | declaring is the broker's idempotent lookup |
| Broker.Channel.GetExchange | auth_microservice/services/rabbit/lifespan.py:81-87 | without `ensure` a registered name gives its exchange, an unknown name is a `KeyError`, and nothing is registered; with it the exchange is created when absent |
| SecretGates.Configured | auth_microservice/web/api/metrics/views.py:31-33 | the configured secrets are exactly the non-empty values among the candidates |
| SecretGates.CheckSecret | auth_microservice/web/api/metrics/views.py:34-41 | with secrets configured, passes iff the header is non-empty and equals one of them, else 401; with none, passes iff the environment is dev or pytest, else 503 |
| SecretGates.ValidateIngestSecret | auth_microservice/web/api/metrics/views.py:28-41 | either secret opens the metrics gate, and a missing header never does while one is set; with neither set, only dev or pytest pass, else 503 `metrics_ingest_not_configured` |
| SecretGates.ValidateInternalSecret | auth_microservice/web/api/admin/views.py:22-31 | only `internal_api_secret` opens the gate (401 `invalid_internal_secret` otherwise); without it, only dev or pytest pass (503 `internal_access_not_configured`); the internal views' copy at internal/views.py:19-28 is the same |
| SecretGates.ReseedDefaults | auth_microservice/web/api/admin/views.py:72-81 | after the gate, a production environment in any letter case answers 403 `operation_not_allowed_in_prod`; a closed gate answers 401 `invalid_internal_secret` when the secret is set, else 503 `internal_access_not_configured` |
| SecretGates.OpenIsNotProduction | auth_microservice/web/api/admin/views.py:77-78 | an environment open without a secret is never a production one |
| SecretGates.AdminLookupFailure | auth_microservice/web/api/admin/views.py:47-52 | `organization_not_found` answers 404 and any other error 500 |
| SecretGates.AdminLookup | auth_microservice/web/api/admin/views.py:40-69 | succeeds iff the gate opens and the lookup finds the organization; a closed gate answers its 401 or 503, and an open gate with a failed lookup answers `AdminLookupFailure` of its code |
| SecretGates.InvalidateCache | auth_microservice/web/api/internal/views.py:69-75 | the cache is invalidated only after the gate opens, and the answer is `"invalidated"` |
| SecretGates.Reindex | auth_microservice/web/api/internal/views.py:57-66 | after the gate, reports the rebuild's `documents_indexed`, or 0 when it reports none |

## Left out

- Sessions: creating, refreshing and revoking sessions, and password reset, are not in the authentication service as written. The views call them, and the model takes their results as parameters: the session table in `Principal.CurrentPrincipal`, the token data in `AuthViews.BuildTokenPair`, the reset outcome in `AuthViews.ForgotPassword`.
- A Redis cache of RBAC decisions: the engine as written has none, so none is modelled.
- Casbin's matcher is not part of this model, and `model.conf` is not part of it either. `RbacEngine.RbacService.Enforce` assumes the usual two-level lookup: the user's groupings in the domain, then the role's policies in that domain. Transitive role inheritance is not modelled.
- Concurrency: the async handlers, the engine's lock, and the database session's lifecycle (commit on success, rollback on error) are left out. Rollback is stated as "a failure changes nothing".
- Cryptography: bcrypt, JWT signing and verification, and the exact token text are abstracted as parameters. `secrets.compare_digest` is equality.
- Systems outside the core: MongoDB, the Casdoor code exchange, Google's user-info call, Prometheus, the audit and email event publishers, and RabbitMQ connection and channel pools with their start-up and shutdown. Acknowledging messages on the in-memory queue is left out too.
- Read-only wrappers that only list or fetch, with no rule of their own: listing plans, invoices, roles and permissions, fetching one alert, listing organizations, and the admin search and overview services. The admin overview and snapshot results are parameters of `SecretGates.AdminLookup`.
- The versioned organization and bootstrap views are left out. The services they call are modelled.
- settings.py is not part of this model. The settings are a datatype whose values are parameters.
- Billing: subscriptions are owned through `organization_id` throughout (auth_microservice/services/billing.py:106, 127, 165), but history rows and invoices are reached through a `school_id` that the mapped classes do not have; they name that column `org_id` (auth_microservice/db/models/oltp.py:491, 540). As written, `SubscriptionHistory(school_id=...)` (auth_microservice/services/billing.py:198) raises `TypeError`, and the filter on `Invoice.school_id` (auth_microservice/services/billing.py:212) and the reads of `invoice.school_id` (auth_microservice/web/api/v1/billing/views.py:223, 239) raise `AttributeError`, so `Billing.CreateSubscription`, `Billing.UpdateSubscription` with a history status, `BillingViews.GetInvoice` and `BillingViews.UpdateInvoiceView` would answer 500. The model keeps one organization field on history rows and invoices and lets those paths succeed; the `TypeError` and `AttributeError` paths are not modelled.
- Billing: decimal amounts are integers. Dates are whole days and datetimes are whole seconds.
- Ids: one counter (`Tables.Database.nextId`) hands out the ids of organizations, roles, permissions, users and SSO providers, where the database has one sequence per table. Statements that mention the next id, such as the admin role name `org_<id>_admin` that `Organizations.CreateOrganization` checks before inserting, speak of that shared counter.
- Enumerations are closed datatypes. Their string conversion is modelled only where a service converts (`Users.ApplyUpdatesOutcome`). Unicode digits accepted by Python's `int()` are not: `Tokens.ClaimInt` parses ASCII decimal digits with an optional sign and surrounding whitespace.
- Tokens.ClaimInt: a float claim is the exact finite binary value it decodes to. The rounding of the JSON number's decimal text to that value is not modelled, nor are the non-finite values Python's `json` module also accepts: `int()` raises `ValueError` on `NaN`, which the dependency turns into `invalid_token_payload`, and `OverflowError` on `Infinity`, which it does not catch.
- Users.ApplyContactOutcome: payload keys naming the contact's key columns `user_id` and `address_id`, its `user` relationship or the mapped class's other attributes are skipped in the model, while `hasattr` finds them and `setattr` writes them (auth_microservice/services/users.py:120-121). The views' request schema never passes such keys.
- Users.UpsertContactInformation: for the same reason, a payload naming `user_id`, `address_id`, `user` or another class attribute is not modelled; moving a contact row to another user or key is outside the model.
- FeatureFlags.Decode: a stored value that comes back as `str` rather than `bytes` (`bool(int(v))`) is not modelled; stored values are the bytes `"1"` or `"0"` that `set_flags` writes.
- Organizations.EnsurePermissions: a requested name listed twice makes the source insert it twice and fail on the unique constraint. The model reports that case as an integrity error without modelling the partial insert.
- Bootstrap.BootstrapSuperuser: when registration fails, the caller's transaction (auth_microservice/cli.py:81-84) rolls back the root organization, the super role and its links created before it; the model keeps them, and its contract states the organizations, roles, permissions and links as the two ensure steps left them.
- AuthService.GetOrCreateUserFromSso: requires a profile whose name and uid fields are text or absent (`AuthService.ProfileShape`). Profiles with other value types are not modelled.
- The SSO callbacks are modelled only through their profile checks (`AuthViews.UnversionedProfileRefused`, `AuthViews.VersionedProfileRefused`). The redirect, cookie and provider-call steps are left out. The unversioned callback's `contact_missing_email` branch cannot be reached once the service has accepted the profile (`AuthViews.UnversionedCheckAfterResolution`).
- Broker.Queue.Delete: the `if_unused` and `if_empty` flags are ignored, as the in-memory queue ignores them.
- SecurityAlerts.ListAlerts: the order among alerts created at the same instant is left unspecified, as the database leaves it.
- The metrics ingestion handlers behind the gate are left out. Only the gate is modelled.

=== FILE: auth_service.dfy ===
/**
 * `AuthService` of `services/auth/service.py`: registration, password login,
 * token claims and the resolution of a Google profile to a local user.
 * Password hashing is bcrypt in the service; here it is a pair of functions
 * of which only `Sound` is assumed, and its salting is left out.
 */
module AuthService {
  import opened Wrappers
  import opened Tables
  import opened Errors
  import opened Tokens
  import Strings

  datatype PasswordHasher = PasswordHasher(hash: string -> string, verify: (string, string) -> bool)

  /** What the service relies on from the hashing library: a password verifies against its own hash. */
  ghost predicate Sound(h: PasswordHasher)
  {
    forall p: string :: h.verify(p, h.hash(p))
  }

  // ---------------------------------------------------------------------------
  // register_user
  // ---------------------------------------------------------------------------

  /**
   * A registration payload after `contact_information` and `password` are
   * popped: `profile` holds the remaining user columns (first_name,
   * middle_name, last_name, date_of_birth, gender, nationality).
   */
  datatype Registration = Registration(
    username: string,
    password: string,
    orgId: int,
    roleId: Option<int>,
    profile: map<string, Value>,
    email: string,
    contact: Dict)

  /** The user row `register_user` writes: the hashed password, never the plain one, and the default status. */
  function NewUser(reg: Registration, h: PasswordHasher): (u: User)
    ensures u.username == reg.username && u.password == h.hash(reg.password)
    ensures u.orgId == reg.orgId && u.roleId == reg.roleId && u.fields == reg.profile
    ensures u.status == UserStatus.Active && u.lastLogin == None
  {
    User(reg.username, h.hash(reg.password), reg.orgId, reg.roleId, UserStatus.Active, reg.profile, None)
  }

  /** The contact row `register_user` writes: the eight optional payload fields and an unverified phone. */
  function RegisteredContact(reg: Registration): (c: Contact)
    ensures c.email == reg.email
    ensures c.attrs.Keys == Strings.Elems(ContactPayloadFields) + {"verified_phone_number"}
    ensures c.attrs["verified_phone_number"] == Flag(false)
    ensures forall k | k in ContactPayloadFields :: c.attrs[k] == Get(reg.contact, k)
  {
    var fields := map k | k in ContactPayloadFields :: Get(reg.contact, k);
    Contact(reg.email, fields["verified_phone_number" := Flag(false)])
  }

  /**
   * What the database accepts on flush besides the unique columns: the
   * organization and the role exist (foreign keys) and first_name is set.
   * The role may belong to any organization: `register_user` does not check it.
   */
  predicate Insertable(orgs: map<int, Organization>, roles: map<int, Role>, reg: Registration)
  {
    && reg.orgId in orgs
    && (reg.roleId.Some? ==> reg.roleId.value in roles)
    && HasFirstName(reg)
  }

  /** The NOT NULL `first_name` column is given a value. */
  predicate HasFirstName(reg: Registration)
  {
    "first_name" in reg.profile && reg.profile["first_name"] != Null
  }

  method RegisterUser(db: Database, reg: Registration, h: PasswordHasher) returns (r: Result<int, Code>)
    requires db.Valid()
    modifies db`users, db`contacts, db`nextId
    ensures db.Valid()
    ensures UsernameTaken(old(db.users), reg.username) ==> r == Err(UsernameAlreadyExists)
    ensures !UsernameTaken(old(db.users), reg.username) && EmailTaken(old(db.contacts), reg.email) ==>
      r == Err(EmailAlreadyExists)
    ensures r.Ok? <==>
      !UsernameTaken(old(db.users), reg.username) && !EmailTaken(old(db.contacts), reg.email)
      && Insertable(db.orgs, db.roles, reg)
    ensures r.Err? ==> r.error in {UsernameAlreadyExists, EmailAlreadyExists, IntegrityError}
    ensures r.Err? ==> unchanged(db`users, db`contacts, db`nextId)
    ensures r.Ok? ==>
      && r.value == old(db.nextId) && r.value !in old(db.users)
      && db.users == old(db.users)[r.value := NewUser(reg, h)]
      && db.contacts == old(db.contacts)[r.value := RegisteredContact(reg)]
  {
    if exists id | id in db.users :: db.users[id].username == reg.username {
      return Err(UsernameAlreadyExists);
    }
    if exists id | id in db.contacts :: db.contacts[id].email == reg.email {
      return Err(EmailAlreadyExists);
    }
    if !Insertable(db.orgs, db.roles, reg) {
      return Err(IntegrityError);
    }
    var id := db.AddUser(NewUser(reg, h), RegisteredContact(reg));
    return Ok(id);
  }

  // ---------------------------------------------------------------------------
  // authenticate_user
  // ---------------------------------------------------------------------------

  /** Some user with this username has a contact row and a password hash the password verifies against. */
  ghost predicate LogsIn(users: map<int, User>, contacts: map<int, Contact>, username: string, password: string, h: PasswordHasher)
  {
    exists id | id in users && id in contacts :: users[id].username == username && h.verify(password, users[id].password)
  }

  /**
   * Looks the user up joined with its contact row, checks the password,
   * stamps `last_login` and records one successful standard login. Both
   * failures answer the same code.
   */
  method AuthenticateUser(db: Database, username: string, password: string, h: PasswordHasher, now: int)
    returns (r: Result<(int, string), Code>)
    requires db.Valid()
    modifies db`users, db`logins
    ensures db.Valid()
    ensures r.Ok? <==> LogsIn(old(db.users), db.contacts, username, password, h)
    ensures r.Err? ==> r.error == InvalidCredentials && unchanged(db`users, db`logins)
    ensures r.Ok? ==>
      var (id, email) := r.value;
      && id in old(db.users) && id in db.contacts
      && old(db.users)[id].username == username && email == db.contacts[id].email
      && db.users == old(db.users)[id := old(db.users)[id].(lastLogin := Some(now))]
      && db.logins == old(db.logins) + [LoginActivity(id, now, LoginMethod.Standard, true)]
  {
    if id :| id in db.users && id in db.contacts && db.users[id].username == username {
      var user := db.users[id];
      if !h.verify(password, user.password) {
        return Err(InvalidCredentials);
      }
      db.users := db.users[id := user.(lastLogin := Some(now))];
      db.logins := db.logins + [LoginActivity(id, now, LoginMethod.Standard, true)];
      return Ok((id, db.contacts[id].email));
    }
    return Err(InvalidCredentials);
  }

  /** With a sound hasher, the credentials a user registered with log in while its rows exist. */
  lemma RegisteredUserLogsIn(users: map<int, User>, contacts: map<int, Contact>, id: int, reg: Registration, h: PasswordHasher)
    requires Sound(h)
    requires id in users && users[id] == NewUser(reg, h) && id in contacts
    ensures LogsIn(users, contacts, reg.username, reg.password, h)
  {
    assert h.verify(reg.password, h.hash(reg.password));
  }

  // ---------------------------------------------------------------------------
  // issue_token
  // ---------------------------------------------------------------------------

  /** The extra claims `issue_token` adds; the email only when it is truthy. */
  function UserClaims(user: User, email: Option<string>): (c: Claims)
    ensures c.Keys == {"username", "organization_id", "role_id"} + (if email.Some? && email.value != "" then {"email"} else {})
    ensures c["username"] == CText(user.username) && c["organization_id"] == CInt(user.orgId)
    ensures ClaimInt(c["role_id"]) == user.roleId
    ensures "email" in c ==> c["email"] == CText(email.value)
  {
    var base := map[
      "username" := CText(user.username),
      "organization_id" := CInt(user.orgId),
      "role_id" := if user.roleId.Some? then CInt(user.roleId.value) else CNull];
    if email.Some? && email.value != "" then base["email" := CText(email.value)] else base
  }

  /** The claim names of an issued payload. */
  lemma IssuedKeys(userId: int, user: User, email: Option<string>, minutes: int, now: int)
    ensures AccessPayload(Strings.IntToString(userId), minutes, minutes, now, UserClaims(user, email)).Keys
      == {"sub", "exp", "username", "organization_id", "role_id"} + (if email.Some? && email.value != "" then {"email"} else {})
  {
  }

  /** The subject and expiry of an issued payload. */
  lemma IssuedSubject(userId: int, user: User, email: Option<string>, minutes: int, now: int)
    ensures var p := AccessPayload(Strings.IntToString(userId), minutes, minutes, now, UserClaims(user, email));
      && ClaimInt(p["sub"]) == Some(userId)
      && p["exp"] == CInt(now + 60 * minutes)
  {
    var extra := UserClaims(user, email);
    assert "sub" !in extra && "exp" !in extra;
    Strings.IntToStringRoundTrip(userId);
  }

  /** The user's own claims in an issued payload. */
  lemma IssuedUserClaims(userId: int, user: User, email: Option<string>, minutes: int, now: int)
    ensures var p := AccessPayload(Strings.IntToString(userId), minutes, minutes, now, UserClaims(user, email));
      && p["organization_id"] == CInt(user.orgId) && p["username"] == CText(user.username)
      && ClaimInt(p["role_id"]) == user.roleId
      && ("email" in p ==> p["email"] == CText(email.value))
  {
    var extra := UserClaims(user, email);
    assert "email" in extra <==> email.Some? && email.value != "";
  }

  /**
   * `issue_token`: the payload of the signed token and its lifetime in
   * minutes. The subject is the decimal user id, which reads back as that id.
   */
  function IssueToken(userId: int, user: User, email: Option<string>, minutes: int, now: int): (r: (Claims, int))
    ensures r.1 == minutes
    ensures r.0.Keys == {"sub", "exp", "username", "organization_id", "role_id"}
                        + (if email.Some? && email.value != "" then {"email"} else {})
    ensures ClaimInt(r.0["sub"]) == Some(userId)
    ensures r.0["exp"] == CInt(now + 60 * minutes)
    ensures r.0["organization_id"] == CInt(user.orgId) && r.0["username"] == CText(user.username)
    ensures ClaimInt(r.0["role_id"]) == user.roleId
    ensures "email" in r.0 ==> r.0["email"] == CText(email.value)
  {
    var payload := AccessPayload(Strings.IntToString(userId), minutes, minutes, now, UserClaims(user, email));
    IssuedKeys(userId, user, email, minutes, now);
    IssuedSubject(userId, user, email, minutes, now);
    IssuedUserClaims(userId, user, email, minutes, now);
    (payload, minutes)
  }

  // ---------------------------------------------------------------------------
  // upsert_sso_provider
  // ---------------------------------------------------------------------------

  /** A value a nullable text column takes. */
  predicate TextOrNull(v: Value)
  {
    v.Text? || v.Null?
  }

  /**
   * Finds the provider row by uid or creates one for the user, then
   * overwrites both tokens from the token payload. A token of another type
   * than text is rejected by the driver.
   */
  method UpsertSsoProvider(db: Database, userId: int, uid: string, email: string, tokens: Dict)
    returns (r: Result<int, Code>)
    requires db.Valid()
    modifies db`providers, db`nextId
    ensures db.Valid()
    ensures r.Err? <==> !TextOrNull(Get(tokens, "access_token")) || !TextOrNull(Get(tokens, "refresh_token"))
    ensures r.Err? ==> r.error == DataError && unchanged(db`providers, db`nextId)
    ensures r.Ok? ==>
      && r.value in db.providers && db.providers[r.value].uid == uid
      && db.providers[r.value].accessToken == Get(tokens, "access_token")
      && db.providers[r.value].refreshToken == Get(tokens, "refresh_token")
      && (forall p | p in db.providers && db.providers[p].uid == uid :: p == r.value)
    ensures r.Ok? && (exists p | p in old(db.providers) :: old(db.providers)[p].uid == uid) ==>
      && r.value in old(db.providers) && db.nextId == old(db.nextId)
      && db.providers == old(db.providers)[r.value := old(db.providers)[r.value].(
           accessToken := Get(tokens, "access_token"), refreshToken := Get(tokens, "refresh_token"))]
    ensures r.Ok? && (forall p | p in old(db.providers) :: old(db.providers)[p].uid != uid) ==>
      && r.value == old(db.nextId) && db.nextId == r.value + 1
      && db.providers == old(db.providers)[r.value := SsoProvider(
           userId, uid, email, Get(tokens, "access_token"), Get(tokens, "refresh_token"))]
  {
    var access, refresh := Get(tokens, "access_token"), Get(tokens, "refresh_token");
    if !TextOrNull(access) || !TextOrNull(refresh) {
      return Err(DataError);
    }
    if p :| p in db.providers && db.providers[p].uid == uid {
      db.providers := db.providers[p := db.providers[p].(accessToken := access, refreshToken := refresh)];
      return Ok(p);
    }
    var id := db.nextId;
    db.providers := db.providers[id := SsoProvider(userId, uid, email, access, refresh)];
    db.nextId := db.nextId + 1;
    return Ok(id);
  }

  // ---------------------------------------------------------------------------
  // get_or_create_user_from_sso
  // ---------------------------------------------------------------------------

  /** `profile.get("sub") or profile.get("id")`. */
  function ProviderUid(profile: Dict): Value
  {
    if Truthy(Get(profile, "sub")) then Get(profile, "sub") else Get(profile, "id")
  }

  /** `profile.get("name") or profile.get("displayName") or "Google User"`. */
  function DisplayName(profile: Dict): Value
  {
    if Truthy(Get(profile, "name")) then Get(profile, "name")
    else if Truthy(Get(profile, "displayName")) then Get(profile, "displayName")
    else Text("Google User")
  }

  /**
   * What the service demands of a profile beyond what it checks: the display
   * name it picks is a string it can partition, and a `sub` key, when
   * present, holds a string it can hash.
   */
  predicate ProfileShape(profile: Dict)
  {
    && DisplayName(profile).Text?
    && ("sub" in Keys(profile) ==> Get(profile, "sub").Text?)
  }

  /** The user row created for an unknown Google account: the display name split at its first space. */
  function SsoUser(profile: Dict, email: string, orgId: int, h: PasswordHasher): (u: User)
    requires ProfileShape(profile)
    ensures u.username == email && u.orgId == orgId && u.roleId == None && u.status == UserStatus.Active
    ensures u.fields.Keys == {"first_name", "last_name"}
    ensures u.fields["first_name"].Text? && ' ' !in u.fields["first_name"].text
    ensures var name := DisplayName(profile).text;
      if u.fields["last_name"].Text?
      then name == u.fields["first_name"].text + " " + u.fields["last_name"].text
      else u.fields["last_name"] == Null
           && (name == u.fields["first_name"].text || name == u.fields["first_name"].text + " ")
  {
    var (first, _, last) := Strings.Partition(DisplayName(profile).text, ' ');
    var secret := if "sub" in Keys(profile) then Get(profile, "sub").text else email;
    User(email, h.hash(secret), orgId, None, UserStatus.Active,
         map["first_name" := Text(first), "last_name" := if last == "" then Null else Text(last)], None)
  }

  /**
   * Resolves a Google profile to a local user, in order: a missing uid, a
   * missing email, a linked provider (whose user must exist), a contact row
   * with that email, and otherwise a new user named by the email. The
   * provider row itself is not written here.
   */
  method GetOrCreateUserFromSso(db: Database, profile: Dict, orgId: int, h: PasswordHasher)
    returns (r: Result<int, Code>)
    requires db.Valid() && ProfileShape(profile)
    modifies db`users, db`contacts, db`nextId
    ensures db.Valid()
    ensures ProviderUid(profile) == Null ==> r == Err(MissingProviderUid)
    ensures ProviderUid(profile) != Null && !Truthy(Get(profile, "email")) ==> r == Err(MissingEmail)
    ensures r.Err? ==> unchanged(db`users, db`contacts, db`nextId)
    ensures r.Ok? ==> ProviderUid(profile).Text? && Truthy(Get(profile, "email")) && r.value in db.users
    ensures r.Ok? && (exists p | p in db.providers :: db.providers[p].uid == ProviderUid(profile).text) ==>
      unchanged(db`users, db`contacts, db`nextId)
      && exists p | p in db.providers :: db.providers[p].uid == ProviderUid(profile).text && db.providers[p].userId == r.value
    ensures r.Ok? && Get(profile, "email").Text? && old(EmailTaken(db.contacts, Get(profile, "email").text)) ==>
      unchanged(db`users, db`contacts, db`nextId)
    ensures ProviderUid(profile).Text? && Truthy(Get(profile, "email"))
            && (exists p | p in db.providers :: db.providers[p].uid == ProviderUid(profile).text) ==>
      && (r.Ok? <==> exists p | p in db.providers :: db.providers[p].uid == ProviderUid(profile).text
                                                     && db.providers[p].userId in old(db.users))
      && (r.Err? ==> r.error == OrphanSsoProvider)
    ensures ProviderUid(profile).Text? && Get(profile, "email").Text? && Truthy(Get(profile, "email"))
            && (forall p | p in db.providers :: db.providers[p].uid != ProviderUid(profile).text)
            && old(EmailTaken(db.contacts, Get(profile, "email").text)) ==>
      r.Ok? && r.value in old(db.contacts) && old(db.contacts)[r.value].email == Get(profile, "email").text
    ensures ProviderUid(profile).Text? && Get(profile, "email").Text? && Truthy(Get(profile, "email"))
            && (forall p | p in db.providers :: db.providers[p].uid != ProviderUid(profile).text)
            && !old(EmailTaken(db.contacts, Get(profile, "email").text)) ==>
      && (r.Ok? <==> !old(UsernameTaken(db.users, Get(profile, "email").text)) && orgId in db.orgs)
      && (r.Ok? ==> r.value !in old(db.users))
      && (r.Err? ==> r.error == IntegrityError)
    ensures r.Ok? && r.value !in old(db.users) ==>
      Get(profile, "email").Text? &&
      var email := Get(profile, "email").text;
      && (forall p | p in db.providers :: db.providers[p].uid != ProviderUid(profile).text)
      && !old(EmailTaken(db.contacts, email))
      && db.users == old(db.users)[r.value := SsoUser(profile, email, orgId, h)]
      && db.contacts == old(db.contacts)[r.value := Contact(email, map["verified_phone_number" := Flag(false)])]
  {
    var uid := ProviderUid(profile);
    if uid == Null {
      return Err(MissingProviderUid);
    }
    var email := Get(profile, "email");
    if !Truthy(email) {
      return Err(MissingEmail);
    }
    if !uid.Text? {
      return Err(DataError);
    }
    if p :| p in db.providers && db.providers[p].uid == uid.text {
      var owner := db.providers[p].userId;
      if owner in db.users {
        return Ok(owner);
      }
      return Err(OrphanSsoProvider);
    }
    if !email.Text? {
      return Err(DataError);
    }
    if c :| c in db.contacts && db.contacts[c].email == email.text {
      return Ok(c);
    }
    var user := SsoUser(profile, email.text, orgId, h);
    if UsernameTaken(db.users, email.text) || orgId !in db.orgs {
      return Err(IntegrityError);
    }
    var id := db.AddUser(user, Contact(email.text, map["verified_phone_number" := Flag(false)]));
    return Ok(id);
  }
}

=== FILE: auth_views.dfy ===
/**
 * The decisions of the two authentication view modules,
 * `web/api/auth/views.py` and `web/api/v1/auth/views.py`: the OAuth
 * `state` value (section 4.1.1 of RFC 6749) that carries the organization
 * through the Google login, the error-to-status mapping of registration
 * and login, the response builders, and the profile checks of the SSO
 * callbacks.
 */
module AuthViews {
  import opened Wrappers
  import opened Tables
  import opened Errors
  import opened Tokens
  import Strings
  import AuthService
  import RbacEngine

  // ---------------------------------------------------------------------------
  // The OAuth state: "org:<id>:<nonce>"
  // ---------------------------------------------------------------------------

  /** The state `google_sso_login` sends along with the login URL. */
  function LoginState(orgId: int, nonce: string): string
  {
    "org:" + Strings.IntToString(orgId) + ":" + nonce
  }

  /** `state` is "org", a colon, a part without colons, a colon and the rest. */
  predicate StateShape(state: string, part: string, rest: string)
  {
    state == "org" + [':'] + part + [':'] + rest && ':' !in part
  }

  /**
   * `_extract_org_from_state` and `_parse_org_from_state`, which are the
   * same code: split at the first two colons, require the prefix "org" and
   * an integer middle part. Every failure is a 400 `invalid_state`.
   */
  function OrgFromState(state: string): (r: Result<int, HttpError>)
    ensures r.Err? ==> r.error == HttpError(400, InvalidState)
    ensures r.Ok? ==> exists part, rest :: StateShape(state, part, rest) && Strings.ParseInt(part) == Some(r.value)
  {
    match Strings.SplitThree(state, ':')
    case None => Err(HttpError(400, InvalidState))
    case Some((prefix, part, rest)) =>
      if prefix != "org" then Err(HttpError(400, InvalidState))
      else match Strings.ParseInt(part)
        case None => Err(HttpError(400, InvalidState))
        case Some(orgId) =>
          assert StateShape(state, part, rest);
          Ok(orgId)
  }

  /** Round trip: the organization comes back out of the state, whatever the nonce holds, colons included. */
  lemma {:induction false} StateRoundTrip(orgId: int, nonce: string)
    ensures OrgFromState(LoginState(orgId, nonce)) == Ok(orgId)
  {
    var digits := Strings.IntToString(orgId);
    var state := LoginState(orgId, nonce);
    assert state == "org" + [':'] + (digits + [':'] + nonce);
    Strings.PartitionFirst("org", digits + [':'] + nonce, ':');
    Strings.PartitionFirst(digits, nonce, ':');
    Strings.IntToStringRoundTrip(orgId);
  }

  // ---------------------------------------------------------------------------
  // Unversioned handlers
  // ---------------------------------------------------------------------------

  datatype UserResponse = UserResponse(
    userId: int,
    username: string,
    firstName: Value,
    lastName: Value,
    orgId: int,
    roleId: Option<int>,
    email: string)

  function Column(u: User, name: string): Value
  {
    if name in u.fields then u.fields[name] else Null
  }

  /** `_build_user_response`: a missing or empty email is answered as "". */
  function BuildUserResponse(userId: int, u: User, email: Option<string>): (r: UserResponse)
    ensures r.email == (if email.Some? then email.value else "")
    ensures r.userId == userId && r.username == u.username && r.orgId == u.orgId && r.roleId == u.roleId
    ensures r.firstName == Column(u, "first_name") && r.lastName == Column(u, "last_name")
  {
    UserResponse(userId, u.username, Column(u, "first_name"), Column(u, "last_name"), u.orgId, u.roleId,
                 if email.Some? && email.value != "" then email.value else "")
  }

  /**
   * How `register_user`'s view answers a service error: the two conflicts
   * are 409, any other `ValueError` 400; a database error is not caught and
   * surfaces as a 500.
   */
  function RegisterFailure(c: Code): (e: HttpError)
    ensures e.code == c
    ensures e.status == 409 <==> c == UsernameAlreadyExists || c == EmailAlreadyExists
    ensures e.status == 500 <==> c == IntegrityError || c == DataError
    ensures e.status in {400, 409, 500}
  {
    if c == UsernameAlreadyExists || c == EmailAlreadyExists then HttpError(409, c)
    else if c == IntegrityError || c == DataError then HttpError(500, c)
    else HttpError(400, c)
  }

  /** The `/auth/register` handler: register, then invalidate the RBAC cache, only on success. */
  method Register(db: Database, rbac: RbacEngine.RbacService, reg: AuthService.Registration, h: AuthService.PasswordHasher)
    returns (resp: Response<UserResponse>)
    requires db.Valid()
    modifies db`users, db`contacts, db`nextId, rbac`loaded
    ensures db.Valid()
    ensures UsernameTaken(old(db.users), reg.username) ==> resp == Failure(HttpError(409, UsernameAlreadyExists))
    ensures !UsernameTaken(old(db.users), reg.username) && EmailTaken(old(db.contacts), reg.email) ==>
      resp == Failure(HttpError(409, EmailAlreadyExists))
    ensures resp.Success? <==>
      !UsernameTaken(old(db.users), reg.username) && !EmailTaken(old(db.contacts), reg.email)
      && AuthService.Insertable(db.orgs, db.roles, reg)
    ensures resp.Failure? ==>
      && resp.error == RegisterFailure(resp.error.code)
      && unchanged(db`users, db`contacts, db`nextId) && unchanged(rbac`loaded)
    ensures resp.Success? ==>
      && !rbac.loaded
      && resp.body.userId == old(db.nextId)
      && db.users == old(db.users)[resp.body.userId := AuthService.NewUser(reg, h)]
      && resp.body == BuildUserResponse(resp.body.userId, AuthService.NewUser(reg, h), Some(reg.email))
  {
    var r := AuthService.RegisterUser(db, reg, h);
    if r.Err? {
      return Failure(RegisterFailure(r.error));
    }
    rbac.InvalidateCache();
    return Success(BuildUserResponse(r.value, AuthService.NewUser(reg, h), Some(reg.email)));
  }

  datatype TokenResponse = TokenResponse(accessToken: Claims, tokenType: string, expiresIn: int)

  /** The `/auth/login` handler: a token for the user, with its lifetime in seconds. */
  method Login(db: Database, username: string, password: string, h: AuthService.PasswordHasher, minutes: int, now: int)
    returns (resp: Response<TokenResponse>)
    requires db.Valid()
    modifies db`users, db`logins
    ensures db.Valid()
    ensures resp.Failure? <==> !AuthService.LogsIn(old(db.users), db.contacts, username, password, h)
    ensures resp.Failure? ==> resp.error == HttpError(401, InvalidCredentials) && unchanged(db`users, db`logins)
    ensures resp.Success? ==>
      && resp.body.expiresIn == minutes * 60 && resp.body.tokenType == "bearer"
      && exists id | id in old(db.users) && id in db.contacts ::
           && old(db.users)[id].username == username
           && db.users == old(db.users)[id := old(db.users)[id].(lastLogin := Some(now))]
           && db.logins == old(db.logins) + [LoginActivity(id, now, LoginMethod.Standard, true)]
           && resp.body.accessToken == AuthService.IssueToken(id, db.users[id], Some(db.contacts[id].email), minutes, now).0
  {
    var r := AuthService.AuthenticateUser(db, username, password, h, now);
    if r.Err? {
      return Failure(HttpError(401, r.error));
    }
    var (id, email) := r.value;
    assert id in old(db.users) && id in db.contacts && old(db.users)[id].username == username;
    var (claims, expires) := AuthService.IssueToken(id, db.users[id], Some(email), minutes, now);
    return Success(TokenResponse(claims, "bearer", expires * 60));
  }

  // ---------------------------------------------------------------------------
  // The SSO profile checks
  // ---------------------------------------------------------------------------

  /** The unversioned callback refuses a profile only when the uid or the email is `None`. */
  predicate UnversionedProfileRefused(profile: Dict)
  {
    AuthService.ProviderUid(profile) == Null || Get(profile, "email") == Null
  }

  /** The versioned callback and link refuse any falsy uid or email. */
  predicate VersionedProfileRefused(profile: Dict)
  {
    !Truthy(AuthService.ProviderUid(profile)) || !Truthy(Get(profile, "email"))
  }

  /** The versioned check is at least as strict as the unversioned one. */
  lemma VersionedCheckStricter(profile: Dict)
    requires UnversionedProfileRefused(profile)
    ensures VersionedProfileRefused(profile)
  {
  }

  /** And strictly so: empty `sub` and `id` pass the unversioned check but not the versioned one. */
  lemma EmptyUidOnlyVersionedRefuses()
    ensures var profile: Dict := [("sub", Text("")), ("id", Text("")), ("email", Text("a@example.com"))];
      !UnversionedProfileRefused(profile) && VersionedProfileRefused(profile)
  {
    var profile: seq<(string, Value)> := [("sub", Text("")), ("id", Text("")), ("email", Text("a@example.com"))];
    assert profile[1].0 == "id" && profile[2].0 == "email";
  }

  /**
   * After `get_or_create_user_from_sso` has succeeded, the unversioned
   * check can no longer refuse: the service already rejected a `None` uid
   * and any falsy email.
   */
  lemma UnversionedCheckAfterResolution(profile: Dict)
    requires AuthService.ProviderUid(profile).Text? && Truthy(Get(profile, "email"))
    ensures !UnversionedProfileRefused(profile)
  {
  }

  // ---------------------------------------------------------------------------
  // Versioned helpers
  // ---------------------------------------------------------------------------

  /** What the session layer hands `_build_token_pair`. */
  datatype SessionData = SessionData(accessToken: string, refreshToken: string, accessMinutes: int,
                                     refreshExpiresAt: int, sessionId: int)

  datatype TokenPair = TokenPair(accessToken: string, refreshToken: string, expiresIn: int,
                                 refreshExpiresAt: int, sessionId: int)

  /** `_build_token_pair`: the access lifetime in seconds and the session's id. */
  function BuildTokenPair(d: SessionData): (p: TokenPair)
    ensures p.expiresIn == d.accessMinutes * 60 && p.sessionId == d.sessionId
    ensures p.accessToken == d.accessToken && p.refreshToken == d.refreshToken
    ensures p.refreshExpiresAt == d.refreshExpiresAt
  {
    TokenPair(d.accessToken, d.refreshToken, d.accessMinutes * 60, d.refreshExpiresAt, d.sessionId)
  }

  /** `_resolve_email`: a truthy fallback wins; otherwise the user's contact email, if any. */
  function ResolveEmail(contacts: map<int, Contact>, userId: int, fallback: Option<string>): (e: Option<string>)
    ensures fallback.Some? && fallback.value != "" ==> e == fallback
    ensures !(fallback.Some? && fallback.value != "") ==>
      e == (if userId in contacts then Some(contacts[userId].email) else None)
  {
    if fallback.Some? && fallback.value != "" then fallback
    else if userId in contacts then Some(contacts[userId].email)
    else None
  }

  /** With a truthy fallback the store is not consulted: any two stores give the same answer. */
  lemma ResolveEmailIgnoresStore(a: map<int, Contact>, b: map<int, Contact>, userId: int, fallback: Option<string>)
    requires fallback.Some? && fallback.value != ""
    ensures ResolveEmail(a, userId, fallback) == ResolveEmail(b, userId, fallback)
  {
  }

  /** `_get_client_ip`: the peer address when it is known and non-empty, else the `x-forwarded-for` header. */
  function ClientIp(peer: Option<string>, forwardedFor: Option<string>): (ip: Option<string>)
    ensures peer.Some? && peer.value != "" ==> ip == peer
    ensures !(peer.Some? && peer.value != "") ==> ip == forwardedFor
  {
    if peer.Some? && peer.value != "" then peer else forwardedFor
  }

  datatype ForgotPasswordResponse = ForgotPasswordResponse(status: string, resetToken: Option<string>)

  /**
   * `forgot_password`'s answer, given the token the (unmodelled) reset
   * service issued, if any: always "ok" and no token, so the answer does
   * not reveal whether the account exists.
   */
  function ForgotPassword(issued: Option<string>): (r: ForgotPasswordResponse)
    ensures r == ForgotPasswordResponse("ok", None)
  {
    ForgotPasswordResponse("ok", None)
  }
}

=== FILE: billing.dfy ===
/**
 * The billing service (`services/billing.py`): plans, the one subscription
 * of an organization with its history rows, and invoices. Every update
 * takes a Python dict of changes; a key of it is a `Patch`: absent, or
 * given with a value that may itself be `None`. Enumeration columns hold
 * their string values; money is an integer amount.
 */
module Billing {
  import opened Wrappers
  import opened Errors

  /** A `date` or a `datetime`, as the subscription columns accept either. */
  datatype Moment = Day(ordinal: int) | Instant(seconds: int)

  const SecondsPerDay := 86400

  datatype Plan = Plan(
    name: string,
    description: Option<string>,
    price: int,
    cycle: string,
    maxUsers: Option<int>,
    maxStorage: Option<int>,
    supportLevel: Option<string>)

  datatype Subscription = Subscription(
    orgId: int,
    start: Option<Moment>,
    end: Option<Moment>,
    planType: string,
    paymentStatus: string)

  /** A subscription history row; its dates are always datetimes. */
  datatype HistoryRow = HistoryRow(orgId: int, planId: int, start: Option<int>, end: Option<int>, status: string)

  datatype Invoice = Invoice(
    orgId: int,
    planId: int,
    amount: int,
    cycle: string,
    invoiceDate: Option<int>,
    dueDate: Option<int>,
    status: string,
    paymentMethod: Option<string>,
    paymentDate: Option<int>)

  /** A key whose value is stored whatever it is, `None` included. */
  function Overwrite<T>(current: T, p: Patch<T>): T
  {
    if p.Given? then p.value else current
  }

  /** A key whose value is stored only when it is not `None`. */
  function OverwriteUnlessNone<T>(current: T, p: Patch<Option<T>>): T
  {
    if p.Given? && p.value.Some? then p.value.value else current
  }

  predicate PlanNameTaken(plans: map<int, Plan>, name: string)
  {
    exists id | id in plans :: plans[id].name == name
  }

  predicate OrganizationHasSubscription(subscriptions: map<int, Subscription>, orgId: int)
  {
    exists id | id in subscriptions :: subscriptions[id].orgId == orgId
  }

  class BillingStore {
    var plans: map<int, Plan>
    var subscriptions: map<int, Subscription>
    var history: seq<HistoryRow>
    var invoices: map<int, Invoice>
    var nextId: int

    /** The unique `plan_name` column, one subscription per organization, and fresh ids above every key. */
    ghost predicate Valid()
      reads this
    {
      && (forall a, b | a in plans && b in plans && plans[a].name == plans[b].name :: a == b)
      && (forall a, b | a in subscriptions && b in subscriptions && subscriptions[a].orgId == subscriptions[b].orgId :: a == b)
      && (forall k | k in plans :: k < nextId)
      && (forall k | k in subscriptions :: k < nextId)
    }

    constructor ()
      ensures Valid()
      ensures plans == map[] && subscriptions == map[] && history == [] && invoices == map[]
    {
      plans, subscriptions, history, invoices, nextId := map[], map[], [], map[], 0;
    }
  }

  // ---------------------------------------------------------------------------
  // Plans
  // ---------------------------------------------------------------------------

  method CreatePlan(store: BillingStore, plan: Plan) returns (r: Result<int, Code>)
    requires store.Valid()
    modifies store`plans, store`nextId
    ensures store.Valid()
    ensures r.Err? <==> PlanNameTaken(old(store.plans), plan.name)
    ensures r.Err? ==> r.error == PlanNameExists && unchanged(store`plans, store`nextId)
    ensures r.Ok? ==> r.value !in old(store.plans) && store.plans == old(store.plans)[r.value := plan]
  {
    if PlanNameTaken(store.plans, plan.name) {
      return Err(PlanNameExists);
    }
    var id := store.nextId;
    store.plans := store.plans[id := plan];
    store.nextId := id + 1;
    return Ok(id);
  }

  /** The keys of a plan update; each is absent or given, possibly as `None`. */
  datatype PlanUpdate = PlanUpdate(
    name: Patch<Option<string>>,
    description: Patch<Option<string>>,
    price: Patch<Option<int>>,
    cycle: Patch<Option<string>>,
    maxUsers: Patch<Option<int>>,
    maxStorage: Patch<Option<int>>,
    supportLevel: Patch<Option<string>>)

  /** `update_plan` renames only to a non-empty name that differs from the current one. */
  predicate Renames(p: Plan, name: Patch<Option<string>>)
  {
    name.Given? && name.value.Some? && name.value.value != "" && name.value.value != p.name
  }

  /** The plan after a successful `update_plan`. */
  function PatchedPlan(p: Plan, u: PlanUpdate): Plan
  {
    Plan(
      if Renames(p, u.name) then u.name.value.value else p.name,
      Overwrite(p.description, u.description),
      OverwriteUnlessNone(p.price, u.price),
      OverwriteUnlessNone(p.cycle, u.cycle),
      Overwrite(p.maxUsers, u.maxUsers),
      Overwrite(p.maxStorage, u.maxStorage),
      Overwrite(p.supportLevel, u.supportLevel))
  }

  /**
   * `update_plan`: a conflicting new name fails before anything is
   * assigned; then each key is applied in turn.
   */
  method UpdatePlan(store: BillingStore, planId: int, u: PlanUpdate) returns (r: Result<Plan, Code>)
    requires store.Valid() && planId in store.plans
    modifies store`plans
    ensures store.Valid()
    ensures r.Err? <==> Renames(old(store.plans[planId]), u.name) && PlanNameTaken(old(store.plans), u.name.value.value)
    ensures r.Err? ==> r.error == PlanNameExists && unchanged(store`plans)
    ensures r.Ok? ==> r.value == PatchedPlan(old(store.plans[planId]), u)
                      && store.plans == old(store.plans)[planId := r.value]
  {
    var plan := store.plans[planId];
    if Renames(plan, u.name) {
      if PlanNameTaken(store.plans, u.name.value.value) {
        return Err(PlanNameExists);
      }
    }
    plan := ApplyPlanUpdate(plan, u);
    store.plans := store.plans[planId := plan];
    return Ok(plan);
  }

  /** The assignments of `update_plan`, key by key, once the name is known to be free. */
  method ApplyPlanUpdate(current: Plan, u: PlanUpdate) returns (plan: Plan)
    ensures plan == PatchedPlan(current, u)
  {
    plan := current;
    if Renames(plan, u.name) {
      plan := plan.(name := u.name.value.value);
    }
    if u.description.Given? {
      plan := plan.(description := u.description.value);
    }
    if u.price.Given? && u.price.value.Some? {
      plan := plan.(price := u.price.value.value);
    }
    if u.cycle.Given? && u.cycle.value.Some? {
      plan := plan.(cycle := u.cycle.value.value);
    }
    if u.maxUsers.Given? {
      plan := plan.(maxUsers := u.maxUsers.value);
    }
    if u.maxStorage.Given? {
      plan := plan.(maxStorage := u.maxStorage.value);
    }
    if u.supportLevel.Given? {
      plan := plan.(supportLevel := u.supportLevel.value);
    }
  }

  /**
   * The field rules of `update_plan`: price and cycle ignore a `None`;
   * description, limits and support level store it; absent keys keep the
   * current value.
   */
  lemma PlanFieldRules(p: Plan, u: PlanUpdate)
    ensures u.price == Given(None) ==> PatchedPlan(p, u).price == p.price
    ensures u.cycle == Given(None) ==> PatchedPlan(p, u).cycle == p.cycle
    ensures u.description.Given? ==> PatchedPlan(p, u).description == u.description.value
    ensures u.maxUsers.Given? ==> PatchedPlan(p, u).maxUsers == u.maxUsers.value
    ensures u.maxStorage.Given? ==> PatchedPlan(p, u).maxStorage == u.maxStorage.value
    ensures u.supportLevel.Given? ==> PatchedPlan(p, u).supportLevel == u.supportLevel.value
    ensures u.name.Given? && u.name.value.Some? && u.name.value.value == "" ==> PatchedPlan(p, u).name == p.name
  {
  }

  /** An update with no keys leaves the plan as it was. */
  lemma EmptyPlanUpdate(p: Plan)
    ensures PatchedPlan(p, PlanUpdate(Absent, Absent, Absent, Absent, Absent, Absent, Absent)) == p
  {
  }

  /** Applying the same update twice is applying it once. */
  lemma PlanUpdateIdempotent(p: Plan, u: PlanUpdate)
    ensures PatchedPlan(PatchedPlan(p, u), u) == PatchedPlan(p, u)
  {
  }

  // ---------------------------------------------------------------------------
  // Subscriptions and their history
  // ---------------------------------------------------------------------------

  /** The history conversion: a date becomes the datetime at its midnight, a datetime is kept, `None` stays `None`. */
  function AsDateTime(m: Option<Moment>): (r: Option<int>)
    ensures r.None? <==> m.None?
    ensures m.Some? && m.value.Instant? ==> r == Some(m.value.seconds)
    ensures m.Some? && m.value.Day? ==> r == Some(m.value.ordinal * SecondsPerDay)
  {
    match m
    case None => None
    case Some(Instant(s)) => Some(s)
    case Some(Day(d)) => Some(d * SecondsPerDay)
  }

  /** The row `_record_subscription_history` adds. */
  function HistoryEntry(orgId: int, planId: int, start: Option<Moment>, end: Option<Moment>, status: string): HistoryRow
  {
    HistoryRow(orgId, planId, AsDateTime(start), AsDateTime(end), status)
  }

  /** `create_subscription`: at most one per organization, with exactly one history row. */
  method CreateSubscription(store: BillingStore, orgId: int, start: Option<Moment>, end: Option<Moment>,
                            planType: string, paymentStatus: string, planId: int, historyStatus: string)
    returns (r: Result<int, Code>)
    requires store.Valid()
    modifies store`subscriptions, store`history, store`nextId
    ensures store.Valid()
    ensures r.Err? <==> OrganizationHasSubscription(old(store.subscriptions), orgId)
    ensures r.Err? ==> r.error == SubscriptionExists && unchanged(store`subscriptions, store`history, store`nextId)
    ensures r.Ok? ==>
      && r.value !in old(store.subscriptions)
      && store.subscriptions == old(store.subscriptions)[r.value := Subscription(orgId, start, end, planType, paymentStatus)]
      && store.history == old(store.history) + [HistoryEntry(orgId, planId, start, end, historyStatus)]
  {
    if OrganizationHasSubscription(store.subscriptions, orgId) {
      return Err(SubscriptionExists);
    }
    var id := store.nextId;
    store.subscriptions := store.subscriptions[id := Subscription(orgId, start, end, planType, paymentStatus)];
    store.nextId := id + 1;
    store.history := store.history + [HistoryEntry(orgId, planId, start, end, historyStatus)];
    return Ok(id);
  }

  /** The `history` entry of a subscription update. */
  datatype HistoryRequest = HistoryRequest(planId: int, status: string, start: Patch<Option<Moment>>, end: Patch<Option<Moment>>)

  datatype SubscriptionUpdate = SubscriptionUpdate(
    start: Patch<Option<Moment>>,
    end: Patch<Option<Moment>>,
    planType: Patch<Option<string>>,
    paymentStatus: Patch<Option<string>>,
    history: Patch<HistoryRequest>)

  /** The subscription after `update_subscription`'s assignments. */
  function PatchedSubscription(s: Subscription, u: SubscriptionUpdate): Subscription
  {
    Subscription(
      s.orgId,
      Overwrite(s.start, u.start),
      Overwrite(s.end, u.end),
      OverwriteUnlessNone(s.planType, u.planType),
      OverwriteUnlessNone(s.paymentStatus, u.paymentStatus))
  }

  /**
   * `update_subscription`: the assignments first; then, only when a
   * `history` entry is given, one history row whose missing dates are the
   * subscription's dates after the update.
   */
  method UpdateSubscription(store: BillingStore, subscriptionId: int, u: SubscriptionUpdate) returns (s: Subscription)
    requires store.Valid() && subscriptionId in store.subscriptions
    modifies store`subscriptions, store`history
    ensures store.Valid()
    ensures s == PatchedSubscription(old(store.subscriptions[subscriptionId]), u)
    ensures store.subscriptions == old(store.subscriptions)[subscriptionId := s]
    ensures u.history.Absent? ==> store.history == old(store.history)
    ensures u.history.Given? ==>
      var h := u.history.value;
      store.history == old(store.history) + [HistoryEntry(s.orgId, h.planId, Overwrite(s.start, h.start), Overwrite(s.end, h.end), h.status)]
  {
    s := store.subscriptions[subscriptionId];
    if u.start.Given? {
      s := s.(start := u.start.value);
    }
    if u.end.Given? {
      s := s.(end := u.end.value);
    }
    if u.planType.Given? && u.planType.value.Some? {
      s := s.(planType := u.planType.value.value);
    }
    if u.paymentStatus.Given? && u.paymentStatus.value.Some? {
      s := s.(paymentStatus := u.paymentStatus.value.value);
    }
    store.subscriptions := store.subscriptions[subscriptionId := s];
    if u.history.Given? {
      var h := u.history.value;
      store.history := store.history + [HistoryEntry(s.orgId, h.planId, Overwrite(s.start, h.start), Overwrite(s.end, h.end), h.status)];
    }
  }

  /** Dates given as `None` clear the subscription's dates; `None` plan type or payment status are ignored. */
  lemma SubscriptionFieldRules(s: Subscription, u: SubscriptionUpdate)
    ensures u.start == Given(None) ==> PatchedSubscription(s, u).start == None
    ensures u.end == Given(None) ==> PatchedSubscription(s, u).end == None
    ensures u.planType == Given(None) ==> PatchedSubscription(s, u).planType == s.planType
    ensures u.paymentStatus == Given(None) ==> PatchedSubscription(s, u).paymentStatus == s.paymentStatus
    ensures PatchedSubscription(s, u).orgId == s.orgId
  {
  }

  // ---------------------------------------------------------------------------
  // Invoices
  // ---------------------------------------------------------------------------

  datatype InvoiceUpdate = InvoiceUpdate(
    amount: Patch<Option<int>>,
    status: Patch<Option<string>>,
    paymentMethod: Patch<Option<string>>,
    paymentDate: Patch<Option<int>>,
    dueDate: Patch<Option<int>>,
    cycle: Patch<Option<string>>)

  /** The invoice after `update_invoice`. */
  function PatchedInvoice(i: Invoice, u: InvoiceUpdate): Invoice
  {
    i.(amount := OverwriteUnlessNone(i.amount, u.amount),
       status := OverwriteUnlessNone(i.status, u.status),
       paymentMethod := if u.paymentMethod.Given? && u.paymentMethod.value.Some? then u.paymentMethod.value else i.paymentMethod,
       paymentDate := Overwrite(i.paymentDate, u.paymentDate),
       dueDate := Overwrite(i.dueDate, u.dueDate),
       cycle := OverwriteUnlessNone(i.cycle, u.cycle))
  }

  method UpdateInvoice(store: BillingStore, invoiceId: int, u: InvoiceUpdate) returns (inv: Invoice)
    requires invoiceId in store.invoices
    modifies store`invoices
    ensures inv == PatchedInvoice(old(store.invoices[invoiceId]), u)
    ensures store.invoices == old(store.invoices)[invoiceId := inv]
  {
    inv := store.invoices[invoiceId];
    if u.amount.Given? && u.amount.value.Some? {
      inv := inv.(amount := u.amount.value.value);
    }
    if u.status.Given? && u.status.value.Some? {
      inv := inv.(status := u.status.value.value);
    }
    if u.paymentMethod.Given? && u.paymentMethod.value.Some? {
      inv := inv.(paymentMethod := u.paymentMethod.value);
    }
    if u.paymentDate.Given? {
      inv := inv.(paymentDate := u.paymentDate.value);
    }
    if u.dueDate.Given? {
      inv := inv.(dueDate := u.dueDate.value);
    }
    if u.cycle.Given? && u.cycle.value.Some? {
      inv := inv.(cycle := u.cycle.value.value);
    }
    store.invoices := store.invoices[invoiceId := inv];
  }

  /**
   * The field rules of `update_invoice`: a `None` never clears the amount,
   * status, payment method or cycle, but does clear the payment and due
   * dates; the organization and plan never change.
   */
  lemma InvoiceFieldRules(i: Invoice, u: InvoiceUpdate)
    ensures u.amount == Given(None) ==> PatchedInvoice(i, u).amount == i.amount
    ensures u.paymentMethod == Given(None) ==> PatchedInvoice(i, u).paymentMethod == i.paymentMethod
    ensures u.paymentDate == Given(None) ==> PatchedInvoice(i, u).paymentDate == None
    ensures u.dueDate == Given(None) ==> PatchedInvoice(i, u).dueDate == None
    ensures PatchedInvoice(i, u).orgId == i.orgId && PatchedInvoice(i, u).planId == i.planId
  {
  }
}

=== FILE: billing_views.dfy ===
/**
 * The billing endpoints (`web/api/v1/billing/views.py`): the shared organization
 * guard, the lookups that answer 404 before any change, and the way the
 * subscription update request is turned into the service's update dict.
 */
module BillingViews {
  import opened Wrappers
  import opened Errors
  import opened Billing
  import Principal

  /** POST /billing/plans. */
  method CreateBillingPlan(store: BillingStore, plan: Plan) returns (resp: Response<int>)
    requires store.Valid()
    modifies store`plans, store`nextId
    ensures store.Valid()
    ensures resp.Failure? <==> PlanNameTaken(old(store.plans), plan.name)
    ensures resp.Failure? ==> resp.error == HttpError(409, PlanNameExists) && unchanged(store`plans, store`nextId)
    ensures resp.Success? ==> store.plans == old(store.plans)[resp.body := plan]
  {
    var r := CreatePlan(store, plan);
    if r.Err? {
      return Failure(HttpError(409, r.error));
    }
    return Success(r.value);
  }

  /** PATCH /billing/plans/{id}: an unknown plan is a 404, a taken name a 409. */
  method UpdateBillingPlan(store: BillingStore, planId: int, u: PlanUpdate) returns (resp: Response<Plan>)
    requires store.Valid()
    modifies store`plans
    ensures store.Valid()
    ensures planId !in old(store.plans) ==> resp == Failure(HttpError(404, PlanNotFound))
    ensures planId in old(store.plans) ==>
      (resp.Failure? <==> Renames(old(store.plans[planId]), u.name) && PlanNameTaken(old(store.plans), u.name.value.value))
    ensures resp.Failure? ==> resp.error.status in {404, 409} && unchanged(store`plans)
    ensures resp.Success? ==> resp.body == PatchedPlan(old(store.plans[planId]), u)
                              && store.plans == old(store.plans)[planId := resp.body]
  {
    if planId !in store.plans {
      return Failure(HttpError(404, PlanNotFound));
    }
    var r := UpdatePlan(store, planId, u);
    if r.Err? {
      return Failure(HttpError(409, r.error));
    }
    return Success(r.value);
  }

  /** The organization's subscription, by `scalar_one_or_none`. */
  predicate SubscriptionOf(subscriptions: map<int, Subscription>, orgId: int, id: int)
  {
    id in subscriptions && subscriptions[id].orgId == orgId
  }

  /** GET /orgs/{org}/subscription. */
  method GetSubscription(store: BillingStore, principal: Principal.AuthenticatedPrincipal, orgId: int)
    returns (resp: Response<(int, Subscription)>)
    ensures principal.orgId != orgId ==> resp == Failure(HttpError(403, Forbidden))
    ensures principal.orgId == orgId && !OrganizationHasSubscription(store.subscriptions, orgId) ==>
      resp == Failure(HttpError(404, SubscriptionNotFound))
    ensures resp.Success? <==> principal.orgId == orgId && OrganizationHasSubscription(store.subscriptions, orgId)
    ensures resp.Success? ==> SubscriptionOf(store.subscriptions, orgId, resp.body.0)
                              && resp.body.1 == store.subscriptions[resp.body.0]
  {
    var forbidden := Principal.EnsureSameOrganization(principal, orgId);
    if forbidden.Some? {
      return Failure(forbidden.value);
    }
    if id :| id in store.subscriptions && store.subscriptions[id].orgId == orgId {
      return Success((id, store.subscriptions[id]));
    }
    return Failure(HttpError(404, SubscriptionNotFound));
  }

  datatype SubscriptionCreateRequest = SubscriptionCreateRequest(
    planId: int,
    planType: string,
    paymentStatus: string,
    start: Option<Moment>,
    end: Option<Moment>,
    historyStatus: string)

  /** POST /orgs/{org}/subscription: the plan must exist before the service is called. */
  method CreateSubscriptionView(store: BillingStore, principal: Principal.AuthenticatedPrincipal, orgId: int,
                                req: SubscriptionCreateRequest)
    returns (resp: Response<int>)
    requires store.Valid()
    modifies store`subscriptions, store`history, store`nextId
    ensures store.Valid()
    ensures principal.orgId != orgId ==> resp == Failure(HttpError(403, Forbidden))
    ensures principal.orgId == orgId && req.planId !in store.plans ==> resp == Failure(HttpError(404, PlanNotFound))
    ensures resp.Success? <==>
      principal.orgId == orgId && req.planId in store.plans && !OrganizationHasSubscription(old(store.subscriptions), orgId)
    ensures resp.Failure? ==> resp.error.status in {403, 404, 409} && unchanged(store`subscriptions, store`history, store`nextId)
    ensures resp.Success? ==>
      && store.subscriptions == old(store.subscriptions)[resp.body := Subscription(orgId, req.start, req.end, req.planType, req.paymentStatus)]
      && store.history == old(store.history) + [HistoryEntry(orgId, req.planId, req.start, req.end, req.historyStatus)]
  {
    var forbidden := Principal.EnsureSameOrganization(principal, orgId);
    if forbidden.Some? {
      return Failure(forbidden.value);
    }
    if req.planId !in store.plans {
      return Failure(HttpError(404, PlanNotFound));
    }
    var r := CreateSubscription(store, orgId, req.start, req.end, req.planType, req.paymentStatus, req.planId, req.historyStatus);
    if r.Err? {
      return Failure(HttpError(409, r.error));
    }
    return Success(r.value);
  }

  /** The subscription update request: every key may be absent or `None`. */
  datatype SubscriptionUpdateRequest = SubscriptionUpdateRequest(
    planId: Patch<Option<int>>,
    planType: Patch<Option<string>>,
    paymentStatus: Patch<Option<string>>,
    start: Patch<Option<Moment>>,
    end: Patch<Option<Moment>>,
    historyStatus: Patch<Option<string>>)

  /** `updates.pop("plan_id", None)`. */
  function RequestedPlan(req: SubscriptionUpdateRequest): Option<int>
  {
    if req.planId.Given? then req.planId.value else None
  }

  /**
   * PATCH /orgs/{org}/subscription. `plan_id` and `history_status` are
   * taken out of the updates; a history row is asked for only with a
   * non-`None` history status, which needs a plan id; its dates are the
   * request's, or the current ones; and a plan id without a plan type fills
   * in the current plan type.
   */
  method UpdateSubscriptionView(store: BillingStore, principal: Principal.AuthenticatedPrincipal, orgId: int,
                                req: SubscriptionUpdateRequest)
    returns (resp: Response<(int, Subscription)>)
    requires store.Valid()
    modifies store`subscriptions, store`history
    ensures store.Valid()
    ensures principal.orgId != orgId ==> resp == Failure(HttpError(403, Forbidden))
    ensures principal.orgId == orgId && !OrganizationHasSubscription(old(store.subscriptions), orgId) ==>
      resp == Failure(HttpError(404, SubscriptionNotFound))
    ensures principal.orgId == orgId && OrganizationHasSubscription(old(store.subscriptions), orgId) ==>
      && (RequestedPlan(req).Some? && RequestedPlan(req).value !in store.plans ==>
            resp == Failure(HttpError(404, PlanNotFound)))
      && (RequestedPlan(req).None? && req.historyStatus.Given? && req.historyStatus.value.Some? ==>
            resp == Failure(HttpError(400, PlanIdRequiredForHistory)))
    ensures resp.Success? <==>
      && principal.orgId == orgId && OrganizationHasSubscription(old(store.subscriptions), orgId)
      && (RequestedPlan(req).Some? ==> RequestedPlan(req).value in store.plans)
      && (RequestedPlan(req).None? ==> !(req.historyStatus.Given? && req.historyStatus.value.Some?))
    ensures resp.Failure? ==> unchanged(store`subscriptions, store`history)
    ensures resp.Success? ==>
      var (id, s) := resp.body;
      && SubscriptionOf(old(store.subscriptions), orgId, id)
      && var before := old(store.subscriptions[id]);
      && s == PatchedSubscription(before, SubscriptionUpdate(req.start, req.end, req.planType, req.paymentStatus, Absent))
      && store.subscriptions == old(store.subscriptions)[id := s]
      && (if req.historyStatus.Given? && req.historyStatus.value.Some? then
            RequestedPlan(req).Some?
            && store.history == old(store.history) + [HistoryEntry(orgId, RequestedPlan(req).value, s.start, s.end,
                                                                   req.historyStatus.value.value)]
          else store.history == old(store.history))
  {
    var forbidden := Principal.EnsureSameOrganization(principal, orgId);
    if forbidden.Some? {
      return Failure(forbidden.value);
    }
    var id: int;
    if i :| i in store.subscriptions && store.subscriptions[i].orgId == orgId {
      id := i;
    } else {
      return Failure(HttpError(404, SubscriptionNotFound));
    }
    var current := store.subscriptions[id];
    var planId := RequestedPlan(req);
    if planId.Some? && planId.value !in store.plans {
      return Failure(HttpError(404, PlanNotFound));
    }
    var history: Patch<HistoryRequest> := Absent;
    if req.historyStatus.Given? {
      var status := req.historyStatus.value;
      if status.Some? {
        if planId.None? {
          return Failure(HttpError(400, PlanIdRequiredForHistory));
        }
        history := Given(HistoryRequest(planId.value, status.value,
                                        Given(Overwrite(current.start, req.start)), Given(Overwrite(current.end, req.end))));
      }
    }
    var planType := req.planType;
    if planId.Some? && req.planType.Absent? {
      planType := Given(Some(current.planType));
    }
    var s := UpdateSubscription(store, id, SubscriptionUpdate(req.start, req.end, planType, req.paymentStatus, history));
    return Success((id, s));
  }

  /** GET /invoices/{id}: an unknown invoice is a 404, another organization's a 403. */
  method GetInvoice(store: BillingStore, principal: Principal.AuthenticatedPrincipal, invoiceId: int)
    returns (resp: Response<Invoice>)
    ensures invoiceId !in store.invoices ==> resp == Failure(HttpError(404, InvoiceNotFound))
    ensures invoiceId in store.invoices && store.invoices[invoiceId].orgId != principal.orgId ==>
      resp == Failure(HttpError(403, Forbidden))
    ensures resp.Success? <==> invoiceId in store.invoices && store.invoices[invoiceId].orgId == principal.orgId
    ensures resp.Success? ==> resp.body == store.invoices[invoiceId]
  {
    if invoiceId !in store.invoices {
      return Failure(HttpError(404, InvoiceNotFound));
    }
    if principal.orgId != store.invoices[invoiceId].orgId {
      return Failure(HttpError(403, Forbidden));
    }
    return Success(store.invoices[invoiceId]);
  }

  /** PATCH /invoices/{id}: the same two checks, then the update. */
  method UpdateInvoiceView(store: BillingStore, principal: Principal.AuthenticatedPrincipal, invoiceId: int, u: InvoiceUpdate)
    returns (resp: Response<Invoice>)
    modifies store`invoices
    ensures old(invoiceId !in store.invoices) ==> resp == Failure(HttpError(404, InvoiceNotFound))
    ensures old(invoiceId in store.invoices && store.invoices[invoiceId].orgId != principal.orgId) ==>
      resp == Failure(HttpError(403, Forbidden))
    ensures resp.Success? <==> old(invoiceId in store.invoices && store.invoices[invoiceId].orgId == principal.orgId)
    ensures resp.Failure? ==> unchanged(store`invoices)
    ensures resp.Success? ==>
      && old(invoiceId in store.invoices && store.invoices[invoiceId].orgId == principal.orgId)
      && resp.body == PatchedInvoice(old(store.invoices[invoiceId]), u)
      && store.invoices == old(store.invoices)[invoiceId := resp.body]
  {
    if invoiceId !in store.invoices {
      return Failure(HttpError(404, InvoiceNotFound));
    }
    if store.invoices[invoiceId].orgId != principal.orgId {
      return Failure(HttpError(403, Forbidden));
    }
    var inv := UpdateInvoice(store, invoiceId, u);
    return Success(inv);
  }
}

=== FILE: bootstrap.dfy ===
/**
 * Platform bootstrap (`services/bootstrap.py`): the root organization, the
 * global super-administrator role and the first user holding it. Each step
 * finds what exists before creating anything, so running it again is safe.
 */
module Bootstrap {
  import opened Wrappers
  import opened Tables
  import opened Errors
  import Strings
  import opened Organizations
  import AuthService

  const SuperAdminRoleName := "super_admin"
  const SuperAdminRoleDescription := "Platform super administrator"
  const RootOrganizationName := "RootOrg"

  const PlatformPermissionNames: seq<string> := [
    "platform.bootstrap", "platform.metrics.read", "platform.organizations.manage",
    "platform.users.manage", "platform.rbac.manage", "platform.audit.view"
  ]

  /** `tuple(sorted({*ADMIN_PERMISSION_NAMES, ...platform names}))`. */
  const SuperAdminPermissionNames: seq<string> := Strings.SortDistinct(AdminPermissionNames + PlatformPermissionNames)

  /** The super-administrator permissions are sorted, hold no name twice, and are the admin names plus the platform names. */
  lemma SuperAdminNamesShape()
    ensures Strings.Ascending(SuperAdminPermissionNames) && Strings.Distinct(SuperAdminPermissionNames)
    ensures Strings.Elems(SuperAdminPermissionNames) == Strings.Elems(AdminPermissionNames) + Strings.Elems(PlatformPermissionNames)
  {
    var all := AdminPermissionNames + PlatformPermissionNames;
    Strings.AscendingHasNoDuplicates(SuperAdminPermissionNames);
    assert forall n :: n in all <==> n in AdminPermissionNames || n in PlatformPermissionNames;
  }

  /** `ensure_root_organization`: the organization named "RootOrg", created active when absent. */
  method EnsureRootOrganization(db: Database) returns (orgId: int)
    requires db.Valid()
    modifies db`orgs, db`nextId
    ensures db.Valid()
    ensures orgId in db.orgs && db.orgs[orgId].name == RootOrganizationName
    ensures OrganizationNameTaken(old(db.orgs), RootOrganizationName) ==> orgId in old(db.orgs) && unchanged(db`orgs, db`nextId)
    ensures !OrganizationNameTaken(old(db.orgs), RootOrganizationName) ==>
      && orgId == old(db.nextId) && db.nextId == orgId + 1
      && db.orgs == old(db.orgs)[orgId := Organization(RootOrganizationName, LicenseStatus.Active)]
  {
    if id :| id in db.orgs && db.orgs[id].name == RootOrganizationName {
      return id;
    }
    orgId := db.nextId;
    db.orgs := db.orgs[orgId := Organization(RootOrganizationName, LicenseStatus.Active)];
    db.nextId := db.nextId + 1;
  }

  /** What `ensure_super_admin_role` establishes: a role named "super_admin" holding every super-admin permission in the organization. */
  ghost predicate SuperAdminProvisioned(db: Database, orgId: int)
    reads db
  {
    exists rid | rid in db.roles :: db.roles[rid].name == SuperAdminRoleName && Holds(db, rid, orgId, SuperAdminPermissionNames)
  }

  /**
   * `ensure_super_admin_role`. The role is looked up by name across all
   * organizations and created in the given one only when no role has the
   * name; its permissions are then linked within the given organization.
   */
  method EnsureSuperAdminRole(db: Database, orgId: int) returns (roleId: int)
    requires db.Valid() && orgId in db.orgs
    modifies db`roles, db`perms, db`rolePerms, db`nextId
    ensures db.Valid()
    ensures roleId in db.roles && db.roles[roleId].name == SuperAdminRoleName
    ensures Holds(db, roleId, orgId, SuperAdminPermissionNames)
    ensures RoleNameTaken(old(db.roles), SuperAdminRoleName) ==> roleId in old(db.roles) && db.roles == old(db.roles)
    ensures !RoleNameTaken(old(db.roles), SuperAdminRoleName) ==>
      roleId !in old(db.roles) && db.roles == old(db.roles)[roleId := Role(orgId, SuperAdminRoleName, Some(SuperAdminRoleDescription))]
    ensures AddsOnlyMissing(old(db.perms), db.perms, SuperAdminPermissionNames)
    ensures forall rp :: rp in db.rolePerms <==>
      rp in old(db.rolePerms) || Links(db.perms, rp, roleId, orgId, SuperAdminPermissionNames)
    ensures old(SuperAdminProvisioned(db, orgId)) ==>
      && db.roles == old(db.roles) && db.perms == old(db.perms)
      && db.rolePerms == old(db.rolePerms) && db.nextId == old(db.nextId)
  {
    ghost var wasProvisioned := SuperAdminProvisioned(db, orgId);
    if rid :| rid in db.roles && db.roles[rid].name == SuperAdminRoleName {
      roleId := rid;
      assert wasProvisioned ==> Holds(db, roleId, orgId, SuperAdminPermissionNames);
    } else {
      roleId := db.AddRole(Role(orgId, SuperAdminRoleName, Some(SuperAdminRoleDescription)));
    }
    SuperAdminNamesShape();
    GrantAll(db, roleId, orgId, SuperAdminPermissionNames);
  }

  datatype SuperuserBootstrap = SuperuserBootstrap(orgId: int, roleId: int, userId: int, created: bool)

  /** `select(User).where(User.role_id == role_id)` finds a user. */
  predicate HasHolder(users: map<int, User>, roleId: int)
  {
    exists u | u in users :: users[u].roleId == Some(roleId)
  }

  /** Some user of `users` holds the role named "super_admin" in `roles`. */
  ghost predicate SuperRoleHeld(roles: map<int, Role>, users: map<int, User>)
  {
    exists rid | rid in roles && roles[rid].name == SuperAdminRoleName :: HasHolder(users, rid)
  }

  /**
   * `bootstrap_superuser`. When some user already holds the super role,
   * nobody is registered; otherwise the admin payload is registered with
   * its organization and role replaced by the root organization and the
   * super role.
   */
  method BootstrapSuperuser(db: Database, admin: AuthService.Registration, h: AuthService.PasswordHasher)
    returns (r: Result<SuperuserBootstrap, Code>)
    requires db.Valid()
    modifies db`orgs, db`roles, db`perms, db`rolePerms, db`users, db`contacts, db`nextId
    ensures db.Valid()
    ensures db.users.Keys >= old(db.users).Keys
    ensures SuperRoleHeld(db.roles, old(db.users)) ==> r.Ok? && !r.value.created
    ensures !SuperRoleHeld(db.roles, old(db.users)) ==>
      (r.Ok? <==> !UsernameTaken(old(db.users), admin.username) && !EmailTaken(old(db.contacts), admin.email)
                  && AuthService.HasFirstName(admin))
    ensures !SuperRoleHeld(db.roles, old(db.users)) && UsernameTaken(old(db.users), admin.username) ==>
      r == Err(UsernameAlreadyExists)
    ensures !SuperRoleHeld(db.roles, old(db.users)) && !UsernameTaken(old(db.users), admin.username)
            && EmailTaken(old(db.contacts), admin.email) ==>
      r == Err(EmailAlreadyExists)
    ensures OrganizationNameTaken(old(db.orgs), RootOrganizationName) ==> db.orgs == old(db.orgs)
    ensures !OrganizationNameTaken(old(db.orgs), RootOrganizationName) ==>
      db.orgs == old(db.orgs)[old(db.nextId) := Organization(RootOrganizationName, LicenseStatus.Active)]
    ensures RoleNameTaken(old(db.roles), SuperAdminRoleName) ==> db.roles == old(db.roles)
    ensures forall id | id in old(db.roles) :: id in db.roles && db.roles[id] == old(db.roles)[id]
    ensures r.Ok? && !RoleNameTaken(old(db.roles), SuperAdminRoleName) ==>
      db.roles == old(db.roles)[r.value.roleId := Role(r.value.orgId, SuperAdminRoleName, Some(SuperAdminRoleDescription))]
    ensures AddsOnlyMissing(old(db.perms), db.perms, SuperAdminPermissionNames)
    ensures old(db.rolePerms) <= db.rolePerms
    ensures r.Ok? ==> forall rp :: rp in db.rolePerms <==>
      rp in old(db.rolePerms) || Links(db.perms, rp, r.value.roleId, r.value.orgId, SuperAdminPermissionNames)
    ensures r.Ok? ==>
      var b := r.value;
      && b.orgId in db.orgs && db.orgs[b.orgId].name == RootOrganizationName
      && b.roleId in db.roles && db.roles[b.roleId].name == SuperAdminRoleName
      && Holds(db, b.roleId, b.orgId, SuperAdminPermissionNames)
      && b.userId in db.users && db.users[b.userId].roleId == Some(b.roleId)
    ensures r.Ok? && !r.value.created ==> db.users == old(db.users) && db.contacts == old(db.contacts)
    ensures r.Ok? && r.value.created ==>
      && (forall u | u in old(db.users) :: old(db.users)[u].roleId != Some(r.value.roleId))
      && db.users == old(db.users)[r.value.userId :=
           AuthService.NewUser(admin.(orgId := r.value.orgId, roleId := Some(r.value.roleId)), h)]
      && db.contacts == old(db.contacts)[r.value.userId :=
           AuthService.RegisteredContact(admin.(orgId := r.value.orgId, roleId := Some(r.value.roleId)))]
    ensures r.Err? ==> db.users == old(db.users) && db.contacts == old(db.contacts)
  {
    var orgId, roleId := ProvisionRoot(db);
    r := EnsureHolder(db, orgId, roleId, admin, h);
  }

  /** The head of `bootstrap_superuser`: the root organization, then the super role provisioned in it. */
  method ProvisionRoot(db: Database) returns (orgId: int, roleId: int)
    requires db.Valid()
    modifies db`orgs, db`roles, db`perms, db`rolePerms, db`nextId
    ensures db.Valid()
    ensures orgId in db.orgs && db.orgs[orgId].name == RootOrganizationName
    ensures roleId in db.roles && db.roles[roleId].name == SuperAdminRoleName
    ensures Holds(db, roleId, orgId, SuperAdminPermissionNames)
    ensures SuperRoleHeld(db.roles, db.users) <==> HasHolder(db.users, roleId)
    ensures OrganizationNameTaken(old(db.orgs), RootOrganizationName) ==> db.orgs == old(db.orgs)
    ensures !OrganizationNameTaken(old(db.orgs), RootOrganizationName) ==>
      orgId == old(db.nextId) && db.orgs == old(db.orgs)[orgId := Organization(RootOrganizationName, LicenseStatus.Active)]
    ensures RoleNameTaken(old(db.roles), SuperAdminRoleName) ==> db.roles == old(db.roles)
    ensures !RoleNameTaken(old(db.roles), SuperAdminRoleName) ==>
      roleId !in old(db.roles) && db.roles == old(db.roles)[roleId := Role(orgId, SuperAdminRoleName, Some(SuperAdminRoleDescription))]
    ensures AddsOnlyMissing(old(db.perms), db.perms, SuperAdminPermissionNames)
    ensures forall rp :: rp in db.rolePerms <==>
      rp in old(db.rolePerms) || Links(db.perms, rp, roleId, orgId, SuperAdminPermissionNames)
  {
    orgId := EnsureRootOrganization(db);
    roleId := EnsureSuperAdminRole(db, orgId);
    // Role names are unique, so the super role is the only role a holder can hold.
    assert SuperRoleHeld(db.roles, db.users) <==> HasHolder(db.users, roleId);
  }

  /** The tail of `bootstrap_superuser`: an existing holder of the role, or the admin registered with it. */
  method EnsureHolder(db: Database, orgId: int, roleId: int, admin: AuthService.Registration, h: AuthService.PasswordHasher)
    returns (r: Result<SuperuserBootstrap, Code>)
    requires db.Valid()
    modifies db`users, db`contacts, db`nextId
    ensures db.Valid()
    ensures db.users.Keys >= old(db.users).Keys
    ensures HasHolder(old(db.users), roleId) ==> r.Ok? && !r.value.created
    ensures !HasHolder(old(db.users), roleId) ==>
      (r.Ok? <==> !UsernameTaken(old(db.users), admin.username) && !EmailTaken(old(db.contacts), admin.email)
                  && AuthService.Insertable(db.orgs, db.roles, admin.(orgId := orgId, roleId := Some(roleId))))
    ensures !HasHolder(old(db.users), roleId) && UsernameTaken(old(db.users), admin.username) ==>
      r == Err(UsernameAlreadyExists)
    ensures !HasHolder(old(db.users), roleId) && !UsernameTaken(old(db.users), admin.username)
            && EmailTaken(old(db.contacts), admin.email) ==>
      r == Err(EmailAlreadyExists)
    ensures r.Ok? ==> r.value.orgId == orgId && r.value.roleId == roleId
                      && r.value.userId in db.users && db.users[r.value.userId].roleId == Some(roleId)
    ensures r.Ok? && !r.value.created ==> db.users == old(db.users) && db.contacts == old(db.contacts)
    ensures r.Ok? && r.value.created ==>
      && (forall u | u in old(db.users) :: old(db.users)[u].roleId != Some(roleId))
      && r.value.userId == old(db.nextId)
      && db.users == old(db.users)[r.value.userId := AuthService.NewUser(admin.(orgId := orgId, roleId := Some(roleId)), h)]
      && db.contacts == old(db.contacts)[r.value.userId := AuthService.RegisteredContact(admin.(orgId := orgId, roleId := Some(roleId)))]
    ensures r.Err? ==> db.users == old(db.users) && db.contacts == old(db.contacts)
  {
    if u :| u in db.users && db.users[u].roleId == Some(roleId) {
      return Ok(SuperuserBootstrap(orgId, roleId, u, false));
    }
    var registration := admin.(orgId := orgId, roleId := Some(roleId));
    var reg := AuthService.RegisterUser(db, registration, h);
    if reg.Err? {
      return Err(reg.error);
    }
    return Ok(SuperuserBootstrap(orgId, roleId, reg.value, true));
  }
}

=== FILE: broker.dfy ===
/**
 * The in-memory AMQP stand-in of `services/rabbit/lifespan.py`: a broker
 * that registers exchanges and queues by name, keeps a set of queue names
 * per (exchange, routing key) binding, and delivers each published body to
 * the FIFO of every bound queue still registered.
 */
module Broker {
  import opened Wrappers

  type Bytes = seq<bv8>

  /** A binding key: (exchange name, routing key). */
  type BindingKey = (string, string)

  /** `aio_pika.exceptions.QueueEmpty` and `KeyError`. */
  datatype BrokerError = QueueEmpty | KeyError(name: string)

  /** `_InMemoryQueue`: a name and its own deque of bodies. */
  class Queue {
    const broker: InMemoryBroker
    const name: string
    var messages: seq<Bytes>

    constructor (broker: InMemoryBroker, name: string)
      ensures this.broker == broker && this.name == name && messages == []
    {
      this.broker := broker;
      this.name := name;
      messages := [];
    }

    /** `get`: the oldest body, or `QueueEmpty`. */
    method Get() returns (r: Result<Bytes, BrokerError>)
      modifies this
      ensures old(messages) == [] ==> r == Err(QueueEmpty) && messages == []
      ensures old(messages) != [] ==> r == Ok(old(messages)[0]) && messages == old(messages)[1..]
    {
      if messages == [] {
        return Err(QueueEmpty);
      }
      r := Ok(messages[0]);
      messages := messages[1..];
    }

    /** `enqueue`: the body goes to the back. */
    method Enqueue(body: Bytes)
      modifies this
      ensures messages == old(messages) + [body]
    {
      messages := messages + [body];
    }

    /** `bind`: registers this queue's name under the exchange and routing key. */
    method Bind(exchange: Exchange, routingKey: string)
      modifies broker`bindings
      ensures broker.bindings == WithBinding(old(broker.bindings), (exchange.name, routingKey), name)
    {
      broker.BindQueue(name, exchange.name, routingKey);
    }

    /** `delete`: the broker forgets the queue. */
    method Delete()
      requires broker.Valid()
      modifies broker`queues, broker`bindings
      ensures broker.Valid()
      ensures broker.queues == old(broker.queues) - {name}
      ensures broker.bindings == Unbind(old(broker.bindings), name)
    {
      broker.DeleteQueue(name);
    }
  }

  /** `_InMemoryExchange`: a name that publishes and deletes through the broker. */
  class Exchange {
    const broker: InMemoryBroker
    const name: string

    constructor (broker: InMemoryBroker, name: string)
      ensures this.broker == broker && this.name == name
    {
      this.broker := broker;
      this.name := name;
    }

    method Publish(body: Bytes, routingKey: string)
      requires broker.Valid()
      modifies broker.QueueObjects()
      ensures forall n | n in broker.queues ::
        broker.queues[n].messages == old(broker.queues[n].messages) + Delivery(broker.bindings, (name, routingKey), n, body)
    {
      broker.Publish(name, routingKey, body);
    }

    method Delete()
      requires broker.Valid()
      modifies broker`exchanges, broker`bindings
      ensures broker.Valid()
      ensures broker.exchanges == old(broker.exchanges) - {name}
      ensures broker.bindings == DropExchange(old(broker.bindings), name)
    {
      broker.DeleteExchange(name);
    }
  }

  // ---------------------------------------------------------------------------
  // The binding table
  // ---------------------------------------------------------------------------

  /** `_bindings[key].add(queue)`, on a `defaultdict(set)`. */
  function WithBinding(bindings: map<BindingKey, set<string>>, key: BindingKey, queue: string): (r: map<BindingKey, set<string>>)
    ensures r.Keys == bindings.Keys + {key}
    ensures r[key] == (if key in bindings then bindings[key] else {}) + {queue}
    ensures forall k | k in bindings && k != key :: r[k] == bindings[k]
  {
    bindings[key := (if key in bindings then bindings[key] else {}) + {queue}]
  }

  /** Binding twice is binding once. */
  lemma BindIdempotent(bindings: map<BindingKey, set<string>>, key: BindingKey, queue: string)
    ensures WithBinding(WithBinding(bindings, key, queue), key, queue) == WithBinding(bindings, key, queue)
  {
  }

  /** The loop of `delete_queue`: the name leaves every binding set; the keys stay. */
  function Unbind(bindings: map<BindingKey, set<string>>, queue: string): (r: map<BindingKey, set<string>>)
    ensures r.Keys == bindings.Keys
    ensures forall k | k in r :: queue !in r[k] && r[k] == bindings[k] - {queue}
  {
    map k | k in bindings :: bindings[k] - {queue}
  }

  /** `delete_exchange`'s loop: every binding on the exchange goes, every other binding stays. */
  function DropExchange(bindings: map<BindingKey, set<string>>, exchange: string): (r: map<BindingKey, set<string>>)
    ensures forall k :: k in r <==> k in bindings && k.0 != exchange
    ensures forall k | k in r :: r[k] == bindings[k]
  {
    map k | k in bindings && k.0 != exchange :: bindings[k]
  }

  /** What `publish` appends to queue `n`: the body once if `n` is bound to the key, else nothing. */
  function Delivery(bindings: map<BindingKey, set<string>>, key: BindingKey, n: string, body: Bytes): (d: seq<Bytes>)
    ensures |d| <= 1
    ensures d == [body] <==> key in bindings && n in bindings[key]
  {
    if key in bindings && n in bindings[key] then [body] else []
  }

  /** After `delete_queue`, no publish reaches the name again until it is bound anew. */
  lemma UnboundQueueGetsNothing(bindings: map<BindingKey, set<string>>, queue: string, key: BindingKey, body: Bytes)
    ensures Delivery(Unbind(bindings, queue), key, queue, body) == []
  {
  }

  /** `_InMemoryBroker`. */
  class InMemoryBroker {
    var exchanges: map<string, Exchange>
    var queues: map<string, Queue>
    var bindings: map<BindingKey, set<string>>

    /** Every registered object is this broker's and is registered under its own name. */
    ghost predicate Valid()
      reads this
    {
      && (forall n | n in exchanges :: exchanges[n].name == n && exchanges[n].broker == this)
      && (forall n | n in queues :: queues[n].name == n && queues[n].broker == this)
    }

    /** The queue objects that a publish may reach. */
    function QueueObjects(): set<Queue>
      reads this
    {
      set n | n in queues :: queues[n]
    }

    constructor ()
      ensures Valid() && exchanges == map[] && queues == map[] && bindings == map[]
    {
      exchanges := map[];
      queues := map[];
      bindings := map[];
    }

    /** `get_exchange`: the registered exchange, or a new one registered under the name. */
    method GetExchange(name: string) returns (e: Exchange)
      requires Valid()
      modifies this`exchanges
      ensures Valid()
      ensures name in exchanges && e == exchanges[name] && e.name == name
      ensures name in old(exchanges) ==> exchanges == old(exchanges)
      ensures name !in old(exchanges) ==> fresh(e) && exchanges == old(exchanges)[name := e]
    {
      if name in exchanges {
        return exchanges[name];
      }
      e := new Exchange(this, name);
      exchanges := exchanges[name := e];
    }

    /** `get_queue`: the registered queue, messages kept, or a new empty one. */
    method GetQueue(name: string) returns (q: Queue)
      requires Valid()
      modifies this`queues
      ensures Valid()
      ensures name in queues && q == queues[name] && q.name == name
      ensures name in old(queues) ==> queues == old(queues)
      ensures name !in old(queues) ==> fresh(q) && q.messages == [] && queues == old(queues)[name := q]
    {
      if name in queues {
        return queues[name];
      }
      q := new Queue(this, name);
      queues := queues[name := q];
    }

    method BindQueue(queueName: string, exchangeName: string, routingKey: string)
      modifies this`bindings
      ensures bindings == WithBinding(old(bindings), (exchangeName, routingKey), queueName)
    {
      var key := (exchangeName, routingKey);
      var current := if key in bindings then bindings[key] else {};
      bindings := bindings[key := current + {queueName}];
    }

    /**
     * `publish`: the body goes once to the back of every registered queue
     * bound to the key; no other queue, no binding and no registration
     * changes.
     */
    method Publish(exchangeName: string, routingKey: string, body: Bytes)
      requires Valid()
      modifies QueueObjects()
      ensures forall n | n in queues ::
        queues[n].messages == old(queues[n].messages) + Delivery(bindings, (exchangeName, routingKey), n, body)
    {
      var key := (exchangeName, routingKey);
      var targets := if key in bindings then bindings[key] else {};
      var rest := targets;
      while rest != {}
        invariant rest <= targets
        invariant forall n | n in queues ::
          queues[n].messages == old(queues[n].messages) + (if n in targets - rest then [body] else [])
        decreases rest
      {
        var queueName :| queueName in rest;
        if queueName in queues {
          var queue := queues[queueName];
          queue.Enqueue(body);
        }
        rest := rest - {queueName};
      }
    }

    method DeleteExchange(exchangeName: string)
      requires Valid()
      modifies this`exchanges, this`bindings
      ensures Valid()
      ensures exchanges == old(exchanges) - {exchangeName}
      ensures bindings == DropExchange(old(bindings), exchangeName)
    {
      exchanges := exchanges - {exchangeName};
      bindings := map k | k in bindings && k.0 != exchangeName :: bindings[k];
    }

    method DeleteQueue(queueName: string)
      requires Valid()
      modifies this`queues, this`bindings
      ensures Valid()
      ensures queues == old(queues) - {queueName}
      ensures bindings == Unbind(old(bindings), queueName)
    {
      queues := queues - {queueName};
      bindings := map k | k in bindings :: bindings[k] - {queueName};
    }
  }

  /** `_InMemoryChannel`: declares and looks up through the broker. */
  class Channel {
    const broker: InMemoryBroker

    constructor (broker: InMemoryBroker)
      ensures this.broker == broker
    {
      this.broker := broker;
    }

    method DeclareExchange(name: string) returns (e: Exchange)
      requires broker.Valid()
      modifies broker`exchanges
      ensures broker.Valid()
      ensures name in broker.exchanges && e == broker.exchanges[name]
      ensures name in old(broker.exchanges) ==> broker.exchanges == old(broker.exchanges)
      ensures name !in old(broker.exchanges) ==> fresh(e) && broker.exchanges == old(broker.exchanges)[name := e]
    {
      e := broker.GetExchange(name);
    }

    method DeclareQueue(name: string) returns (q: Queue)
      requires broker.Valid()
      modifies broker`queues
      ensures broker.Valid()
      ensures name in broker.queues && q == broker.queues[name]
      ensures name in old(broker.queues) ==> broker.queues == old(broker.queues)
      ensures name !in old(broker.queues) ==> fresh(q) && q.messages == [] && broker.queues == old(broker.queues)[name := q]
    {
      q := broker.GetQueue(name);
    }

    /** `get_exchange`: with `ensure` it declares; without, an unknown name is a `KeyError`. */
    method GetExchange(name: string, ensure: bool) returns (r: Result<Exchange, BrokerError>)
      requires broker.Valid()
      modifies broker`exchanges
      ensures broker.Valid()
      ensures !ensure ==> broker.exchanges == old(broker.exchanges)
      ensures !ensure && name !in broker.exchanges ==> r == Err(KeyError(name))
      ensures !ensure && name in old(broker.exchanges) ==> r == Ok(old(broker.exchanges)[name])
      ensures r.Ok? ==> name in broker.exchanges && r.value == broker.exchanges[name]
      ensures ensure ==> r.Ok? && (name in old(broker.exchanges) ==> broker.exchanges == old(broker.exchanges))
      ensures ensure && name !in old(broker.exchanges) ==> broker.exchanges == old(broker.exchanges)[name := r.value]
    {
      if ensure {
        var e := broker.GetExchange(name);
        return Ok(e);
      }
      if name !in broker.exchanges {
        return Err(KeyError(name));
      }
      return Ok(broker.exchanges[name]);
    }
  }
}

=== FILE: errors.dfy ===
/**
 * The closed set of error codes of the service. The services raise
 * `ValueError(code)`; the views compare `str(exc)` with a code and answer
 * `HTTPException(status, detail=code)`. A failed request rolls its
 * database transaction back, so every service method of the model leaves
 * the store untouched when it returns one of these.
 */
module Errors {

  datatype Code =
    // raised by the services
    | RoleNameExists
    | PermissionNameExists
    | RolePermissionExists
    | RolePermissionNotFound
    | RoleNotInOrganization
    | RoleNotAssigned
    | OrganizationNameExists
    | InvalidStatus
    | NotAUserStatus(given: string)   // `UserStatusEnum(value)` on an unknown string
    | EmailRequired
    | EmailAlreadyExists
    | UsernameAlreadyExists
    | InvalidCredentials
    | MissingProviderUid
    | MissingEmail
    | OrphanSsoProvider
    | PlanNameExists
    | SubscriptionExists
    | IntegrityError                  // a unique or NOT NULL constraint rejects the flush
    | DataError                       // the database rejects a value of the wrong type
    // raised by the views and the request dependencies
    | NotAuthenticated
    | InvalidAuthorizationHeader
    | InvalidToken
    | InvalidTokenPayload
    | SessionNotFound
    | SessionRevoked
    | SessionExpired
    | UserNotFound
    | Forbidden
    | RoleNotFound
    | PermissionNotFound
    | OrganizationNotFound
    | ContactNotFound
    | ContactMissingEmail
    | InvalidState
    | MissingProfileData
    | PlanNotFound
    | SubscriptionNotFound
    | PlanIdRequiredForHistory
    | InvoiceNotFound
    | InvalidMetricsSecret
    | MetricsIngestNotConfigured
    | InvalidInternalSecret
    | InternalAccessNotConfigured
    | OperationNotAllowedInProd

  /** The `detail` string the service puts on the wire for a code. */
  function Detail(c: Code): string
  {
    match c
    case RoleNameExists => "role_name_exists"
    case PermissionNameExists => "permission_name_exists"
    case RolePermissionExists => "role_permission_exists"
    case RolePermissionNotFound => "role_permission_not_found"
    case RoleNotInOrganization => "role_not_in_organization"
    case RoleNotAssigned => "role_not_assigned"
    case OrganizationNameExists => "organization_name_exists"
    case InvalidStatus => "invalid_status"
    case NotAUserStatus(v) => "'" + v + "' is not a valid UserStatusEnum"
    case EmailRequired => "email_required"
    case EmailAlreadyExists => "email_already_exists"
    case UsernameAlreadyExists => "username_already_exists"
    case InvalidCredentials => "invalid_credentials"
    case MissingProviderUid => "missing_provider_uid"
    case MissingEmail => "missing_email"
    case OrphanSsoProvider => "orphan_sso_provider"
    case PlanNameExists => "plan_name_exists"
    case SubscriptionExists => "subscription_exists"
    case IntegrityError => "integrity_error"
    case DataError => "data_error"
    case NotAuthenticated => "not_authenticated"
    case InvalidAuthorizationHeader => "invalid_authorization_header"
    case InvalidToken => "invalid_token"
    case InvalidTokenPayload => "invalid_token_payload"
    case SessionNotFound => "session_not_found"
    case SessionRevoked => "session_revoked"
    case SessionExpired => "session_expired"
    case UserNotFound => "user_not_found"
    case Forbidden => "forbidden"
    case RoleNotFound => "role_not_found"
    case PermissionNotFound => "permission_not_found"
    case OrganizationNotFound => "organization_not_found"
    case ContactNotFound => "contact_not_found"
    case ContactMissingEmail => "contact_missing_email"
    case InvalidState => "invalid_state"
    case MissingProfileData => "missing_profile_data"
    case PlanNotFound => "plan_not_found"
    case SubscriptionNotFound => "subscription_not_found"
    case PlanIdRequiredForHistory => "plan_id_required_for_history"
    case InvoiceNotFound => "invoice_not_found"
    case InvalidMetricsSecret => "invalid_metrics_secret"
    case MetricsIngestNotConfigured => "metrics_ingest_not_configured"
    case InvalidInternalSecret => "invalid_internal_secret"
    case InternalAccessNotConfigured => "internal_access_not_configured"
    case OperationNotAllowedInProd => "operation_not_allowed_in_prod"
  }

  /** An `HTTPException`: a status code and its detail code. Status 500 stands for an exception the view re-raises. */
  datatype HttpError = HttpError(status: int, code: Code)

  /** A handler's answer: a response body, or an HTTP error. */
  datatype Response<+T> = Success(body: T) | Failure(error: HttpError)
}

=== FILE: feature_flags.dfy ===
/**
 * Organization feature flags kept in one Redis hash per organization
 * (`services/feature_flags.py`): a flag is stored as the bytes "1" or "0".
 */
module FeatureFlags {
  import Tables
  import Strings

  /** `_key`. */
  function Key(orgId: int): string
  {
    "feature_flags:" + Strings.IntToString(orgId)
  }

  /** Two organizations never share a hash. */
  lemma KeyInjective(a: int, b: int)
    requires Key(a) == Key(b)
    ensures a == b
  {
    var prefix := "feature_flags:";
    assert Strings.IntToString(a) == Key(a)[|prefix|..];
    assert Strings.IntToString(b) == Key(b)[|prefix|..];
    Strings.IntToStringInjective(a, b);
  }

  /** A Redis hash: field to stored bytes. */
  type Hash = map<string, string>

  /** The decoding comprehension of `get_flags`: a stored value is true iff it is the bytes "1". */
  function Decode(raw: Hash): (flags: map<string, bool>)
    ensures flags.Keys == raw.Keys
    ensures forall k | k in raw :: flags[k] == (raw[k] == "1")
  {
    if raw == map[] then map[] else map k | k in raw :: raw[k] == "1"
  }

  /** The mapping `set_flags` writes: "1" for a truthy value, else "0". */
  function Encode(flags: map<string, Tables.Value>): (raw: Hash)
    ensures raw.Keys == flags.Keys
    ensures forall k | k in raw :: raw[k] == "1" || raw[k] == "0"
    ensures forall k | k in raw :: raw[k] == "1" <==> Tables.Truthy(flags[k])
  {
    map k | k in flags :: if Tables.Truthy(flags[k]) then "1" else "0"
  }

  /**
   * The hash under `key`: `hgetall` answers an empty mapping for a key
   * that does not exist.
   */
  function Stored(hashes: map<string, Hash>, key: string): Hash
  {
    if key in hashes then hashes[key] else map[]
  }

  /**
   * `HSET key mapping` merges the mapping into the hash: the named fields
   * take the new values, flags not named keep theirs, and reading back
   * gives each named flag its truthiness.
   */
  lemma MergeRoundTrip(stored: Hash, flags: map<string, Tables.Value>)
    ensures var result := Decode(stored + Encode(flags));
      && result.Keys == stored.Keys + flags.Keys
      && (forall k | k in flags :: result[k] == Tables.Truthy(flags[k]))
      && (forall k | k in stored && k !in flags :: result[k] == (stored[k] == "1"))
  {
  }

  /** The Redis server: hashes by key. Redis does not keep an empty hash. */
  class Redis {
    var hashes: map<string, Hash>

    ghost predicate Valid()
      reads this
    {
      forall k | k in hashes :: hashes[k] != map[]
    }

    constructor ()
      ensures Valid() && hashes == map[]
    {
      hashes := map[];
    }
  }

  /** `get_flags`: an absent or empty hash reads as no flags. */
  method GetFlags(redis: Redis, orgId: int) returns (flags: map<string, bool>)
    ensures Key(orgId) !in redis.hashes ==> flags == map[]
    ensures flags == Decode(Stored(redis.hashes, Key(orgId)))
  {
    var key := Key(orgId);
    var raw := if key in redis.hashes then redis.hashes[key] else map[];
    if raw == map[] {
      return map[];
    }
    flags := Decode(raw);
  }

  /** A write to one organization's key leaves every other organization's flags as they were. */
  lemma OtherOrganizationsUntouched(before: map<string, Hash>, after: map<string, Hash>, orgId: int)
    requires forall k | k != Key(orgId) :: (k in after <==> k in before) && (k in after ==> after[k] == before[k])
    ensures forall other | other != orgId :: Stored(after, Key(other)) == Stored(before, Key(other))
  {
    forall other | other != orgId
      ensures Stored(after, Key(other)) == Stored(before, Key(other))
    {
      if Key(other) == Key(orgId) {
        KeyInjective(other, orgId);
      }
    }
  }

  /**
   * `set_flags`: no flags deletes the hash and answers `{}`; otherwise the
   * encoded flags are merged into the hash and the whole hash is read back.
   * Other organizations' hashes are untouched.
   */
  method SetFlags(redis: Redis, orgId: int, flags: map<string, Tables.Value>) returns (result: map<string, bool>)
    requires redis.Valid()
    modifies redis
    ensures redis.Valid()
    ensures flags == map[] ==> result == map[] && redis.hashes == old(redis.hashes) - {Key(orgId)}
    ensures flags != map[] ==>
      && redis.hashes == old(redis.hashes)[Key(orgId) := Stored(old(redis.hashes), Key(orgId)) + Encode(flags)]
      && result == Decode(Stored(redis.hashes, Key(orgId)))
      && forall k | k in flags :: result[k] == Tables.Truthy(flags[k])
    ensures forall other | other != orgId :: Stored(redis.hashes, Key(other)) == Stored(old(redis.hashes), Key(other))
  {
    var key := Key(orgId);
    if flags == map[] {
      redis.hashes := redis.hashes - {key};
      OtherOrganizationsUntouched(old(redis.hashes), redis.hashes, orgId);
      return map[];
    }
    var mapping := Encode(flags);
    var current := Stored(redis.hashes, key);
    var k :| k in flags;
    assert k in current + mapping;
    redis.hashes := redis.hashes[key := current + mapping];
    OtherOrganizationsUntouched(old(redis.hashes), redis.hashes, orgId);
    MergeRoundTrip(current, flags);
    result := GetFlags(redis, orgId);
  }
}

=== FILE: organizations.dfy ===
/**
 * Organization provisioning (`services/organizations.py`): every
 * organization gets an administrator role `org_<id>_admin` holding the
 * fixed list of administrator permissions.
 */
module Organizations {
  import opened Wrappers
  import opened Tables
  import opened Errors
  import Strings

  const AdminPermissionNames: seq<string> := [
    "org.create", "org.read", "org.update", "org.delete",
    "user.invite", "user.read", "user.update", "user.delete",
    "role.assign", "role.revoke", "role.read", "role.create", "role.update", "role.delete",
    "role.perm.assign", "role.perm.revoke",
    "perm.read", "perm.create",
    "settings.read", "settings.update", "privacy.read", "privacy.update",
    "billing.plan.read", "billing.plan.write",
    "billing.subscription.read", "billing.subscription.write",
    "billing.invoice.read", "billing.invoice.write",
    "support.ticket.create", "support.ticket.read", "support.ticket.update", "support.comment",
    "feedback.create", "feedback.read", "feedback.update",
    "search.read"
  ]

  /** `PERMISSION_DESCRIPTIONS`, as (name, description) pairs; no name appears twice. */
  const PermissionDescriptions: seq<(string, string)> := [
    ("org.create", "Create new organizations"),
    ("org.read", "Read organization details"),
    ("org.update", "Update organization details"),
    ("org.delete", "Deactivate organizations"),
    ("user.invite", "Invite or create organization users"),
    ("user.read", "Read user profiles"),
    ("user.update", "Update user profiles"),
    ("user.delete", "Deactivate users"),
    ("role.assign", "Assign roles to users"),
    ("role.revoke", "Revoke roles from users"),
    ("role.read", "List roles"),
    ("role.create", "Create roles"),
    ("role.update", "Update roles"),
    ("role.delete", "Delete roles"),
    ("role.perm.assign", "Assign permissions to roles"),
    ("role.perm.revoke", "Revoke permissions from roles"),
    ("perm.read", "List permissions"),
    ("perm.create", "Create permissions"),
    ("settings.read", "Read organization settings"),
    ("settings.update", "Update organization settings"),
    ("privacy.read", "Read privacy settings"),
    ("privacy.update", "Update privacy settings"),
    ("billing.plan.read", "View billing plans"),
    ("billing.plan.write", "Create or update billing plans"),
    ("billing.subscription.read", "View organization subscription"),
    ("billing.subscription.write", "Create or update organization subscription"),
    ("billing.invoice.read", "View invoices"),
    ("billing.invoice.write", "Update invoices"),
    ("support.ticket.create", "Create support tickets"),
    ("support.ticket.read", "View support tickets"),
    ("support.ticket.update", "Update support tickets"),
    ("support.comment", "Comment on support tickets"),
    ("feedback.create", "Submit feedback entries"),
    ("feedback.read", "Read feedback entries"),
    ("feedback.update", "Update feedback entries"),
    ("search.read", "Perform cross-resource search")
  ]

  const AdminRoleDescription := "Organization administrator"

  /**
   * The administrator permission names hold no name twice. The six lemmas
   * after it are its helpers only: each compares one or two blocks of
   * twelve names, which keeps every proof obligation small.
   */
  lemma AdminNamesDistinct()
    ensures Strings.Distinct(AdminPermissionNames)
  {
    AdminNamesFirstDozenDistinct();
    AdminNamesSecondDozenDistinct();
    AdminNamesThirdDozenDistinct();
    AdminFirstAndSecondDozenApart();
    AdminFirstAndThirdDozenApart();
    AdminSecondAndThirdDozenApart();
  }

  /** The first twelve administrator names hold no name twice. */
  lemma AdminNamesFirstDozenDistinct()
    ensures forall i, j | 0 <= i < j < 12 :: AdminPermissionNames[i] != AdminPermissionNames[j]
  {
  }

  /** The second twelve administrator names hold no name twice. */
  lemma AdminNamesSecondDozenDistinct()
    ensures forall i, j | 12 <= i < j < 24 :: AdminPermissionNames[i] != AdminPermissionNames[j]
  {
  }

  /** The third twelve administrator names hold no name twice. */
  lemma AdminNamesThirdDozenDistinct()
    ensures forall i, j | 24 <= i < j < 36 :: AdminPermissionNames[i] != AdminPermissionNames[j]
  {
  }

  /** The first and the second twelve administrator names share no name. */
  lemma AdminFirstAndSecondDozenApart()
    ensures forall i, j | 0 <= i < 12 && 12 <= j < 24 :: AdminPermissionNames[i] != AdminPermissionNames[j]
  {
  }

  /** The first and the third twelve administrator names share no name. */
  lemma AdminFirstAndThirdDozenApart()
    ensures forall i, j | 0 <= i < 12 && 24 <= j < 36 :: AdminPermissionNames[i] != AdminPermissionNames[j]
  {
  }

  /** The second and the third twelve administrator names share no name. */
  lemma AdminSecondAndThirdDozenApart()
    ensures forall i, j | 12 <= i < 24 && 24 <= j < 36 :: AdminPermissionNames[i] != AdminPermissionNames[j]
  {
  }

  /** `_build_admin_role_name`. */
  function AdminRoleName(orgId: int): string
  {
    "org_" + Strings.IntToString(orgId) + "_admin"
  }

  /** The organization id can be read back from its admin role name, so no two organizations share one. */
  lemma AdminRoleNameRoundTrip(orgId: int)
    ensures var name := AdminRoleName(orgId);
            |name| >= 10 && Strings.ParseInt(name[4..|name| - 6]) == Some(orgId)
  {
    var name := AdminRoleName(orgId);
    assert name[4..|name| - 6] == Strings.IntToString(orgId);
    Strings.IntToStringRoundTrip(orgId);
  }

  lemma AdminRoleNameInjective(a: int, b: int)
    requires AdminRoleName(a) == AdminRoleName(b)
    ensures a == b
  {
    AdminRoleNameRoundTrip(a);
    AdminRoleNameRoundTrip(b);
  }

  /** The description a newly created permission gets. */
  function DescriptionFor(name: string): (d: string)
    ensures (exists k | 0 <= k < |PermissionDescriptions| :: PermissionDescriptions[k].0 == name) ==>
      exists k | 0 <= k < |PermissionDescriptions| :: PermissionDescriptions[k] == (name, d)
    ensures (forall k | 0 <= k < |PermissionDescriptions| :: PermissionDescriptions[k].0 != name) ==>
      d == "Permission for " + name
  {
    match Describe(PermissionDescriptions, name)
    case Some(d) => d
    case None => "Permission for " + name
  }

  /** `dict.get` on a table of pairs: the description paired with the name, if any. */
  function Describe(table: seq<(string, string)>, name: string): (d: Option<string>)
    ensures d.Some? <==> exists k | 0 <= k < |table| :: table[k].0 == name
    ensures d.Some? ==> exists k | 0 <= k < |table| :: table[k] == (name, d.value)
  {
    if table == [] then None
    else if table[0].0 == name then Some(table[0].1)
    else
      var rest := Describe(table[1..], name);
      assert forall k | 1 <= k < |table| :: table[k] == table[1..][k - 1];
      rest
  }

  /** The requested names no permission carries yet, in request order (duplicates kept). */
  function Missing(perms: map<int, Permission>, names: seq<string>): (r: seq<string>)
    ensures forall n :: n in r <==> n in names && !PermissionNameTaken(perms, n)
  {
    if names == [] then []
    else (if PermissionNameTaken(perms, names[0]) then [] else [names[0]]) + Missing(perms, names[1..])
  }

  /** When every requested name exists, nothing is created. */
  lemma {:induction false} NothingMissing(perms: map<int, Permission>, names: seq<string>)
    requires forall n | n in names :: PermissionNameTaken(perms, n)
    ensures Missing(perms, names) == []
  {
    if names != [] {
      assert names[0] in names;
      NothingMissing(perms, names[1..]);
    }
  }

  /** The id of the permission with a given name; names are unique. */
  function PermissionIdOf(perms: map<int, Permission>, name: string): (id: int)
    requires PermissionNameTaken(perms, name)
    requires forall a, b | a in perms && b in perms && perms[a].name == perms[b].name :: a == b
    ensures id in perms && perms[id].name == name
  {
    var id :| id in perms && perms[id].name == name; id
  }

  /**
   * `after` keeps every permission of `before` and adds only permissions for
   * requested names that were missing, described from `PermissionDescriptions`.
   */
  ghost predicate AddsOnlyMissing(before: map<int, Permission>, after: map<int, Permission>, names: seq<string>)
  {
    && (forall id | id in before :: id in after && after[id] == before[id])
    && (forall id | id in after && id !in before ::
          && after[id].name in names && !PermissionNameTaken(before, after[id].name)
          && after[id].description == Some(DescriptionFor(after[id].name)))
  }

  lemma {:induction false} MissingOfDistinct(perms: map<int, Permission>, names: seq<string>)
    requires Strings.Distinct(names)
    ensures Strings.Distinct(Missing(perms, names))
  {
    if names != [] {
      assert Strings.Distinct(names[1..]) by {
        forall i, j | 0 <= i < j < |names[1..]|
          ensures names[1..][i] != names[1..][j]
        {
          assert names[1..][i] == names[i + 1] && names[1..][j] == names[j + 1];
        }
      }
      MissingOfDistinct(perms, names[1..]);
      assert names[0] !in names[1..];
    }
  }

  /** The ids of the requested names that already have a permission: the `found` dict of the lookup. */
  function ExistingIds(perms: map<int, Permission>, names: seq<string>): (found: map<string, int>)
    requires forall a, b | a in perms && b in perms && perms[a].name == perms[b].name :: a == b
    ensures found.Keys == set n | n in names && PermissionNameTaken(perms, n)
    ensures forall n | n in found :: found[n] in perms && perms[found[n]].name == n
  {
    map n | n in names && PermissionNameTaken(perms, n) :: PermissionIdOf(perms, n)
  }

  /** No permission in `perms` is named like `missing[k]` for `k` from `i` on. */
  ghost predicate NamesFreeFrom(perms: map<int, Permission>, missing: seq<string>, i: nat)
  {
    forall k, id | i <= k < |missing| && id in perms :: perms[id].name != missing[k]
  }

  /** `after` keeps every row of `before`; each new row is a described permission named in `missing`. */
  ghost predicate GrownBy(before: map<int, Permission>, after: map<int, Permission>, missing: seq<string>)
  {
    && (forall id | id in before :: id in after && after[id] == before[id])
    && (forall id | id in after && id !in before ::
          after[id].name in missing && after[id].description == Some(DescriptionFor(after[id].name)))
  }

  /** Every entry of `created` names the id of a permission with that name. */
  ghost predicate CreatedIn(created: map<string, int>, perms: map<int, Permission>)
  {
    forall n | n in created :: created[n] in perms && perms[created[n]].name == n
  }

  /** One step of the insertion loop keeps the three predicates above. */
  lemma InsertStep(before: map<int, Permission>, perms: map<int, Permission>, created: map<string, int>,
                   missing: seq<string>, i: int, id: int)
    requires Strings.Distinct(missing) && 0 <= i < |missing| && id !in perms
    requires NamesFreeFrom(perms, missing, i) && GrownBy(before, perms, missing) && CreatedIn(created, perms)
    ensures var perms' := perms[id := Permission(missing[i], Some(DescriptionFor(missing[i])))];
      && NamesFreeFrom(perms', missing, i + 1)
      && GrownBy(before, perms', missing)
      && CreatedIn(created[missing[i] := id], perms')
  {
    assert missing[i] in missing;
  }

  /** The insertion loop of `_ensure_permissions`, for names known to be missing and distinct. */
  method CreateMissing(db: Database, missing: seq<string>) returns (created: map<string, int>)
    requires db.Valid() && Strings.Distinct(missing)
    requires forall k, id | 0 <= k < |missing| && id in db.perms :: db.perms[id].name != missing[k]
    modifies db`perms, db`nextId
    ensures db.Valid()
    ensures created.Keys == Strings.Elems(missing)
    ensures forall n | n in created :: created[n] in db.perms && db.perms[created[n]].name == n
    ensures forall id | id in old(db.perms) :: id in db.perms && db.perms[id] == old(db.perms)[id]
    ensures forall id | id in db.perms && id !in old(db.perms) ::
              db.perms[id].name in missing && db.perms[id].description == Some(DescriptionFor(db.perms[id].name))
    ensures missing == [] ==> db.perms == old(db.perms) && db.nextId == old(db.nextId)
  {
    created := map[];
    var i := 0;
    while i < |missing|
      invariant 0 <= i <= |missing|
      invariant db.Valid()
      invariant created.Keys == Strings.Elems(missing[..i])
      invariant CreatedIn(created, db.perms)
      invariant NamesFreeFrom(db.perms, missing, i)
      invariant GrownBy(old(db.perms), db.perms, missing)
      invariant i == 0 ==> db.perms == old(db.perms) && db.nextId == old(db.nextId)
    {
      var name := missing[i];
      ghost var perms := db.perms;
      var id := db.AddPermission(Permission(name, Some(DescriptionFor(name))));
      InsertStep(old(db.perms), perms, created, missing, i, id);
      created := created[name := id];
      Strings.ElemsOfLongerPrefix(missing, i);
      i := i + 1;
    }
    assert missing[..i] == missing;
  }

  /**
   * `_ensure_permissions`: a map from every requested name to its
   * permission, creating the missing ones. A missing name requested twice
   * would be inserted twice and break the unique constraint on the flush.
   */
  method EnsurePermissions(db: Database, names: seq<string>) returns (r: Result<map<string, int>, Code>)
    requires db.Valid()
    modifies db`perms, db`nextId
    ensures db.Valid()
    ensures r.Err? <==> !Strings.Distinct(Missing(old(db.perms), names))
    ensures r.Err? ==> r.error == IntegrityError && db.perms == old(db.perms) && db.nextId == old(db.nextId)
    ensures r.Ok? ==> && r.value.Keys == Strings.Elems(names)
                      && (forall n | n in r.value :: r.value[n] in db.perms && db.perms[r.value[n]].name == n)
                      && AddsOnlyMissing(old(db.perms), db.perms, names)
    ensures Missing(old(db.perms), names) == [] ==> db.perms == old(db.perms) && db.nextId == old(db.nextId)
  {
    var missing := Missing(db.perms, names);
    if !Strings.Distinct(missing) {
      return Err(IntegrityError);
    }
    var found := ExistingIds(db.perms, names);
    forall k, id | 0 <= k < |missing| && id in db.perms
      ensures db.perms[id].name != missing[k]
    {
      assert missing[k] in missing;
    }
    var created := CreateMissing(db, missing);
    r := Ok(found + created);
  }

  /** `rp` links a permission named in `names` to the role, scoped to the organization. */
  ghost predicate Links(perms: map<int, Permission>, rp: RolePermission, roleId: int, orgId: int, names: seq<string>)
  {
    rp.roleId == roleId && rp.orgId == orgId && rp.permId in perms && perms[rp.permId].name in names
  }

  /** The role holds every permission in `names` within the organization. */
  ghost predicate Holds(db: Database, roleId: int, orgId: int, names: seq<string>)
    reads db`perms, db`rolePerms
  {
    forall n | n in names ::
      exists p | p in db.perms :: db.perms[p].name == n && RolePermission(roleId, p, orgId) in db.rolePerms
  }

  /** The linking loop: one row per permission of `found`, skipping rows already present. */
  method LinkPermissions(db: Database, roleId: int, orgId: int, names: seq<string>, found: map<string, int>)
    requires db.Valid()
    requires forall n | n in names :: n in found && found[n] in db.perms && db.perms[found[n]].name == n
    modifies db`rolePerms
    ensures forall rp :: rp in db.rolePerms <==> rp in old(db.rolePerms) || Links(db.perms, rp, roleId, orgId, names)
  {
    var i := 0;
    while i < |names|
      invariant 0 <= i <= |names|
      invariant db.rolePerms == old(db.rolePerms) + set j | 0 <= j < i :: RolePermission(roleId, found[names[j]], orgId)
    {
      var row := RolePermission(roleId, found[names[i]], orgId);
      if row !in db.rolePerms {
        db.rolePerms := db.rolePerms + {row};
      }
      i := i + 1;
    }
    forall rp | Links(db.perms, rp, roleId, orgId, names)
      ensures rp in db.rolePerms
    {
      var j :| 0 <= j < |names| && names[j] == db.perms[rp.permId].name;
      assert rp == RolePermission(roleId, found[names[j]], orgId);
    }
  }

  /**
   * Both `ensure_*_role` methods end alike: ensure the permissions exist,
   * then link each of them to the role within the organization. A role that
   * already holds them all is left exactly as it was.
   */
  method GrantAll(db: Database, roleId: int, orgId: int, names: seq<string>)
    requires db.Valid() && Strings.Distinct(names)
    modifies db`perms, db`rolePerms, db`nextId
    ensures db.Valid()
    ensures AddsOnlyMissing(old(db.perms), db.perms, names)
    ensures Holds(db, roleId, orgId, names)
    ensures forall rp :: rp in db.rolePerms <==> rp in old(db.rolePerms) || Links(db.perms, rp, roleId, orgId, names)
    ensures old(Holds(db, roleId, orgId, names)) ==>
              db.perms == old(db.perms) && db.rolePerms == old(db.rolePerms) && db.nextId == old(db.nextId)
  {
    ghost var held := Holds(db, roleId, orgId, names);
    ghost var missing := Missing(db.perms, names);
    if held {
      forall n | n in names
        ensures PermissionNameTaken(db.perms, n)
      {
        var p :| p in db.perms && db.perms[p].name == n && RolePermission(roleId, p, orgId) in db.rolePerms;
      }
      NothingMissing(db.perms, names);
    }
    MissingOfDistinct(db.perms, names);
    var res := EnsurePermissions(db, names);
    assert res.Ok?;
    var found := res.value;
    LinkPermissions(db, roleId, orgId, names, found);
    forall n | n in names
      ensures exists p | p in db.perms :: db.perms[p].name == n && RolePermission(roleId, p, orgId) in db.rolePerms
    {
      assert Links(db.perms, RolePermission(roleId, found[n], orgId), roleId, orgId, names);
    }
    if held {
      forall rp | Links(db.perms, rp, roleId, orgId, names)
        ensures rp in old(db.rolePerms)
      {
        var n := db.perms[rp.permId].name;
        var p :| p in db.perms && db.perms[p].name == n && RolePermission(roleId, p, orgId) in old(db.rolePerms);
        assert p == rp.permId;
      }
    }
  }

  /** What `ensure_admin_role` establishes for an organization. */
  ghost predicate AdminProvisioned(db: Database, orgId: int)
    reads db
  {
    exists rid | rid in db.roles ::
      db.roles[rid].orgId == orgId && db.roles[rid].name == AdminRoleName(orgId) && Holds(db, rid, orgId, AdminPermissionNames)
  }

  /** A role of another organization already carries the name, so inserting it breaks uniqueness. */
  predicate AdminNameSquatted(roles: map<int, Role>, orgId: int)
  {
    exists id | id in roles :: roles[id].name == AdminRoleName(orgId) && roles[id].orgId != orgId
  }

  /**
   * `ensure_admin_role`. Running it on an organization that is already
   * provisioned changes nothing, and afterwards the organization is
   * provisioned; together these make it idempotent.
   */
  method EnsureAdminRole(db: Database, orgId: int) returns (r: Result<int, Code>)
    requires db.Valid() && orgId in db.orgs
    modifies db`roles, db`perms, db`rolePerms, db`nextId
    ensures db.Valid()
    ensures r.Err? <==> AdminNameSquatted(old(db.roles), orgId)
    ensures r.Err? ==> && r.error == IntegrityError
                       && db.roles == old(db.roles) && db.perms == old(db.perms)
                       && db.rolePerms == old(db.rolePerms) && db.nextId == old(db.nextId)
    ensures r.Ok? ==> && r.value in db.roles && db.roles[r.value].orgId == orgId
                      && db.roles[r.value].name == AdminRoleName(orgId)
                      && Holds(db, r.value, orgId, AdminPermissionNames)
    ensures r.Ok? && r.value in old(db.roles) ==> db.roles == old(db.roles)
    ensures r.Ok? && r.value !in old(db.roles) ==>
              db.roles == old(db.roles)[r.value := Role(orgId, AdminRoleName(orgId), Some(AdminRoleDescription))]
    ensures r.Ok? ==> AddsOnlyMissing(old(db.perms), db.perms, AdminPermissionNames)
    ensures r.Ok? ==> forall rp :: rp in db.rolePerms <==>
              rp in old(db.rolePerms) || Links(db.perms, rp, r.value, orgId, AdminPermissionNames)
    ensures old(AdminProvisioned(db, orgId)) ==>
              && db.roles == old(db.roles) && db.perms == old(db.perms)
              && db.rolePerms == old(db.rolePerms) && db.nextId == old(db.nextId)
  {
    var name := AdminRoleName(orgId);
    if AdminNameSquatted(db.roles, orgId) {
      return Err(IntegrityError);
    }
    ghost var wasProvisioned := AdminProvisioned(db, orgId);
    var roleId: int;
    if rid :| rid in db.roles && db.roles[rid].orgId == orgId && db.roles[rid].name == name {
      roleId := rid;
      assert wasProvisioned ==> Holds(db, roleId, orgId, AdminPermissionNames);
    } else {
      roleId := db.AddRole(Role(orgId, name, Some(AdminRoleDescription)));
    }
    AdminNamesDistinct();
    GrantAll(db, roleId, orgId, AdminPermissionNames);
    r := Ok(roleId);
  }

  /** `create_organization`: a new organization, then its admin role. */
  method CreateOrganization(db: Database, name: string, license: Option<LicenseStatus>) returns (r: Result<(int, int), Code>)
    requires db.Valid()
    modifies db`orgs, db`roles, db`perms, db`rolePerms, db`nextId
    ensures db.Valid()
    ensures r.Err? <==> OrganizationNameTaken(old(db.orgs), name) || AdminNameSquatted(old(db.roles), old(db.nextId))
    ensures r.Err? ==> && r.error == (if OrganizationNameTaken(old(db.orgs), name) then OrganizationNameExists else IntegrityError)
                       && db.orgs == old(db.orgs) && db.roles == old(db.roles) && db.perms == old(db.perms)
                       && db.rolePerms == old(db.rolePerms) && db.nextId == old(db.nextId)
    ensures r.Ok? ==> && r.value.0 == old(db.nextId) && r.value.0 !in old(db.orgs)
                      && db.orgs == old(db.orgs)[r.value.0 := Organization(name, if license.Some? then license.value else LicenseStatus.Active)]
                      && r.value.1 in db.roles && db.roles[r.value.1] == Role(r.value.0, AdminRoleName(r.value.0), Some(AdminRoleDescription))
                      && Holds(db, r.value.1, r.value.0, AdminPermissionNames)
    ensures r.Ok? ==> && r.value.1 !in old(db.roles)
                      && db.roles == old(db.roles)[r.value.1 := Role(r.value.0, AdminRoleName(r.value.0), Some(AdminRoleDescription))]
    ensures r.Ok? ==> AddsOnlyMissing(old(db.perms), db.perms, AdminPermissionNames)
    ensures r.Ok? ==> forall rp :: rp in db.rolePerms <==>
              rp in old(db.rolePerms) || Links(db.perms, rp, r.value.1, r.value.0, AdminPermissionNames)
  {
    if OrganizationNameTaken(db.orgs, name) {
      return Err(OrganizationNameExists);
    }
    var orgId := db.nextId;
    var orgsBefore := db.orgs;
    db.orgs := db.orgs[orgId := Organization(name, if license.Some? then license.value else LicenseStatus.Active)];
    db.nextId := db.nextId + 1;
    var role := EnsureAdminRole(db, orgId);
    if role.Err? {
      db.orgs := orgsBefore;
      db.nextId := orgId;
      return Err(role.error);
    }
    r := Ok((orgId, role.value));
  }

  /**
   * `update_organization`. A falsy name or license status (absent, `None`
   * or empty) is ignored; keeping the organization's own name is allowed.
   */
  method UpdateOrganization(db: Database, orgId: int, name: Option<string>, license: Option<LicenseStatus>)
    returns (r: Result<Organization, Code>)
    requires db.Valid() && orgId in db.orgs
    modifies db`orgs
    ensures db.Valid()
    ensures r.Err? <==> name.Some? && name.value != "" &&
                        exists id | id in old(db.orgs) && id != orgId :: old(db.orgs)[id].name == name.value
    ensures r.Err? ==> r.error == OrganizationNameExists && db.orgs == old(db.orgs)
    ensures r.Ok? ==> && r.value.name == (if name.Some? && name.value != "" then name.value else old(db.orgs[orgId]).name)
                      && r.value.license == (if license.Some? then license.value else old(db.orgs[orgId]).license)
                      && db.orgs == old(db.orgs)[orgId := r.value]
  {
    var org := db.orgs[orgId];
    if name.Some? && name.value != "" {
      if exists id | id in db.orgs && id != orgId :: db.orgs[id].name == name.value {
        return Err(OrganizationNameExists);
      }
      org := org.(name := name.value);
    }
    if license.Some? {
      org := org.(license := license.value);
    }
    db.orgs := db.orgs[orgId := org];
    r := Ok(org);
  }

  method DeactivateOrganization(db: Database, orgId: int) returns (org: Organization)
    requires db.Valid() && orgId in db.orgs
    modifies db`orgs
    ensures db.Valid()
    ensures org == old(db.orgs[orgId]).(license := LicenseStatus.Suspended)
    ensures db.orgs == old(db.orgs)[orgId := org]
  {
    org := db.orgs[orgId].(license := LicenseStatus.Suspended);
    db.orgs := db.orgs[orgId := org];
  }
}

=== FILE: principal.dfy ===
/**
 * The request dependencies of `web/api/dependencies.py`: resolving the
 * `Authorization` header into an authenticated principal, and the
 * permission guards built on the RBAC engine.
 *
 * The header is split at its first space; the scheme is compared with
 * "bearer" without regard to letter case, and the rest, if not empty, is
 * the token, whose syntax (the `b64token` of section 2.1 of RFC 6750) is
 * not checked. The token's subject is the `sub` claim of section 4.1.2 of
 * RFC 7519. Token decoding (the
 * signature and expiry checks of the JWT library) is the partial function
 * `decode`; the login-session rows are a map from session id to record.
 */
module Principal {
  import opened Wrappers
  import opened Tables
  import opened Errors
  import opened Tokens
  import opened RbacEngine
  import Strings
  import AuthService

  datatype SessionRecord = SessionRecord(userId: int, revokedAt: Option<int>, refreshExpiresAt: int)

  datatype AuthenticatedPrincipal = AuthenticatedPrincipal(
    userId: int,
    sessionId: int,
    orgId: int,
    roleId: Option<int>,
    status: UserStatus,
    username: string,
    payload: Claims,
    rawToken: string)

  /**
   * The header split at its first space: the token after a scheme that
   * lowercases to "bearer", when that token is not empty.
   */
  function BearerToken(header: string): (token: Option<string>)
    ensures token.Some? ==> token.value != "" && exists scheme :: header == scheme + " " + token.value
                                                   && Strings.AsciiLower(scheme) == "bearer"
  {
    var (scheme, _, rest) := Strings.Partition(header, ' ');
    if Strings.AsciiLower(scheme) != "bearer" || rest == "" then None else Some(rest)
  }

  /** Every scheme spelling that lowercases to "bearer" is accepted with any non-empty token. */
  lemma BearerSchemeAnyCase(scheme: string, token: string)
    requires Strings.AsciiLower(scheme) == "bearer" && token != ""
    ensures BearerToken(scheme + " " + token) == Some(token)
  {
    var header := scheme + " " + token;
    assert ' ' !in scheme by {
      forall i | 0 <= i < |scheme|
        ensures scheme[i] != ' '
      {
        assert Strings.AsciiLower(scheme)[i] == Strings.AsciiLowerChar(scheme[i]);
      }
    }
    Strings.PartitionFirst(scheme, token, ' ');
  }

  /** The session checks in their fixed order: owner, revocation, then expiry (equality still passes). */
  function SessionCheck(sessions: map<int, SessionRecord>, userId: int, sessionId: int, now: int): (c: Option<Code>)
    ensures c == None <==> sessionId in sessions && sessions[sessionId].userId == userId
                           && sessions[sessionId].revokedAt == None && now <= sessions[sessionId].refreshExpiresAt
  {
    if sessionId !in sessions || sessions[sessionId].userId != userId then Some(SessionNotFound)
    else if sessions[sessionId].revokedAt.Some? then Some(SessionRevoked)
    else if sessions[sessionId].refreshExpiresAt < now then Some(SessionExpired)
    else None
  }

  /**
   * `get_current_principal`. Every failure is a 401; on success the
   * organization, role, status and username come from the user row, not
   * from the token's claims.
   */
  function CurrentPrincipal(header: Option<string>, decode: string -> Option<Claims>,
                            sessions: map<int, SessionRecord>, users: map<int, User>, now: int)
    : (r: Result<AuthenticatedPrincipal, HttpError>)
    ensures r.Err? ==> r.error.status == 401
    ensures header == None || header == Some("") ==> r == Err(HttpError(401, NotAuthenticated))
    ensures r.Ok? ==>
      var p := r.value;
      && header.Some? && BearerToken(header.value) == Some(p.rawToken)
      && decode(p.rawToken) == Some(p.payload)
      && ClaimInt(Claim(p.payload, "sub")) == Some(p.userId)
      && ClaimInt(Claim(p.payload, "session_id")) == Some(p.sessionId)
      && SessionCheck(sessions, p.userId, p.sessionId, now) == None
      && p.userId in users
      && p.orgId == users[p.userId].orgId && p.roleId == users[p.userId].roleId
      && p.status == users[p.userId].status && p.username == users[p.userId].username
  {
    if header == None || header.value == "" then Err(HttpError(401, NotAuthenticated))
    else match BearerToken(header.value)
      case None => Err(HttpError(401, InvalidAuthorizationHeader))
      case Some(token) =>
        match decode(token)
        case None => Err(HttpError(401, InvalidToken))
        case Some(payload) =>
          var subject, session := Claim(payload, "sub"), Claim(payload, "session_id");
          if subject == CNull || session == CNull then Err(HttpError(401, InvalidTokenPayload))
          else
            var userId, sessionId := ClaimInt(subject), ClaimInt(session);
            if userId.None? || sessionId.None? then Err(HttpError(401, InvalidTokenPayload))
            else match SessionCheck(sessions, userId.value, sessionId.value, now)
              case Some(code) => Err(HttpError(401, code))
              case None =>
                if userId.value !in users then Err(HttpError(401, UserNotFound))
                else
                  var u := users[userId.value];
                  Ok(AuthenticatedPrincipal(userId.value, sessionId.value, u.orgId, u.roleId, u.status, u.username, payload, token))
  }

  /** The converse of `CurrentPrincipal`'s postcondition: a request meeting every check is admitted. */
  lemma AdmittedWhenAllChecksPass(header: string, decode: string -> Option<Claims>,
                                  sessions: map<int, SessionRecord>, users: map<int, User>, now: int,
                                  token: string, payload: Claims, userId: int, sessionId: int)
    requires BearerToken(header) == Some(token) && decode(token) == Some(payload)
    requires ClaimInt(Claim(payload, "sub")) == Some(userId)
    requires ClaimInt(Claim(payload, "session_id")) == Some(sessionId)
    requires SessionCheck(sessions, userId, sessionId, now) == None && userId in users
    ensures var r := CurrentPrincipal(Some(header), decode, sessions, users, now);
      r.Ok? && r.value.userId == userId && r.value.sessionId == sessionId
  {
    assert header != "";
  }

  /**
   * The user table is consulted only after every session check passes: a
   * request refused for any other reason is refused the same way whatever
   * the users are.
   */
  lemma UsersConsultedLast(header: Option<string>, decode: string -> Option<Claims>,
                           sessions: map<int, SessionRecord>, users: map<int, User>, others: map<int, User>, now: int)
    requires CurrentPrincipal(header, decode, sessions, users, now).Err?
    requires CurrentPrincipal(header, decode, sessions, users, now).error.code != UserNotFound
    ensures CurrentPrincipal(header, decode, sessions, others, now) == CurrentPrincipal(header, decode, sessions, users, now)
  {
  }

  /**
   * A revoked session is reported as revoked even when it has also expired:
   * revocation is checked first.
   */
  lemma RevocationBeforeExpiry(sessions: map<int, SessionRecord>, userId: int, sessionId: int, now: int)
    requires sessionId in sessions && sessions[sessionId].userId == userId
    requires sessions[sessionId].revokedAt.Some?
    ensures SessionCheck(sessions, userId, sessionId, now) == Some(SessionRevoked)
  {
  }

  /** A decoded payload without a `session_id` claim is refused as an invalid payload. */
  lemma NoSessionClaimRefused(header: string, decode: string -> Option<Claims>,
                              sessions: map<int, SessionRecord>, users: map<int, User>, now: int)
    requires BearerToken(header).Some? && decode(BearerToken(header).value).Some?
    requires Claim(decode(BearerToken(header).value).value, "session_id") == CNull
    ensures CurrentPrincipal(Some(header), decode, sessions, users, now) == Err(HttpError(401, InvalidTokenPayload))
  {
    assert header != "";
  }

  /** The claims `issue_token` signs hold no `session_id`. */
  lemma IssuedPayloadHasNoSession(userId: int, user: User, email: Option<string>, minutes: int, issuedAt: int)
    ensures Claim(AuthService.IssueToken(userId, user, email, minutes, issuedAt).0, "session_id") == CNull
  {
    var payload := AuthService.IssueToken(userId, user, email, minutes, issuedAt).0;
    NoSessionName(payload.Keys, email.Some? && email.value != "");
  }

  /** None of the claim names `issue_token` uses is `session_id`. */
  lemma NoSessionName(names: set<string>, withEmail: bool)
    requires names == {"sub", "exp", "username", "organization_id", "role_id"} + (if withEmail then {"email"} else {})
    ensures "session_id" !in names
  {
  }

  /**
   * A token from `issue_token` carries no `session_id` claim, so even a
   * well-formed header carrying it is refused as an invalid payload.
   */
  lemma IssuedTokenHasNoSession(header: string, decode: string -> Option<Claims>,
                                sessions: map<int, SessionRecord>, users: map<int, User>, now: int,
                                userId: int, user: User, email: Option<string>, minutes: int, issuedAt: int)
    requires BearerToken(header).Some?
    requires decode(BearerToken(header).value) == Some(AuthService.IssueToken(userId, user, email, minutes, issuedAt).0)
    ensures CurrentPrincipal(Some(header), decode, sessions, users, now) == Err(HttpError(401, InvalidTokenPayload))
  {
    IssuedPayloadHasNoSession(userId, user, email, minutes, issuedAt);
    NoSessionClaimRefused(header, decode, sessions, users, now);
  }

  /**
   * The organization guard of the view modules (`_ensure_same_organization`
   * of the user views, `_ensure_same_org` of the billing views, one body):
   * a path organization other than the principal's is forbidden.
   */
  function EnsureSameOrganization(principal: AuthenticatedPrincipal, orgId: int): (e: Option<HttpError>)
    ensures e == None <==> principal.orgId == orgId
    ensures e.Some? ==> e.value == HttpError(403, Forbidden)
  {
    if principal.orgId != orgId then Some(HttpError(403, Forbidden)) else None
  }

  // ---------------------------------------------------------------------------
  // require_permission / require_permissions
  // ---------------------------------------------------------------------------

  /** `require_permission`: the principal passes iff the engine allows the permission in the principal's organization. */
  method RequirePermission(rbac: RbacService, db: Database, principal: AuthenticatedPrincipal, permission: string)
    returns (r: Result<AuthenticatedPrincipal, HttpError>)
    modifies rbac
    ensures rbac.loaded
    ensures old(rbac.loaded) ==> rbac.policies == old(rbac.policies) && rbac.groupings == old(rbac.groupings)
    ensures !old(rbac.loaded) ==> rbac.Current(db)
    ensures r.Ok? <==> Allowed(rbac.policies, rbac.groupings, principal.userId, permission, principal.orgId, AccessAction)
    ensures r.Ok? ==> r.value == principal
    ensures r.Err? ==> r.error == HttpError(403, Forbidden)
  {
    var allowed := rbac.Enforce(db, principal.userId, permission, principal.orgId, AccessAction);
    if !allowed {
      return Err(HttpError(403, Forbidden));
    }
    return Ok(principal);
  }

  /**
   * `require_permissions`: every listed permission must be allowed; the
   * check stops at the first denial. With no permissions listed the engine
   * is not consulted.
   */
  method RequirePermissions(rbac: RbacService, db: Database, principal: AuthenticatedPrincipal, permissions: seq<string>)
    returns (r: Result<AuthenticatedPrincipal, HttpError>)
    modifies rbac
    ensures permissions == [] ==> r == Ok(principal) && unchanged(rbac)
    ensures permissions != [] ==> rbac.loaded
    ensures old(rbac.loaded) ==> rbac.policies == old(rbac.policies) && rbac.groupings == old(rbac.groupings)
    ensures permissions != [] && !old(rbac.loaded) ==> rbac.Current(db)
    ensures r.Ok? <==> forall k | 0 <= k < |permissions| ::
      Allowed(rbac.policies, rbac.groupings, principal.userId, permissions[k], principal.orgId, AccessAction)
    ensures r.Ok? ==> r.value == principal
    ensures r.Err? ==> r.error == HttpError(403, Forbidden)
  {
    var i := 0;
    while i < |permissions|
      invariant 0 <= i <= |permissions|
      invariant i == 0 ==> unchanged(rbac)
      invariant i > 0 ==> rbac.loaded
      invariant old(rbac.loaded) ==> rbac.policies == old(rbac.policies) && rbac.groupings == old(rbac.groupings)
      invariant i > 0 && !old(rbac.loaded) ==> rbac.Current(db)
      invariant forall k | 0 <= k < i ::
        Allowed(rbac.policies, rbac.groupings, principal.userId, permissions[k], principal.orgId, AccessAction)
    {
      var allowed := rbac.Enforce(db, principal.userId, permissions[i], principal.orgId, AccessAction);
      if !allowed {
        return Err(HttpError(403, Forbidden));
      }
      i := i + 1;
    }
    return Ok(principal);
  }
}

=== FILE: rbac_admin.dfy ===
/**
 * Role, permission and assignment administration (`services/rbac_admin.py`),
 * and what each change means for the RBAC decision after the next reload.
 */
module RbacAdmin {
  import opened Wrappers
  import opened Tables
  import opened Errors
  import Strings
  import RbacEngine

  method CreateRole(db: Database, orgId: int, name: string, description: Option<string>) returns (r: Result<int, Code>)
    requires db.Valid()
    modifies db`roles, db`nextId
    ensures db.Valid()
    ensures r.Ok? <==> !RoleNameTaken(old(db.roles), name) && orgId in db.orgs
    ensures r.Err? ==> && r.error == (if RoleNameTaken(old(db.roles), name) then RoleNameExists else IntegrityError)
                       && db.roles == old(db.roles) && db.nextId == old(db.nextId)
    ensures r.Ok? ==> r.value !in old(db.roles) && db.roles == old(db.roles)[r.value := Role(orgId, name, description)]
  {
    if RoleNameTaken(db.roles, name) {
      return Err(RoleNameExists);
    }
    if orgId !in db.orgs {
      // the foreign key on `organization_id` rejects the flush
      return Err(IntegrityError);
    }
    var id := db.AddRole(Role(orgId, name, description));
    r := Ok(id);
  }

  /** Whether `update_role` renames: the new name is given, non-empty and different. */
  predicate Renames(current: Role, name: Option<string>)
  {
    name.Some? && name.value != "" && name.value != current.name
  }

  method UpdateRole(db: Database, roleId: int, name: Option<string>, description: Option<string>) returns (r: Result<Role, Code>)
    requires db.Valid() && roleId in db.roles
    modifies db`roles
    ensures db.Valid()
    ensures r.Err? <==> Renames(old(db.roles[roleId]), name) && RoleNameTaken(old(db.roles), name.value)
    ensures r.Err? ==> r.error == RoleNameExists && db.roles == old(db.roles)
    ensures r.Ok? ==> var before := old(db.roles[roleId]);
                      && r.value.orgId == before.orgId
                      && r.value.name == (if Renames(before, name) then name.value else before.name)
                      && r.value.description == (if description.Some? then description else before.description)
                      && db.roles == old(db.roles)[roleId := r.value]
  {
    var role := db.roles[roleId];
    if Renames(role, name) {
      if RoleNameTaken(db.roles, name.value) {
        return Err(RoleNameExists);
      }
      role := role.(name := name.value);
    }
    if description.Some? {
      role := role.(description := description);
    }
    db.roles := db.roles[roleId := role];
    r := Ok(role);
  }

  method DeleteRole(db: Database, roleId: int)
    requires db.Valid() && roleId in db.roles
    modifies db`users, db`rolePerms, db`roles
    ensures db.Valid()
    ensures db.roles == old(db.roles) - {roleId}
    ensures db.rolePerms == set rp | rp in old(db.rolePerms) && rp.roleId != roleId
    ensures db.users.Keys == old(db.users).Keys
    ensures forall u | u in db.users :: db.users[u].roleId != Some(roleId)
    ensures forall u | u in db.users :: db.users[u] == if old(db.users)[u].roleId == Some(roleId)
                                                      then old(db.users)[u].(roleId := None)
                                                      else old(db.users)[u]
  {
    db.users := map u | u in db.users :: if db.users[u].roleId == Some(roleId)
                                         then db.users[u].(roleId := None)
                                         else db.users[u];
    db.rolePerms := set rp | rp in db.rolePerms && rp.roleId != roleId;
    db.roles := db.roles - {roleId};
  }

  /** The names the joined query of `get_effective_permissions` yields. */
  ghost function EffectivePermissions(db: Database, userId: int, orgId: int): set<string>
    reads db
  {
    set rp | && rp in db.rolePerms && rp.permId in db.perms && rp.roleId in db.roles
             && userId in db.users && db.users[userId].roleId == Some(rp.roleId)
             && db.roles[rp.roleId].orgId == orgId && rp.orgId == orgId
           :: db.perms[rp.permId].name
  }

  method GetEffectivePermissions(db: Database, userId: int, orgId: int) returns (names: seq<string>)
    ensures Strings.Ascending(names)
    ensures Strings.Elems(names) == EffectivePermissions(db, userId, orgId)
  {
    var rows := set rp | && rp in db.rolePerms && rp.permId in db.perms && rp.roleId in db.roles
                         && userId in db.users && db.users[userId].roleId == Some(rp.roleId)
                         && db.roles[rp.roleId].orgId == orgId && rp.orgId == orgId
                       :: db.perms[rp.permId].name;
    names := Strings.SortedList(rows);
  }

  method CreatePermission(db: Database, name: string, description: Option<string>) returns (r: Result<int, Code>)
    requires db.Valid()
    modifies db`perms, db`nextId
    ensures db.Valid()
    ensures r.Ok? <==> !PermissionNameTaken(old(db.perms), name)
    ensures r.Err? ==> r.error == PermissionNameExists && db.perms == old(db.perms) && db.nextId == old(db.nextId)
    ensures r.Ok? ==> r.value !in old(db.perms) && db.perms == old(db.perms)[r.value := Permission(name, description)]
  {
    if PermissionNameTaken(db.perms, name) {
      return Err(PermissionNameExists);
    }
    var id := db.nextId;
    db.perms := db.perms[id := Permission(name, description)];
    db.nextId := db.nextId + 1;
    r := Ok(id);
  }

  /** The row `assign_permission_to_role` adds: scoped to the role's own organization. */
  function Grant(roles: map<int, Role>, roleId: int, permId: int): RolePermission
    requires roleId in roles
  {
    RolePermission(roleId, permId, roles[roleId].orgId)
  }

  method AssignPermissionToRole(db: Database, roleId: int, permId: int) returns (r: Result<(), Code>)
    requires db.Valid() && roleId in db.roles && permId in db.perms
    modifies db`rolePerms
    ensures db.Valid()
    ensures r.Err? <==> Grant(db.roles, roleId, permId) in old(db.rolePerms)
    ensures r.Err? ==> r.error == RolePermissionExists
    ensures db.rolePerms == old(db.rolePerms) + {Grant(db.roles, roleId, permId)}
  {
    var row := Grant(db.roles, roleId, permId);
    if row in db.rolePerms {
      return Err(RolePermissionExists);
    }
    db.rolePerms := db.rolePerms + {row};
    r := Ok(());
  }

  method RevokePermissionFromRole(db: Database, roleId: int, permId: int) returns (r: Result<(), Code>)
    requires db.Valid() && roleId in db.roles
    modifies db`rolePerms
    ensures db.Valid()
    ensures r.Err? <==> Grant(db.roles, roleId, permId) !in old(db.rolePerms)
    ensures r.Err? ==> r.error == RolePermissionNotFound
    ensures db.rolePerms == old(db.rolePerms) - {Grant(db.roles, roleId, permId)}
  {
    var row := Grant(db.roles, roleId, permId);
    if row !in db.rolePerms {
      return Err(RolePermissionNotFound);
    }
    db.rolePerms := db.rolePerms - {row};
    r := Ok(());
  }

  method AssignRoleToUser(db: Database, userId: int, roleId: int) returns (r: Result<User, Code>)
    requires db.Valid() && userId in db.users && roleId in db.roles
    modifies db`users
    ensures db.Valid()
    ensures r.Err? <==> old(db.users[userId]).orgId != db.roles[roleId].orgId
    ensures r.Err? ==> r.error == RoleNotInOrganization && db.users == old(db.users)
    ensures r.Ok? ==> r.value == old(db.users[userId]).(roleId := Some(roleId))
                      && db.users == old(db.users)[userId := r.value]
  {
    var user := db.users[userId];
    if user.orgId != db.roles[roleId].orgId {
      return Err(RoleNotInOrganization);
    }
    user := user.(roleId := Some(roleId));
    db.users := db.users[userId := user];
    r := Ok(user);
  }

  method RevokeRoleFromUser(db: Database, userId: int, roleId: int) returns (r: Result<User, Code>)
    requires db.Valid() && userId in db.users
    modifies db`users
    ensures db.Valid()
    ensures r.Err? <==> old(db.users[userId]).roleId != Some(roleId)
    ensures r.Err? ==> r.error == RoleNotAssigned && db.users == old(db.users)
    ensures r.Ok? ==> r.value == old(db.users[userId]).(roleId := None)
                      && db.users == old(db.users)[userId := r.value]
  {
    var user := db.users[userId];
    if user.roleId != Some(roleId) {
      return Err(RoleNotAssigned);
    }
    user := user.(roleId := None);
    db.users := db.users[userId := user];
    r := Ok(user);
  }

  // ---------------------------------------------------------------------------
  // What the changes mean for the decision once the policies are reloaded.
  // ---------------------------------------------------------------------------

  /** After a grant, every holder of the role in the role's organization is allowed the permission. */
  lemma GrantAllowsHolders(rps: set<RolePermission>, roles: map<int, Role>, perms: map<int, Permission>,
                           users: map<int, User>, roleId: int, permId: int, userId: int)
    requires roleId in roles && permId in perms && userId in users
    requires users[userId].roleId == Some(roleId) && users[userId].orgId == roles[roleId].orgId
    ensures RbacEngine.Allowed(RbacEngine.PolicyFacts(rps + {Grant(roles, roleId, permId)}, roles, perms),
                               RbacEngine.GroupingFacts(users), userId, perms[permId].name,
                               roles[roleId].orgId, RbacEngine.AccessAction)
  {
    var row := Grant(roles, roleId, permId);
    RbacEngine.ReloadedDecision(rps + {row}, roles, perms, users, userId, perms[permId].name,
                                roles[roleId].orgId, RbacEngine.AccessAction);
    assert row in rps + {row};
  }

  /**
   * After a revoke, holders of the role lose that permission in the role's
   * organization: permission names are unique, so no other row of the role
   * can carry the same name there.
   */
  lemma RevokeDeniesHolders(rps: set<RolePermission>, roles: map<int, Role>, perms: map<int, Permission>,
                            users: map<int, User>, roleId: int, permId: int, userId: int)
    requires roleId in roles && permId in perms && userId in users
    requires forall a, b | a in perms && b in perms && perms[a].name == perms[b].name :: a == b
    requires users[userId].roleId == Some(roleId)
    ensures !RbacEngine.Allowed(RbacEngine.PolicyFacts(rps - {Grant(roles, roleId, permId)}, roles, perms),
                                RbacEngine.GroupingFacts(users), userId, perms[permId].name,
                                roles[roleId].orgId, RbacEngine.AccessAction)
  {
    var row := Grant(roles, roleId, permId);
    RbacEngine.ReloadedDecision(rps - {row}, roles, perms, users, userId, perms[permId].name,
                                roles[roleId].orgId, RbacEngine.AccessAction);
  }

  /** After `delete_role`, the reloaded model mentions the role nowhere. */
  lemma DeletedRoleGrantsNothing(rps: set<RolePermission>, roles: map<int, Role>, perms: map<int, Permission>,
                                 users: map<int, User>, roleId: int)
    requires forall rp | rp in rps :: rp.roleId != roleId
    requires forall u | u in users :: users[u].roleId != Some(roleId)
    ensures forall p | p in RbacEngine.PolicyFacts(rps, roles - {roleId}, perms) :: p.roleId != roleId
    ensures forall g | g in RbacEngine.GroupingFacts(users) :: g.roleId != roleId
  {
  }

  /**
   * `get_effective_permissions` and the RBAC model agree once the user's role
   * belongs to the user's organization, which `assign_role_to_user` and
   * `update_user` guarantee.
   */
  lemma EffectiveMatchesEngine(db: Database, userId: int, orgId: int)
    requires userId in db.users
    requires db.users[userId].roleId.Some? && db.users[userId].roleId.value in db.roles
             ==> db.roles[db.users[userId].roleId.value].orgId == db.users[userId].orgId
    ensures EffectivePermissions(db, userId, orgId)
            == RbacEngine.PermissionsInDomain(RbacEngine.PolicyFacts(db.rolePerms, db.roles, db.perms),
                                              RbacEngine.GroupingFacts(db.users), userId, orgId)
  {
    var P := RbacEngine.PolicyFacts(db.rolePerms, db.roles, db.perms);
    var G := RbacEngine.GroupingFacts(db.users);
    forall n | n in EffectivePermissions(db, userId, orgId)
      ensures n in RbacEngine.PermissionsInDomain(P, G, userId, orgId)
    {
      var rp :| && rp in db.rolePerms && rp.permId in db.perms && rp.roleId in db.roles
                && db.users[userId].roleId == Some(rp.roleId)
                && db.roles[rp.roleId].orgId == orgId && rp.orgId == orgId && db.perms[rp.permId].name == n;
      var g := RbacEngine.Grouping(userId, rp.roleId, db.users[userId].orgId);
      assert g in G;
      assert rp.roleId in RbacEngine.RolesInDomain(G, userId, orgId);
      assert RbacEngine.PolicyOf(rp, db.perms) in P;
    }
    forall n | n in RbacEngine.PermissionsInDomain(P, G, userId, orgId)
      ensures n in EffectivePermissions(db, userId, orgId)
    {
      var p :| p in P && p.orgId == orgId && p.roleId in RbacEngine.RolesInDomain(G, userId, orgId) && p.permission == n;
      var rp :| rp in db.rolePerms && RbacEngine.Joinable(rp, db.roles, db.perms) && RbacEngine.PolicyOf(rp, db.perms) == p;
      var g :| g in G && g.userId == userId && g.orgId == orgId && g.roleId == p.roleId;
    }
  }
}

=== FILE: rbac_engine.dfy ===
/**
 * The in-memory RBAC model (`rbac/service.py`): a set of policies
 * (role, permission, organization, action) and a set of groupings
 * (user, role, organization) loaded from the relational tables, plus the
 * flag that says whether they are current.
 *
 * The enforcer's matcher lives in a configuration file that is not part of
 * this model. `Allowed` is the two-level lookup that `get_user_permissions`
 * performs: the user holds a role in the organization, and that role has a
 * policy for the permission, organization and action. Ids are kept as
 * integers, while the service passes user and role ids through `str`
 * (`Strings.IntToStringInjective` shows `str` keeps ids apart) into one
 * namespace of subjects: a user id equal to a role id would chain roles
 * if the matcher's `g` relation were transitive, which this model does not
 * consider (see transitive role inheritance in the README's left-out list).
 */
module RbacEngine {
  import opened Wrappers
  import opened Tables
  import Strings

  datatype Policy = Policy(roleId: int, permission: string, orgId: int, action: string)
  datatype Grouping = Grouping(userId: int, roleId: int, orgId: int)

  const AccessAction: string := "access"

  /** Whether a role-permission row survives the inner joins with `Role` and `Permission`. */
  predicate Joinable(rp: RolePermission, roles: map<int, Role>, perms: map<int, Permission>)
  {
    rp.roleId in roles && rp.permId in perms
  }

  function PolicyOf(rp: RolePermission, perms: map<int, Permission>): Policy
    requires rp.permId in perms
  {
    Policy(rp.roleId, perms[rp.permId].name, rp.orgId, AccessAction)
  }

  /** The policies a reload derives from the tables: one per joinable role-permission row. */
  ghost function PolicyFacts(rps: set<RolePermission>, roles: map<int, Role>, perms: map<int, Permission>): (r: set<Policy>)
    ensures forall p | p in r :: p.action == AccessAction
  {
    set rp | rp in rps && Joinable(rp, roles, perms) :: PolicyOf(rp, perms)
  }

  /** The groupings a reload derives from the tables: one per user that holds a role. */
  ghost function GroupingFacts(users: map<int, User>): (r: set<Grouping>)
    ensures forall g | g in r :: g.userId in users && users[g.userId].roleId == Some(g.roleId)
                                 && users[g.userId].orgId == g.orgId
  {
    set u | u in users && users[u].roleId.Some? :: Grouping(u, users[u].roleId.value, users[u].orgId)
  }

  /** The two-level decision: a role of the user in `org` carries the policy. */
  predicate Allowed(policies: set<Policy>, groupings: set<Grouping>, user: int, permission: string, org: int, action: string)
  {
    exists g | g in groupings :: g.userId == user && g.orgId == org
                                 && Policy(g.roleId, permission, org, action) in policies
  }

  /** The roles casbin reports for the user in the organization. */
  function RolesInDomain(groupings: set<Grouping>, user: int, org: int): set<int>
  {
    set g | g in groupings && g.userId == user && g.orgId == org :: g.roleId
  }

  /** What `get_user_permissions` collects: every permission of a policy of one of those roles in that organization. */
  ghost function PermissionsInDomain(policies: set<Policy>, groupings: set<Grouping>, user: int, org: int): set<string>
  {
    set p | p in policies && p.orgId == org && p.roleId in RolesInDomain(groupings, user, org) :: p.permission
  }

  class RbacService {
    var policies: set<Policy>
    var groupings: set<Grouping>
    var loaded: bool

    /** The sets are exactly what a reload from `db` produces. */
    ghost predicate Current(db: Database)
      reads this, db
    {
      policies == PolicyFacts(db.rolePerms, db.roles, db.perms) && groupings == GroupingFacts(db.users)
    }

    constructor ()
      ensures policies == {} && groupings == {} && !loaded
    {
      policies, groupings, loaded := {}, {}, false;
    }

    /** Clears both sets, loads them from the tables and marks them current. */
    method ReloadPolicies(db: Database)
      modifies this
      ensures Current(db) && loaded
    {
      policies, groupings := {}, {};
      LoadRolePermissions(db);
      LoadUserRoles(db);
      loaded := true;
    }

    /** Adds one policy per joinable role-permission row. */
    method LoadRolePermissions(db: Database)
      modifies this`policies
      ensures policies == old(policies) + PolicyFacts(db.rolePerms, db.roles, db.perms)
    {
      var rest := db.rolePerms;
      while rest != {}
        invariant rest <= db.rolePerms
        invariant policies == old(policies) + PolicyFacts(db.rolePerms - rest, db.roles, db.perms)
        decreases rest
      {
        var rp :| rp in rest;
        if Joinable(rp, db.roles, db.perms) {
          policies := policies + {PolicyOf(rp, db.perms)};
        }
        PolicyFactsStep(db.rolePerms - rest, rp, db.roles, db.perms);
        assert (db.rolePerms - rest) + {rp} == db.rolePerms - (rest - {rp});
        rest := rest - {rp};
      }
    }

    /** Adds one grouping per user that holds a role. */
    method LoadUserRoles(db: Database)
      modifies this`groupings
      ensures groupings == old(groupings) + GroupingFacts(db.users)
    {
      var rest := db.users.Keys;
      while rest != {}
        invariant rest <= db.users.Keys
        invariant groupings == old(groupings) + GroupingFacts(db.users - rest)
        decreases rest
      {
        Strings.HasId(rest);
        var u :| u in rest;
        var user := db.users[u];
        if user.roleId.Some? {
          groupings := groupings + {Grouping(u, user.roleId.value, user.orgId)};
        }
        GroupingFactsStep(db.users, rest, u);
        rest := rest - {u};
      }
      assert db.users - rest == db.users;
    }

    /** Reloads exactly when the sets are not current. */
    method EnsurePoliciesLoaded(db: Database)
      modifies this
      ensures loaded
      ensures old(loaded) ==> policies == old(policies) && groupings == old(groupings)
      ensures !old(loaded) ==> Current(db)
    {
      if loaded {
        return;
      }
      ReloadPolicies(db);
    }

    method Enforce(db: Database, user: int, permission: string, org: int, action: string) returns (allowed: bool)
      modifies this
      ensures loaded
      ensures old(loaded) ==> policies == old(policies) && groupings == old(groupings)
      ensures !old(loaded) ==> Current(db)
      ensures allowed == Allowed(policies, groupings, user, permission, org, action)
    {
      EnsurePoliciesLoaded(db);
      allowed := exists g | g in groupings :: g.userId == user && g.orgId == org
                                              && Policy(g.roleId, permission, org, action) in policies;
    }

    /** The user's permissions in the organization, sorted. */
    method GetUserPermissions(db: Database, user: int, org: int) returns (names: seq<string>)
      modifies this
      ensures loaded
      ensures old(loaded) ==> policies == old(policies) && groupings == old(groupings)
      ensures !old(loaded) ==> Current(db)
      ensures Strings.Ascending(names)
      ensures Strings.Elems(names) == PermissionsInDomain(policies, groupings, user, org)
    {
      EnsurePoliciesLoaded(db);
      ghost var P, G := policies, groupings;
      var roles := RolesInDomain(groupings, user, org);
      var found: set<string> := {};
      var pending := roles;
      while pending != {}
        invariant pending <= roles
        invariant policies == P && groupings == G && loaded
        invariant found == set p | p in policies && p.orgId == org && p.roleId in roles - pending :: p.permission
        decreases pending
      {
        Strings.HasId(pending);
        var role :| role in pending;
        var rolePolicies := set p | p in policies && p.roleId == role && p.orgId == org;
        var before := found;
        var todo := rolePolicies;
        while todo != {}
          invariant todo <= rolePolicies
          invariant policies == P && groupings == G && loaded
          invariant found == before + set p | p in rolePolicies - todo :: p.permission
          decreases todo
        {
          var p :| p in todo;
          found := found + {p.permission};
          todo := todo - {p};
        }
        pending := pending - {role};
      }
      assert found == PermissionsInDomain(policies, groupings, user, org);
      names := Strings.SortedList(found);
    }

    /** Marks the sets stale; they are left as they are until the next reload. */
    method InvalidateCache()
      modifies this`loaded
      ensures !loaded
    {
      loaded := false;
    }
  }

  lemma PolicyFactsStep(done: set<RolePermission>, rp: RolePermission, roles: map<int, Role>, perms: map<int, Permission>)
    ensures PolicyFacts(done + {rp}, roles, perms)
            == PolicyFacts(done, roles, perms) + (if Joinable(rp, roles, perms) then {PolicyOf(rp, perms)} else {})
  {
  }

  lemma GroupingFactsStep(users: map<int, User>, rest: set<int>, u: int)
    requires u in rest && rest <= users.Keys
    ensures GroupingFacts(users - (rest - {u}))
            == GroupingFacts(users - rest)
               + (if users[u].roleId.Some? then {Grouping(u, users[u].roleId.value, users[u].orgId)} else {})
  {
    var small, big := users - rest, users - (rest - {u});
    assert big.Keys == small.Keys + {u};
    forall g | g in GroupingFacts(big)
      ensures g in GroupingFacts(small) || (users[u].roleId.Some? && g == Grouping(u, users[u].roleId.value, users[u].orgId))
    {
      var v :| v in big && big[v].roleId.Some? && g == Grouping(v, big[v].roleId.value, big[v].orgId);
      if v != u {
        assert v in small;
      }
    }
  }

  // ---------------------------------------------------------------------------
  // Properties of the decision
  // ---------------------------------------------------------------------------

  /**
   * After a reload, a request is allowed exactly when the user holds a role in
   * that organization and a role-permission row grants the named permission to
   * that role, in that organization, under the action "access".
   */
  lemma ReloadedDecision(rps: set<RolePermission>, roles: map<int, Role>, perms: map<int, Permission>,
                         users: map<int, User>, user: int, permission: string, org: int, action: string)
    ensures Allowed(PolicyFacts(rps, roles, perms), GroupingFacts(users), user, permission, org, action)
            <==> && action == AccessAction
                 && user in users && users[user].orgId == org && users[user].roleId.Some?
                 && exists rp | rp in rps :: && rp.roleId == users[user].roleId.value && rp.orgId == org
                                             && Joinable(rp, roles, perms) && perms[rp.permId].name == permission
  {
    var P, G := PolicyFacts(rps, roles, perms), GroupingFacts(users);
    if Allowed(P, G, user, permission, org, action) {
      var g :| g in G && g.userId == user && g.orgId == org && Policy(g.roleId, permission, org, action) in P;
      var rp :| rp in rps && Joinable(rp, roles, perms) && PolicyOf(rp, perms) == Policy(g.roleId, permission, org, action);
    }
    if && action == AccessAction && user in users && users[user].orgId == org && users[user].roleId.Some?
       && exists rp | rp in rps :: && rp.roleId == users[user].roleId.value && rp.orgId == org
                                   && Joinable(rp, roles, perms) && perms[rp.permId].name == permission
    {
      var rp :| && rp in rps && rp.roleId == users[user].roleId.value && rp.orgId == org
                && Joinable(rp, roles, perms) && perms[rp.permId].name == permission;
      var g := Grouping(user, users[user].roleId.value, org);
      assert g in G;
      assert PolicyOf(rp, perms) in P;
    }
  }

  /** Tenant isolation: a policy for organization A decides nothing in another organization B. */
  lemma GrantElsewhereIrrelevant(policies: set<Policy>, groupings: set<Grouping>, grant: Policy,
                                 user: int, permission: string, org: int, action: string)
    requires grant.orgId != org
    ensures Allowed(policies + {grant}, groupings, user, permission, org, action)
            == Allowed(policies, groupings, user, permission, org, action)
  {
  }

  /** Tenant isolation for role assignments: a grouping in another organization decides nothing here. */
  lemma GroupingElsewhereIrrelevant(policies: set<Policy>, groupings: set<Grouping>, assignment: Grouping,
                                    user: int, permission: string, org: int, action: string)
    requires assignment.orgId != org
    ensures Allowed(policies, groupings + {assignment}, user, permission, org, action)
            == Allowed(policies, groupings, user, permission, org, action)
  {
  }

  /** A user with no grouping in the organization is denied everything there. */
  lemma NoGroupingDenied(policies: set<Policy>, groupings: set<Grouping>, user: int, permission: string, org: int, action: string)
    requires forall g | g in groupings :: g.userId != user || g.orgId != org
    ensures !Allowed(policies, groupings, user, permission, org, action)
  {
  }

  /**
   * The two queries agree: when every policy carries action "access" (as after
   * a reload), a permission is listed by `get_user_permissions` exactly when
   * `enforce` allows it with the default action.
   */
  lemma {:induction false} ListedIffAllowed(policies: set<Policy>, groupings: set<Grouping>, user: int, permission: string, org: int)
    requires forall p | p in policies :: p.action == AccessAction
    ensures permission in PermissionsInDomain(policies, groupings, user, org)
            <==> Allowed(policies, groupings, user, permission, org, AccessAction)
  {
    if permission in PermissionsInDomain(policies, groupings, user, org) {
      var p :| p in policies && p.orgId == org && p.roleId in RolesInDomain(groupings, user, org) && p.permission == permission;
      var g :| g in groupings && g.userId == user && g.orgId == org && g.roleId == p.roleId;
      assert p == Policy(g.roleId, permission, org, AccessAction);
    }
    if Allowed(policies, groupings, user, permission, org, AccessAction) {
      var g :| g in groupings && g.userId == user && g.orgId == org
               && Policy(g.roleId, permission, org, AccessAction) in policies;
      assert g.roleId in RolesInDomain(groupings, user, org);
    }
  }
}

=== FILE: rbac_views.dfy ===
/**
 * The RBAC administration endpoints (`web/api/v1/rbac/views.py`). Each
 * handler first checks that the role or user it names belongs to the
 * caller's organization, answering 404 otherwise; then calls the
 * administration service, turning its errors into HTTP answers; and only
 * after a successful change invalidates the RBAC engine's cache.
 *
 * A refused request leaves the store as it was: the service changes
 * nothing when it fails, and the request's database session is rolled back.
 */
module RbacViews {
  import opened Wrappers
  import opened Tables
  import opened Errors
  import Strings
  import RbacEngine
  import RbacAdmin
  import Users
  import Principal

  /**
   * How the handlers answer a service error. Each handler catches only the
   * code its own service call can raise; any other error escapes and is a 500.
   */
  function AdminFailure(c: Code): (e: HttpError)
    ensures e.code == c
    ensures e.status == 409 <==> c in {RoleNameExists, PermissionNameExists, RolePermissionExists, RoleNotAssigned}
    ensures e.status == 404 <==> c == RolePermissionNotFound
    ensures e.status == 400 <==> c == RoleNotInOrganization
    ensures e.status in {400, 404, 409, 500}
  {
    if c in {RoleNameExists, PermissionNameExists, RolePermissionExists, RoleNotAssigned} then HttpError(409, c)
    else if c == RolePermissionNotFound then HttpError(404, c)
    else if c == RoleNotInOrganization then HttpError(400, c)
    else HttpError(500, c)
  }

  datatype RoleResponse = RoleResponse(roleId: int, orgId: int, name: string, description: Option<string>,
                                       permissions: seq<int>)

  /** The permission ids linked to a role within one organization. */
  function LinkedPermissionIds(rolePerms: set<RolePermission>, roleId: int, orgId: int): set<int>
  {
    set rp | rp in rolePerms && rp.roleId == roleId && rp.orgId == orgId :: rp.permId
  }

  /** POST /roles: a new role in the caller's organization, answered with no permissions. */
  method CreateRole(db: Database, rbac: RbacEngine.RbacService, principal: Principal.AuthenticatedPrincipal,
                    name: string, description: Option<string>)
    returns (resp: Response<RoleResponse>)
    requires db.Valid()
    modifies db`roles, db`nextId, rbac`loaded
    ensures db.Valid()
    ensures resp.Failure? <==> RoleNameTaken(old(db.roles), name) || principal.orgId !in db.orgs
    ensures resp.Failure? ==> resp.error == AdminFailure(resp.error.code)
                              && unchanged(db`roles, db`nextId) && unchanged(rbac`loaded)
    ensures RoleNameTaken(old(db.roles), name) ==> resp == Failure(HttpError(409, RoleNameExists))
    ensures resp.Success? ==>
      && !rbac.loaded
      && resp.body.roleId !in old(db.roles)
      && resp.body == RoleResponse(resp.body.roleId, principal.orgId, name, description, [])
      && db.roles == old(db.roles)[resp.body.roleId := Role(principal.orgId, name, description)]
  {
    var r := RbacAdmin.CreateRole(db, principal.orgId, name, description);
    if r.Err? {
      return Failure(AdminFailure(r.error));
    }
    rbac.InvalidateCache();
    return Success(RoleResponse(r.value, principal.orgId, name, description, []));
  }

  /**
   * PATCH /roles/{id}: the renamed or re-described role, with the ids of
   * its permissions in the caller's organization, ascending.
   */
  method UpdateRole(db: Database, rbac: RbacEngine.RbacService, principal: Principal.AuthenticatedPrincipal,
                    roleId: int, name: Option<string>, description: Option<string>)
    returns (resp: Response<RoleResponse>)
    requires db.Valid()
    modifies db`roles, rbac`loaded
    ensures db.Valid()
    ensures !Users.RoleInOrganization(old(db.roles), principal.orgId, roleId) ==>
      resp == Failure(HttpError(404, RoleNotFound))
    ensures resp.Failure? ==> unchanged(db`roles) && unchanged(rbac`loaded)
    ensures Users.RoleInOrganization(old(db.roles), principal.orgId, roleId) ==>
      (resp.Failure? <==> RbacAdmin.Renames(old(db.roles[roleId]), name) && RoleNameTaken(old(db.roles), name.value))
    ensures resp.Failure? && Users.RoleInOrganization(old(db.roles), principal.orgId, roleId) ==>
      resp.error == HttpError(409, RoleNameExists)
    ensures resp.Success? ==>
      && !rbac.loaded
      && roleId in db.roles && resp.body.roleId == roleId
      && resp.body.orgId == principal.orgId
      && resp.body.name == db.roles[roleId].name && resp.body.description == db.roles[roleId].description
      && Strings.Increasing(resp.body.permissions)
      && Strings.Elems(resp.body.permissions) == LinkedPermissionIds(db.rolePerms, roleId, principal.orgId)
    ensures resp.Success? ==>
      var before := old(db.roles[roleId]);
      db.roles == old(db.roles)[roleId := before.(
        name := if RbacAdmin.Renames(before, name) then name.value else before.name,
        description := if description.Some? then description else before.description)]
  {
    if roleId !in db.roles || db.roles[roleId].orgId != principal.orgId {
      return Failure(HttpError(404, RoleNotFound));
    }
    var r := RbacAdmin.UpdateRole(db, roleId, name, description);
    if r.Err? {
      return Failure(AdminFailure(r.error));
    }
    var ids := Strings.SortedIds(LinkedPermissionIds(db.rolePerms, roleId, principal.orgId));
    rbac.InvalidateCache();
    var role := r.value;
    return Success(RoleResponse(roleId, role.orgId, role.name, role.description, ids));
  }

  /** DELETE /roles/{id}: the role, its permission links and its assignments go. */
  method DeleteRole(db: Database, rbac: RbacEngine.RbacService, principal: Principal.AuthenticatedPrincipal, roleId: int)
    returns (resp: Response<()>)
    requires db.Valid()
    modifies db`users, db`rolePerms, db`roles, rbac`loaded
    ensures db.Valid()
    ensures resp.Failure? <==> !Users.RoleInOrganization(old(db.roles), principal.orgId, roleId)
    ensures resp.Failure? ==> resp.error == HttpError(404, RoleNotFound)
                              && unchanged(db`users, db`rolePerms, db`roles) && unchanged(rbac`loaded)
    ensures resp.Success? ==>
      && !rbac.loaded
      && db.roles == old(db.roles) - {roleId}
      && db.rolePerms == (set rp | rp in old(db.rolePerms) && rp.roleId != roleId)
      && db.users.Keys == old(db.users).Keys
      && forall u | u in db.users :: db.users[u].roleId != Some(roleId)
  {
    if roleId !in db.roles || db.roles[roleId].orgId != principal.orgId {
      return Failure(HttpError(404, RoleNotFound));
    }
    RbacAdmin.DeleteRole(db, roleId);
    rbac.InvalidateCache();
    return Success(());
  }

  /** POST /permissions: permissions are global, so there is no organization guard. */
  method CreatePermission(db: Database, rbac: RbacEngine.RbacService, name: string, description: Option<string>)
    returns (resp: Response<int>)
    requires db.Valid()
    modifies db`perms, db`nextId, rbac`loaded
    ensures db.Valid()
    ensures resp.Failure? <==> PermissionNameTaken(old(db.perms), name)
    ensures resp.Failure? ==> resp.error == HttpError(409, PermissionNameExists)
                              && unchanged(db`perms, db`nextId) && unchanged(rbac`loaded)
    ensures resp.Success? ==> !rbac.loaded && db.perms == old(db.perms)[resp.body := Permission(name, description)]
  {
    var r := RbacAdmin.CreatePermission(db, name, description);
    if r.Err? {
      return Failure(AdminFailure(r.error));
    }
    rbac.InvalidateCache();
    return Success(r.value);
  }

  /** POST /roles/{id}/permissions: the role guard, then the permission lookup, then the service. */
  method AssignPermissionToRole(db: Database, rbac: RbacEngine.RbacService, principal: Principal.AuthenticatedPrincipal,
                                roleId: int, permId: int)
    returns (resp: Response<()>)
    requires db.Valid()
    modifies db`rolePerms, rbac`loaded
    ensures db.Valid()
    ensures !Users.RoleInOrganization(db.roles, principal.orgId, roleId) ==> resp == Failure(HttpError(404, RoleNotFound))
    ensures Users.RoleInOrganization(db.roles, principal.orgId, roleId) && permId !in db.perms ==>
      resp == Failure(HttpError(404, PermissionNotFound))
    ensures Users.RoleInOrganization(db.roles, principal.orgId, roleId) && permId in db.perms ==>
      (resp.Failure? <==> RolePermission(roleId, permId, principal.orgId) in old(db.rolePerms))
    ensures Users.RoleInOrganization(db.roles, principal.orgId, roleId) && permId in db.perms
            && RolePermission(roleId, permId, principal.orgId) in old(db.rolePerms) ==>
      resp == Failure(HttpError(409, RolePermissionExists))
    ensures resp.Failure? ==> resp.error.status in {404, 409} && unchanged(db`rolePerms) && unchanged(rbac`loaded)
    ensures resp.Success? ==>
      && !rbac.loaded
      && RolePermission(roleId, permId, principal.orgId) !in old(db.rolePerms)
      && db.rolePerms == old(db.rolePerms) + {RolePermission(roleId, permId, principal.orgId)}
  {
    if roleId !in db.roles || db.roles[roleId].orgId != principal.orgId {
      return Failure(HttpError(404, RoleNotFound));
    }
    if permId !in db.perms {
      return Failure(HttpError(404, PermissionNotFound));
    }
    var r := RbacAdmin.AssignPermissionToRole(db, roleId, permId);
    if r.Err? {
      assert db.rolePerms == old(db.rolePerms);
      return Failure(AdminFailure(r.error));
    }
    rbac.InvalidateCache();
    return Success(());
  }

  /** DELETE /roles/{id}/permissions/{perm}: the link in the caller's organization goes. */
  method RevokePermissionFromRole(db: Database, rbac: RbacEngine.RbacService, principal: Principal.AuthenticatedPrincipal,
                                  roleId: int, permId: int)
    returns (resp: Response<()>)
    requires db.Valid()
    modifies db`rolePerms, rbac`loaded
    ensures db.Valid()
    ensures !Users.RoleInOrganization(db.roles, principal.orgId, roleId) ==> resp == Failure(HttpError(404, RoleNotFound))
    ensures Users.RoleInOrganization(db.roles, principal.orgId, roleId) ==>
      (resp.Failure? <==> RolePermission(roleId, permId, principal.orgId) !in old(db.rolePerms))
    ensures resp.Failure? ==> resp.error.status == 404 && unchanged(db`rolePerms) && unchanged(rbac`loaded)
    ensures resp.Success? ==>
      && !rbac.loaded
      && db.rolePerms == old(db.rolePerms) - {RolePermission(roleId, permId, principal.orgId)}
  {
    if roleId !in db.roles || db.roles[roleId].orgId != principal.orgId {
      return Failure(HttpError(404, RoleNotFound));
    }
    var r := RbacAdmin.RevokePermissionFromRole(db, roleId, permId);
    if r.Err? {
      assert db.rolePerms == old(db.rolePerms);
      return Failure(AdminFailure(r.error));
    }
    rbac.InvalidateCache();
    return Success(());
  }

  /**
   * POST /users/{id}/roles: the user is checked before the role. Both
   * guards use the caller's organization, so the service's own
   * organization check cannot fail after them.
   */
  method AssignRoleToUser(db: Database, rbac: RbacEngine.RbacService, principal: Principal.AuthenticatedPrincipal,
                          userId: int, roleId: int)
    returns (resp: Response<()>)
    requires db.Valid()
    modifies db`users, rbac`loaded
    ensures db.Valid()
    ensures !UserInOrganization(old(db.users), principal.orgId, userId) ==>
      resp == Failure(HttpError(404, UserNotFound))
    ensures UserInOrganization(old(db.users), principal.orgId, userId) && !Users.RoleInOrganization(db.roles, principal.orgId, roleId) ==>
      resp == Failure(HttpError(404, RoleNotFound))
    ensures resp.Failure? ==> unchanged(db`users) && unchanged(rbac`loaded)
    ensures resp.Success? <==>
      UserInOrganization(old(db.users), principal.orgId, userId) && Users.RoleInOrganization(db.roles, principal.orgId, roleId)
    ensures resp.Success? ==>
      && !rbac.loaded
      && db.users == old(db.users)[userId := old(db.users[userId]).(roleId := Some(roleId))]
  {
    if userId !in db.users || db.users[userId].orgId != principal.orgId {
      return Failure(HttpError(404, UserNotFound));
    }
    if roleId !in db.roles || db.roles[roleId].orgId != principal.orgId {
      return Failure(HttpError(404, RoleNotFound));
    }
    var r := RbacAdmin.AssignRoleToUser(db, userId, roleId);
    if r.Err? {
      // the guards above already compared both organizations
      assert false;
    }
    rbac.InvalidateCache();
    return Success(());
  }

  /** DELETE /users/{id}/roles/{role}: only the user is guarded; the service checks the assignment. */
  method RevokeRoleFromUser(db: Database, rbac: RbacEngine.RbacService, principal: Principal.AuthenticatedPrincipal,
                            userId: int, roleId: int)
    returns (resp: Response<()>)
    requires db.Valid()
    modifies db`users, rbac`loaded
    ensures db.Valid()
    ensures !UserInOrganization(old(db.users), principal.orgId, userId) ==>
      resp == Failure(HttpError(404, UserNotFound))
    ensures UserInOrganization(old(db.users), principal.orgId, userId) ==>
      (resp.Failure? <==> old(db.users[userId]).roleId != Some(roleId))
    ensures resp.Failure? ==> resp.error.status in {404, 409} && unchanged(db`users) && unchanged(rbac`loaded)
    ensures resp.Success? ==>
      && !rbac.loaded
      && db.users == old(db.users)[userId := old(db.users[userId]).(roleId := None)]
  {
    if userId !in db.users || db.users[userId].orgId != principal.orgId {
      return Failure(HttpError(404, UserNotFound));
    }
    var r := RbacAdmin.RevokeRoleFromUser(db, userId, roleId);
    if r.Err? {
      return Failure(AdminFailure(r.error));
    }
    rbac.InvalidateCache();
    return Success(());
  }

  /** GET /effective/{id}: the user's permission names in the caller's organization, sorted. */
  method GetEffectivePermissions(db: Database, principal: Principal.AuthenticatedPrincipal, userId: int)
    returns (resp: Response<seq<string>>)
    ensures resp.Failure? <==> !UserInOrganization(db.users, principal.orgId, userId)
    ensures resp.Failure? ==> resp.error == HttpError(404, UserNotFound)
    ensures resp.Success? ==>
      && Strings.Ascending(resp.body)
      && Strings.Elems(resp.body) == RbacAdmin.EffectivePermissions(db, userId, principal.orgId)
  {
    if userId !in db.users || db.users[userId].orgId != principal.orgId {
      return Failure(HttpError(404, UserNotFound));
    }
    var names := RbacAdmin.GetEffectivePermissions(db, userId, db.users[userId].orgId);
    return Success(names);
  }
}

=== FILE: secret_gates.dfy ===
/**
 * The shared-secret gates in front of the metrics ingestion, admin and
 * internal endpoints (`web/api/metrics/views.py`, `web/api/admin/views.py`,
 * `web/api/internal/views.py`), and the decisions of the handlers behind
 * them. The settings object is a parameter.
 */
module SecretGates {
  import opened Wrappers
  import opened Errors
  import Strings
  import RbacEngine

  /** The settings these gates read; an unset secret is `None`. */
  datatype Settings = Settings(
    metricsIngestSecret: Option<string>,
    internalApiSecret: Option<string>,
    environment: string)

  /** A secret that is set and not empty, as Python's truthiness sees it. */
  predicate IsSet(secret: Option<string>)
  {
    secret.Some? && secret.value != ""
  }

  /** `[secret for secret in [...] if secret]`. */
  function Configured(candidates: seq<Option<string>>): (r: seq<string>)
    ensures forall s :: s in r <==> exists i | 0 <= i < |candidates| :: candidates[i] == Some(s) && s != ""
    ensures |r| <= |candidates|
  {
    if candidates == [] then []
    else
      var rest := Configured(candidates[1..]);
      assert forall i | 1 <= i < |candidates| :: candidates[i] == candidates[1..][i - 1];
      if IsSet(candidates[0]) then [candidates[0].value] + rest else rest
  }

  /** The environments in which an unconfigured gate lets requests through. */
  predicate OpenEnvironment(environment: string)
  {
    environment == "dev" || environment == "pytest"
  }

  /**
   * The loop shared by the gates: with secrets configured, pass iff the
   * header is non-empty and equal to one of them, else 401 `invalid`; with
   * none, pass only in dev or pytest, else 503 `notConfigured`.
   * `secrets.compare_digest` is plain equality here.
   */
  method CheckSecret(configured: seq<string>, header: Option<string>, environment: string,
                     invalid: Code, notConfigured: Code)
    returns (e: Option<HttpError>)
    ensures configured != [] ==>
      (e == None <==> header.Some? && header.value != "" && header.value in configured)
    ensures configured != [] && e.Some? ==> e.value == HttpError(401, invalid)
    ensures configured == [] ==> (e == None <==> OpenEnvironment(environment))
    ensures configured == [] && e.Some? ==> e.value == HttpError(503, notConfigured)
  {
    if configured != [] {
      var i := 0;
      while i < |configured|
        invariant 0 <= i <= |configured|
        invariant !(header.Some? && header.value != "" && header.value in configured[..i])
      {
        if header.Some? && header.value != "" && header.value == configured[i] {
          return None;
        }
        i := i + 1;
      }
      assert configured[..i] == configured;
      return Some(HttpError(401, invalid));
    }
    if !OpenEnvironment(environment) {
      return Some(HttpError(503, notConfigured));
    }
    return None;
  }

  /** `_validate_ingest_secret` of the metrics endpoints: either of the two secrets opens it. */
  method ValidateIngestSecret(s: Settings, header: Option<string>) returns (e: Option<HttpError>)
    ensures IsSet(s.metricsIngestSecret) || IsSet(s.internalApiSecret) ==>
      && (e == None <==> header.Some? && header.value != ""
                         && (Some(header.value) == s.metricsIngestSecret || Some(header.value) == s.internalApiSecret))
      && (e.Some? ==> e.value == HttpError(401, InvalidMetricsSecret))
    ensures !IsSet(s.metricsIngestSecret) && !IsSet(s.internalApiSecret) ==>
      && (e == None <==> OpenEnvironment(s.environment))
      && (e.Some? ==> e.value == HttpError(503, MetricsIngestNotConfigured))
  {
    var candidates := [s.metricsIngestSecret, s.internalApiSecret];
    var configured := Configured(candidates);
    if IsSet(s.metricsIngestSecret) {
      assert candidates[0] == Some(s.metricsIngestSecret.value);
    }
    if IsSet(s.internalApiSecret) {
      assert candidates[1] == Some(s.internalApiSecret.value);
    }
    if configured != [] {
      assert configured[0] in configured;
    }
    e := CheckSecret(configured, header, s.environment, InvalidMetricsSecret, MetricsIngestNotConfigured);
  }

  /** When the internal gate lets a request through. */
  predicate InternalGateOpen(s: Settings, header: Option<string>)
  {
    if IsSet(s.internalApiSecret) then header == s.internalApiSecret else OpenEnvironment(s.environment)
  }

  /**
   * `_validate_internal_secret`, which the admin and the internal views
   * both define with the same body: only `internal_api_secret` opens it.
   */
  method ValidateInternalSecret(s: Settings, header: Option<string>) returns (e: Option<HttpError>)
    ensures e == None <==> InternalGateOpen(s, header)
    ensures e.Some? ==> e.value == (if IsSet(s.internalApiSecret) then HttpError(401, InvalidInternalSecret)
                                    else HttpError(503, InternalAccessNotConfigured))
  {
    var configured := Configured([s.internalApiSecret]);
    if IsSet(s.internalApiSecret) {
      assert configured == [s.internalApiSecret.value];
    } else {
      assert configured == [];
    }
    e := CheckSecret(configured, header, s.environment, InvalidInternalSecret, InternalAccessNotConfigured);
  }

  // ---------------------------------------------------------------------------
  // Admin handlers
  // ---------------------------------------------------------------------------

  /** The reseed endpoint refuses the production environments, in any letter case. */
  predicate ProductionEnvironment(environment: string)
  {
    var lowered := Strings.AsciiLower(environment);
    lowered == "prod" || lowered == "production"
  }

  /** `reseed_defaults`: the gate, then the production block, then the service's count. */
  method ReseedDefaults(s: Settings, header: Option<string>, seeded: int) returns (resp: Response<int>)
    ensures resp.Success? <==> InternalGateOpen(s, header) && !ProductionEnvironment(s.environment)
    ensures InternalGateOpen(s, header) && ProductionEnvironment(s.environment) ==>
      resp == Failure(HttpError(403, OperationNotAllowedInProd))
    ensures resp.Success? ==> resp.body == seeded
    ensures resp.Failure? ==> resp.error.status in {401, 403, 503}
    ensures !InternalGateOpen(s, header) ==>
      resp == Failure(if IsSet(s.internalApiSecret) then HttpError(401, InvalidInternalSecret)
                      else HttpError(503, InternalAccessNotConfigured))
  {
    var gate := ValidateInternalSecret(s, header);
    if gate.Some? {
      return Failure(gate.value);
    }
    if ProductionEnvironment(s.environment) {
      return Failure(HttpError(403, OperationNotAllowedInProd));
    }
    return Success(seeded);
  }

  /** An open environment is never a production one, so without a secret the block never fires after the gate. */
  lemma OpenIsNotProduction(environment: string)
    requires OpenEnvironment(environment)
    ensures !ProductionEnvironment(environment)
  {
    if environment == "dev" {
      assert Strings.AsciiLower(environment) == "dev";
    } else {
      assert Strings.AsciiLower(environment) == "pytest";
    }
  }

  /**
   * The overview and snapshot handlers: `organization_not_found` is a 404;
   * any other `ValueError` propagates and is a 500.
   */
  function AdminLookupFailure(c: Code): (e: HttpError)
    ensures e.code == c
    ensures e.status == 404 <==> c == OrganizationNotFound
    ensures e.status == 500 <==> c != OrganizationNotFound
  {
    if c == OrganizationNotFound then HttpError(404, c) else HttpError(500, c)
  }

  /** The overview and snapshot handlers around a service lookup that answered `lookup`. */
  method AdminLookup<T>(s: Settings, header: Option<string>, lookup: Result<T, Code>) returns (resp: Response<T>)
    ensures resp.Success? <==> InternalGateOpen(s, header)
                               && lookup.Ok?
    ensures resp.Success? ==> resp.body == lookup.value
    ensures resp.Failure? && lookup.Err? && resp.error.status !in {401, 503} ==> resp.error == AdminLookupFailure(lookup.error)
    ensures !InternalGateOpen(s, header) ==>
      resp == Failure(if IsSet(s.internalApiSecret) then HttpError(401, InvalidInternalSecret)
                      else HttpError(503, InternalAccessNotConfigured))
    ensures InternalGateOpen(s, header) && lookup.Err? ==> resp == Failure(AdminLookupFailure(lookup.error))
  {
    var gate := ValidateInternalSecret(s, header);
    if gate.Some? {
      return Failure(gate.value);
    }
    if lookup.Err? {
      return Failure(AdminLookupFailure(lookup.error));
    }
    return Success(lookup.value);
  }

  // ---------------------------------------------------------------------------
  // Internal handlers
  // ---------------------------------------------------------------------------

  /** `/internal/cache/invalidate`: the gate, then one cache invalidation. */
  method InvalidateCache(s: Settings, header: Option<string>, rbac: RbacEngine.RbacService) returns (resp: Response<string>)
    modifies rbac`loaded
    ensures resp.Success? <==> InternalGateOpen(s, header)
    ensures resp.Success? ==> resp.body == "invalidated" && !rbac.loaded
    ensures resp.Failure? ==> unchanged(rbac`loaded) && resp.error.status in {401, 503}
  {
    var gate := ValidateInternalSecret(s, header);
    if gate.Some? {
      return Failure(gate.value);
    }
    rbac.InvalidateCache();
    return Success("invalidated");
  }

  datatype ReindexResponse = ReindexResponse(status: string, documentsIndexed: int)

  /** `reindex`: the rebuild's `documents_indexed`, or 0 when it reports none. */
  method Reindex(s: Settings, header: Option<string>, rebuilt: map<string, int>) returns (resp: Response<ReindexResponse>)
    ensures resp.Success? <==> InternalGateOpen(s, header)
    ensures resp.Success? ==>
      && resp.body.status == "reindexed"
      && resp.body.documentsIndexed == (if "documents_indexed" in rebuilt then rebuilt["documents_indexed"] else 0)
  {
    var gate := ValidateInternalSecret(s, header);
    if gate.Some? {
      return Failure(gate.value);
    }
    var count := if "documents_indexed" in rebuilt then rebuilt["documents_indexed"] else 0;
    return Success(ReindexResponse("reindexed", count));
  }
}

=== FILE: security_alerts.dfy ===
/**
 * Security alerts (`services/security.py`): the `resolved_at` rule of
 * `update_alert` and the filter and order of `list_alerts`.
 */
module SecurityAlerts {
  import opened Wrappers
  import Tables

  datatype AlertStatus = Open | Resolved | Dismissed

  /** A `security_alerts` row. Times are instants on the injected clock. */
  datatype AlertRow = AlertRow(
    alertId: int,
    userId: int,
    alertType: string,
    message: string,
    status: AlertStatus,
    createdAt: int,
    resolvedAt: Option<int>)

  /** The `updates` dict of `update_alert`: each key absent, `None`, or a value. */
  datatype AlertUpdate = AlertUpdate(
    status: Patch<Option<AlertStatus>>,
    message: Patch<Option<string>>,
    resolvedAt: Patch<Option<int>>)

  /** A non-`None` value is given under the key. */
  predicate GivenValue<T>(p: Patch<Option<T>>)
  {
    p.Given? && p.value.Some?
  }

  /**
   * The row `update_alert` leaves behind at time `now`. An explicit
   * `resolved_at` always wins, `None` included; otherwise a status change
   * stamps the resolution time when the new status is RESOLVED and clears
   * it for any other status; with neither, it stays as it was.
   */
  function UpdatedAlert(a: AlertRow, u: AlertUpdate, now: int): (r: AlertRow)
    ensures r.status == (if GivenValue(u.status) then u.status.value.value else a.status)
    ensures r.message == (if GivenValue(u.message) then u.message.value.value else a.message)
    ensures u.resolvedAt.Given? ==> r.resolvedAt == u.resolvedAt.value
    ensures u.resolvedAt.Absent? && GivenValue(u.status) ==>
      r.resolvedAt == (if u.status.value.value == Resolved then Some(now) else None)
    ensures u.resolvedAt.Absent? && !GivenValue(u.status) ==> r.resolvedAt == a.resolvedAt
    ensures r.alertId == a.alertId && r.userId == a.userId && r.alertType == a.alertType && r.createdAt == a.createdAt
  {
    var status := if GivenValue(u.status) then u.status.value.value else a.status;
    var message := if GivenValue(u.message) then u.message.value.value else a.message;
    var resolvedAt :=
      if u.resolvedAt.Given? then u.resolvedAt.value
      else if GivenValue(u.status) then (if status == Resolved then Some(now) else None)
      else a.resolvedAt;
    a.(status := status, message := message, resolvedAt := resolvedAt)
  }

  /** Applying the same update twice, at the same instant, changes nothing more. */
  lemma UpdateIdempotent(a: AlertRow, u: AlertUpdate, now: int)
    ensures UpdatedAlert(UpdatedAlert(a, u, now), u, now) == UpdatedAlert(a, u, now)
  {
  }

  /** The ORM object `update_alert` changes in place. */
  class Alert {
    const alertId: int
    const userId: int
    const alertType: string
    const createdAt: int
    var message: string
    var status: AlertStatus
    var resolvedAt: Option<int>

    constructor (row: AlertRow)
      ensures Row() == row
    {
      alertId := row.alertId;
      userId := row.userId;
      alertType := row.alertType;
      createdAt := row.createdAt;
      message := row.message;
      status := row.status;
      resolvedAt := row.resolvedAt;
    }

    function Row(): AlertRow
      reads this
    {
      AlertRow(alertId, userId, alertType, message, status, createdAt, resolvedAt)
    }
  }

  /** `update_alert`, with the clock reading `now`. */
  method UpdateAlert(alert: Alert, u: AlertUpdate, now: int)
    modifies alert
    ensures alert.Row() == UpdatedAlert(old(alert.Row()), u, now)
  {
    var statusChange := false;
    if u.status.Given? && u.status.value.Some? {
      alert.status := u.status.value.value;
      statusChange := true;
    }
    if u.message.Given? && u.message.value.Some? {
      alert.message := u.message.value.value;
    }
    if u.resolvedAt.Given? {
      alert.resolvedAt := u.resolvedAt.value;
    } else if statusChange {
      if alert.status == Resolved {
        alert.resolvedAt := Some(now);
      } else {
        alert.resolvedAt := None;
      }
    }
  }

  // ---------------------------------------------------------------------------
  // list_alerts
  // ---------------------------------------------------------------------------

  /** The `where` clauses: the alert's user is in the organization, the status matches, a non-empty type matches. */
  predicate Listed(a: AlertRow, users: map<int, Tables.User>, orgId: int, status: Option<AlertStatus>, alertType: Option<string>)
  {
    && Tables.UserInOrganization(users, orgId, a.userId)
    && (status.Some? ==> a.status == status.value)
    && (alertType.Some? && alertType.value != "" ==> a.alertType == alertType.value)
  }

  /** `order_by(created_at.desc())`. */
  predicate NewestFirst(s: seq<AlertRow>)
  {
    forall i, j | 0 <= i < j < |s| :: s[i].createdAt >= s[j].createdAt
  }

  /** Putting the head back in front of a newest-first insertion into the tail. */
  lemma InsertBehindHead(x: AlertRow, s: seq<AlertRow>, rest: seq<AlertRow>)
    requires NewestFirst(s) && s != [] && x.createdAt < s[0].createdAt
    requires NewestFirst(rest) && multiset(rest) == multiset(s[1..]) + multiset{x}
    ensures NewestFirst([s[0]] + rest)
    ensures multiset([s[0]] + rest) == multiset(s) + multiset{x}
  {
    assert s == [s[0]] + s[1..];
    forall y | y in multiset(rest)
      ensures y.createdAt <= s[0].createdAt
    {
      if y != x {
        assert y in s[1..];
      }
    }
    forall j | 0 <= j < |rest|
      ensures rest[j].createdAt <= s[0].createdAt
    {
      assert rest[j] in multiset(rest);
    }
  }

  function InsertNewest(x: AlertRow, s: seq<AlertRow>): (r: seq<AlertRow>)
    requires NewestFirst(s)
    ensures NewestFirst(r)
    ensures multiset(r) == multiset(s) + multiset{x}
  {
    if s == [] || x.createdAt >= s[0].createdAt then [x] + s
    else
      var rest := InsertNewest(x, s[1..]);
      InsertBehindHead(x, s, rest);
      [s[0]] + rest
  }

  /**
   * `list_alerts`: exactly the rows the filter keeps, each as often as in
   * the table, newest first.
   */
  function ListAlerts(rows: seq<AlertRow>, users: map<int, Tables.User>, orgId: int,
                      status: Option<AlertStatus>, alertType: Option<string>): (r: seq<AlertRow>)
    ensures NewestFirst(r)
    ensures forall a :: multiset(r)[a] == (if Listed(a, users, orgId, status, alertType) then multiset(rows)[a] else 0)
  {
    if rows == [] then []
    else
      assert rows == [rows[0]] + rows[1..];
      var rest := ListAlerts(rows[1..], users, orgId, status, alertType);
      if Listed(rows[0], users, orgId, status, alertType) then InsertNewest(rows[0], rest) else rest
  }

  /** Another organization's alerts never show up. */
  lemma ListedOnlyOwnOrganization(rows: seq<AlertRow>, users: map<int, Tables.User>, orgId: int,
                                  status: Option<AlertStatus>, alertType: Option<string>, a: AlertRow)
    requires a in ListAlerts(rows, users, orgId, status, alertType)
    ensures a in rows && a.userId in users && users[a.userId].orgId == orgId
  {
    var r := ListAlerts(rows, users, orgId, status, alertType);
    assert multiset(r)[a] > 0;
  }
}

=== FILE: strings.dfy ===
/**
 * The parts of Python's `str` and `int` that the service relies on:
 * code-point ordering and `sorted`, `str.partition`, `str.split(sep, 2)`,
 * ASCII `lower()`, `str(int)` and `int(str)`.
 */
module Strings {
  import opened Wrappers

  // ---------------------------------------------------------------------------
  // Ordering: Python compares str values code point by code point.
  // ---------------------------------------------------------------------------

  /** `a < b` on Python strings. */
  predicate Below(a: string, b: string)
  {
    if |a| == 0 then |b| > 0
    else if |b| == 0 then false
    else if a[0] != b[0] then a[0] < b[0]
    else Below(a[1..], b[1..])
  }

  lemma {:induction false} BelowIrreflexive(a: string)
    ensures !Below(a, a)
  {
    if |a| > 0 {
      BelowIrreflexive(a[1..]);
    }
  }

  lemma {:induction false} BelowTransitive(a: string, b: string, c: string)
    requires Below(a, b) && Below(b, c)
    ensures Below(a, c)
  {
    if |a| > 0 && a[0] == b[0] && b[0] == c[0] {
      BelowTransitive(a[1..], b[1..], c[1..]);
    }
  }

  lemma {:induction false} BelowTotal(a: string, b: string)
    ensures a == b || Below(a, b) || Below(b, a)
  {
    if |a| > 0 && |b| > 0 && a[0] == b[0] {
      BelowTotal(a[1..], b[1..]);
      if a[1..] == b[1..] {
        assert a == [a[0]] + a[1..] && b == [b[0]] + b[1..];
      }
    }
  }

  /** Strictly ascending, hence duplicate-free: the shape of `sorted(some_set)`. */
  predicate Ascending(s: seq<string>)
  {
    forall i, j | 0 <= i < j < |s| :: Below(s[i], s[j])
  }

  function Elems<T>(s: seq<T>): set<T>
  {
    set x | x in s
  }

  /** Growing a prefix by one element adds that element. */
  lemma ElemsOfLongerPrefix<T>(s: seq<T>, i: int)
    requires 0 <= i < |s|
    ensures Elems(s[..i + 1]) == Elems(s[..i]) + {s[i]}
  {
    assert s[..i + 1] == s[..i] + [s[i]];
  }

  /** No element occurs twice. */
  predicate Distinct<T(==)>(s: seq<T>)
  {
    forall i, j | 0 <= i < j < |s| :: s[i] != s[j]
  }

  lemma AscendingHasNoDuplicates(s: seq<string>)
    requires Ascending(s)
    ensures forall i, j | 0 <= i < j < |s| :: s[i] != s[j]
  {
    forall i, j | 0 <= i < j < |s|
      ensures s[i] != s[j]
    {
      BelowIrreflexive(s[i]);
    }
  }

  /** Two ascending lists with the same elements are the same list: `sorted` has one answer. */
  lemma {:induction false} AscendingUnique(a: seq<string>, b: seq<string>)
    requires Ascending(a) && Ascending(b) && Elems(a) == Elems(b)
    ensures a == b
    decreases |a|
  {
    assert a != [] ==> a[0] in Elems(a);
    assert b != [] ==> b[0] in Elems(b);
    if a != [] && b != [] {
      assert a[0] in Elems(b);
      assert b[0] in Elems(a);
      if a[0] != b[0] {
        var i :| 0 <= i < |a| && a[i] == b[0];
        var j :| 0 <= j < |b| && b[j] == a[0];
        assert Below(a[0], a[i]) && Below(b[0], b[j]);
        BelowTransitive(a[0], b[0], a[0]);
        BelowIrreflexive(a[0]);
        assert false;
      }
      AscendingHasNoDuplicates(a);
      AscendingHasNoDuplicates(b);
      assert Elems(a[1..]) == Elems(a) - {a[0]} by {
        assert forall x :: x in a <==> x == a[0] || x in a[1..];
      }
      assert Elems(b[1..]) == Elems(b) - {b[0]} by {
        assert forall x :: x in b <==> x == b[0] || x in b[1..];
      }
      AscendingUnique(a[1..], b[1..]);
      assert a == [a[0]] + a[1..] && b == [b[0]] + b[1..];
    }
  }

  lemma AscendingCons(x: string, s: seq<string>)
    requires Ascending(s) && forall k | 0 <= k < |s| :: Below(x, s[k])
    ensures Ascending([x] + s) && Elems([x] + s) == Elems(s) + {x}
  {
    var r := [x] + s;
    forall i, j | 0 <= i < j < |r| ensures Below(r[i], r[j]) {
      assert r[j] == s[j - 1];
      if i > 0 { assert r[i] == s[i - 1]; }
    }
    assert forall y :: y in r <==> y == x || y in s;
  }

  /** Inserts `x` into an ascending list, keeping it ascending; an element already present is not repeated. */
  function Insert(x: string, s: seq<string>): (r: seq<string>)
    requires Ascending(s)
    ensures Ascending(r) && Elems(r) == Elems(s) + {x}
    decreases |s|
  {
    if s == [] then [x]
    else if x == s[0] then s
    else if Below(x, s[0]) then
      InsertFront(x, s)
    else
      InsertAfterHead(x, s, Insert(x, s[1..]))
  }

  function InsertFront(x: string, s: seq<string>): (r: seq<string>)
    requires Ascending(s) && s != [] && Below(x, s[0])
    ensures r == [x] + s && Ascending(r) && Elems(r) == Elems(s) + {x}
  {
    forall k | 0 <= k < |s| ensures Below(x, s[k]) {
      if k > 0 { BelowTransitive(x, s[0], s[k]); }
    }
    AscendingCons(x, s);
    [x] + s
  }

  function InsertAfterHead(x: string, s: seq<string>, tail: seq<string>): (r: seq<string>)
    requires Ascending(s) && s != [] && x != s[0] && !Below(x, s[0])
    requires Ascending(tail) && Elems(tail) == Elems(s[1..]) + {x}
    ensures r == [s[0]] + tail && Ascending(r) && Elems(r) == Elems(s) + {x}
  {
    BelowTotal(x, s[0]);
    assert forall k | 0 <= k < |tail| :: Below(s[0], tail[k]) by {
      forall k | 0 <= k < |tail| ensures Below(s[0], tail[k]) {
        assert tail[k] in Elems(tail);
        if tail[k] != x {
          var i :| 0 <= i < |s[1..]| && s[1..][i] == tail[k];
          assert s[i + 1] == tail[k];
        }
      }
    }
    assert forall y :: y in s <==> y == s[0] || y in s[1..];
    AscendingCons(s[0], tail);
    [s[0]] + tail
  }

  /** `sorted(set(s))` for a list: ascending, with exactly the elements of `s`. */
  function SortDistinct(s: seq<string>): (r: seq<string>)
    ensures Ascending(r) && Elems(r) == Elems(s)
    decreases |s|
  {
    if s == [] then []
    else
      var r := Insert(s[0], SortDistinct(s[1..]));
      assert forall y :: y in s <==> y == s[0] || y in s[1..];
      r
  }

  lemma HasElement<T>(s: set<T>)
    requires s != {}
    ensures exists x :: x in s
  {
    var x :| x in s;
  }

  /** `sorted(names)` for a Python set of strings, built one element at a time. */
  method SortedList(names: set<string>) returns (r: seq<string>)
    ensures Ascending(r) && Elems(r) == names
  {
    r := [];
    var rest := names;
    while rest != {}
      invariant rest <= names
      invariant Ascending(r) && Elems(r) == names - rest
      decreases rest
    {
      HasElement(rest);
      var x :| x in rest;
      r := Insert(x, r);
      rest := rest - {x};
    }
  }

  // ---------------------------------------------------------------------------
  // Integer order: `ORDER BY <id>` and `sorted` over ids.
  // ---------------------------------------------------------------------------

  predicate Increasing(s: seq<int>)
  {
    forall i, j | 0 <= i < j < |s| :: s[i] < s[j]
  }

  lemma IncreasingCons(x: int, s: seq<int>)
    requires Increasing(s) && forall k | 0 <= k < |s| :: x < s[k]
    ensures Increasing([x] + s) && Elems([x] + s) == Elems(s) + {x}
  {
    var r := [x] + s;
    forall i, j | 0 <= i < j < |r| ensures r[i] < r[j] {
      assert r[j] == s[j - 1];
      if i > 0 { assert r[i] == s[i - 1]; }
    }
    assert forall y :: y in r <==> y == x || y in s;
  }

  function InsertId(x: int, s: seq<int>): (r: seq<int>)
    requires Increasing(s)
    ensures Increasing(r) && Elems(r) == Elems(s) + {x}
    decreases |s|
  {
    if s == [] then [x]
    else if x == s[0] then s
    else if x < s[0] then
      IncreasingCons(x, s);
      [x] + s
    else
      var tail := InsertId(x, s[1..]);
      assert forall y :: y in s <==> y == s[0] || y in s[1..];
      forall k | 0 <= k < |tail| ensures s[0] < tail[k] {
        assert tail[k] in Elems(tail);
      }
      IncreasingCons(s[0], tail);
      [s[0]] + tail
  }

  lemma HasId(s: set<int>)
    requires s != {}
    ensures exists x :: x in s
  {
    if forall x :: x !in s {
      assert false;
    }
  }

  /** The ids of a set in ascending order. */
  method SortedIds(ids: set<int>) returns (r: seq<int>)
    ensures Increasing(r) && Elems(r) == ids
  {
    r := [];
    var rest := ids;
    while rest != {}
      invariant rest <= ids
      invariant Increasing(r) && Elems(r) == ids - rest
      decreases rest
    {
      HasId(rest);
      var x :| x in rest;
      r := InsertId(x, r);
      rest := rest - {x};
    }
  }

  // ---------------------------------------------------------------------------
  // str.partition, str.split(sep, 2), ASCII lower()
  // ---------------------------------------------------------------------------

  /** Position of the first `c` in `s`, as `str.find` gives it. */
  function IndexOf(s: string, c: char): (r: Option<nat>)
    ensures r.Some? ==> (r.value < |s| && s[r.value] == c && c !in s[..r.value])
    ensures r.None? ==> c !in s
  {
    if s == [] then None
    else if s[0] == c then Some(0)
    else
      match IndexOf(s[1..], c)
      case None => None
      case Some(i) =>
        assert s[..i + 1] == [s[0]] + s[1..][..i];
        Some(i + 1)
  }

  /** `s.partition(sep)`: the text before the first `sep`, whether it was found, the text after it. */
  function Partition(s: string, sep: char): (r: (string, bool, string))
    ensures r.1 ==> s == r.0 + [sep] + r.2 && sep !in r.0
    ensures !r.1 ==> r.0 == s && r.2 == "" && sep !in s
  {
    match IndexOf(s, sep)
    case None => (s, false, "")
    case Some(i) =>
      assert s == s[..i] + [sep] + s[i + 1..];
      (s[..i], true, s[i + 1..])
  }

  /** The first separator of `a + [sep] + b` is the one after `a` when `a` holds none. */
  lemma PartitionFirst(a: string, b: string, sep: char)
    requires sep !in a
    ensures Partition(a + [sep] + b, sep) == (a, true, b)
  {
    var s := a + [sep] + b;
    assert s[|a|] == sep;
    assert s[..|a|] == a && s[|a| + 1..] == b;
  }

  /**
   * Unpacking `a, b, c = s.split(sep, 2)`: three parts exactly when `s`
   * holds at least two separators; the third part keeps any later separators.
   */
  function SplitThree(s: string, sep: char): (r: Option<(string, string, string)>)
    ensures r.Some? ==> (s == r.value.0 + [sep] + r.value.1 + [sep] + r.value.2
                         && sep !in r.value.0 && sep !in r.value.1)
  {
    var (a, found, rest) := Partition(s, sep);
    if !found then None
    else
      var (b, found2, c) := Partition(rest, sep);
      if !found2 then None else Some((a, b, c))
  }

  function AsciiLowerChar(c: char): char
  {
    if 'A' <= c <= 'Z' then (c as int + 32) as char else c
  }

  /**
   * `s.lower()` for the comparisons the service makes (against "bearer",
   * "prod" and "production"): no character outside A-Z lowercases to one
   * of their letters, so the ASCII mapping decides those comparisons exactly.
   */
  function AsciiLower(s: string): (r: string)
    ensures |r| == |s|
    ensures forall i | 0 <= i < |s| :: r[i] == AsciiLowerChar(s[i])
  {
    seq(|s|, i requires 0 <= i < |s| => AsciiLowerChar(s[i]))
  }

  // ---------------------------------------------------------------------------
  // str(int) and int(str)
  // ---------------------------------------------------------------------------

  predicate IsDigit(c: char)
  {
    '0' <= c <= '9'
  }

  /** The characters Python's `str.isspace` accepts, which `int()` strips from both ends. */
  predicate IsSpace(c: char)
  {
    var n := c as int;
    (9 <= n <= 13) || (28 <= n <= 32) || n == 0x85 || n == 0xA0 || n == 0x1680
    || (0x2000 <= n <= 0x200A) || n == 0x2028 || n == 0x2029 || n == 0x202F
    || n == 0x205F || n == 0x3000
  }

  function DigitChar(d: nat): (c: char)
    requires d < 10
    ensures IsDigit(c) && c as int - '0' as int == d
  {
    ('0' as int + d) as char
  }

  /** Decimal digits of `n`, without leading zeros. */
  function NatToString(n: nat): (s: string)
    ensures |s| > 0 && forall i | 0 <= i < |s| :: IsDigit(s[i])
  {
    if n < 10 then [DigitChar(n)] else NatToString(n / 10) + [DigitChar(n % 10)]
  }

  /** `str(n)`. */
  function IntToString(n: int): (s: string)
    ensures |s| > 0 && IsDigit(s[|s| - 1]) && (IsDigit(s[0]) || s[0] == '-') && ':' !in s
  {
    var digits := if n < 0 then NatToString(-n) else NatToString(n);
    var s := if n < 0 then "-" + digits else digits;
    assert forall i | 0 <= i < |s| :: IsDigit(s[i]) || s[i] == '-';
    s
  }

  /** Digits with single underscores between them, as `int()` accepts. */
  predicate DigitGroups(s: string)
  {
    && |s| > 0 && IsDigit(s[0]) && IsDigit(s[|s| - 1])
    && (forall i | 0 <= i < |s| :: IsDigit(s[i]) || s[i] == '_')
    && (forall i | 0 <= i < |s| - 1 :: !(s[i] == '_' && s[i + 1] == '_'))
  }

  /** The value of a run of digits, underscores ignored. */
  function DigitsValue(s: string): nat
    requires forall i | 0 <= i < |s| :: IsDigit(s[i]) || s[i] == '_'
  {
    if s == [] then 0
    else if s[|s| - 1] == '_' then DigitsValue(s[..|s| - 1])
    else
      assert IsDigit(s[|s| - 1]);
      DigitsValue(s[..|s| - 1]) * 10 + (s[|s| - 1] as int - '0' as int)
  }

  function TrimStart(s: string): (r: string)
    ensures r == [] || !IsSpace(r[0])
    ensures |r| <= |s| && r == s[|s| - |r|..]
  {
    if s != [] && IsSpace(s[0]) then TrimStart(s[1..]) else s
  }

  function TrimEnd(s: string): (r: string)
    ensures r == [] || !IsSpace(r[|r| - 1])
    ensures |r| <= |s| && r == s[..|r|]
  {
    if s != [] && IsSpace(s[|s| - 1]) then TrimEnd(s[..|s| - 1]) else s
  }

  /**
   * `int(s)` for a str: surrounding whitespace, an optional sign, then
   * ASCII digits with single underscores between them. Anything else is the
   * ValueError case, `None`.
   */
  function ParseInt(s: string): Option<int>
  {
    var t := TrimEnd(TrimStart(s));
    if t != [] && (t[0] == '+' || t[0] == '-') then
      if DigitGroups(t[1..]) then
        assert IsDigit(t[1..][0]);
        var v: int := DigitsValue(t[1..]);
        Some(if t[0] == '-' then -v else v)
      else None
    else if DigitGroups(t) then
      assert IsDigit(t[0]);
      Some(DigitsValue(t))
    else None
  }

  lemma {:induction false} NatToStringValue(n: nat)
    ensures DigitGroups(NatToString(n)) && DigitsValue(NatToString(n)) == n
  {
    var s := NatToString(n);
    if n >= 10 {
      NatToStringValue(n / 10);
      assert s[..|s| - 1] == NatToString(n / 10);
    }
  }

  lemma TrimKeeps(s: string)
    requires |s| > 0 && !IsSpace(s[0]) && !IsSpace(s[|s| - 1])
    ensures TrimEnd(TrimStart(s)) == s
  {
  }

  lemma ParseDigits(s: string, v: nat)
    requires DigitGroups(s) && DigitsValue(s) == v
    ensures ParseInt(s) == Some(v)
    ensures ParseInt("-" + s) == Some(-(v as int))
  {
    TrimKeeps(s);
    TrimKeeps("-" + s);
    assert ("-" + s)[1..] == s;
  }

  lemma IntToStringShape(n: int)
    ensures n < 0 ==> IntToString(n) == "-" + NatToString(-n)
    ensures n >= 0 ==> IntToString(n) == NatToString(n)
  {
  }

  /** `int(str(n)) == n`. */
  lemma IntToStringRoundTrip(n: int)
    ensures ParseInt(IntToString(n)) == Some(n)
  {
    IntToStringShape(n);
    var m: nat := if n < 0 then -n else n;
    NatToStringValue(m);
    ParseDigits(NatToString(m), m);
  }

  lemma IntToStringInjective(m: int, n: int)
    requires IntToString(m) == IntToString(n)
    ensures m == n
  {
    IntToStringRoundTrip(m);
    IntToStringRoundTrip(n);
  }
}

=== FILE: tables.dfy ===
/**
 * The relational store the services read and write: one map per table,
 * keyed by primary key, plus the value types Python hands around as `Any`.
 * Column types and unique constraints follow `db/models/oltp.py`.
 */
module Tables {
  import opened Wrappers

  datatype UserStatus = Active | Inactive
  datatype LicenseStatus = Active | Suspended | Expired
  datatype LoginMethod = Standard | OAuth | Sso | MultiFactor

  /**
   * A Python value of unknown type, as found in the `dict[str, Any]`
   * payloads. `Other` is any value of another type (a float, a list, a
   * dict), known here only by its truthiness: `0.0`, `[]` and `{}` are
   * false, most others true.
   */
  datatype Value =
    | Null
    | Text(text: string)
    | Number(number: int)
    | Flag(flag: bool)
    | StatusValue(status: UserStatus)
    | Other(truthy: bool)

  /** Python truthiness. */
  predicate Truthy(v: Value)
  {
    match v
    case Null => false
    case Text(s) => s != ""
    case Number(n) => n != 0
    case Flag(b) => b
    case StatusValue(_) => true
    case Other(t) => t
  }

  predicate DistinctKeys(d: seq<(string, Value)>)
  {
    forall i, j | 0 <= i < j < |d| :: d[i].0 != d[j].0
  }

  /** A Python dict: its items in insertion order, no key twice. */
  type Dict = d: seq<(string, Value)> | DistinctKeys(d)

  function Keys(d: seq<(string, Value)>): set<string>
  {
    set i | 0 <= i < |d| :: d[i].0
  }

  /** `d.get(k)`: the value under `k`, or `None` when `k` is absent. */
  function Get(d: seq<(string, Value)>, k: string): (v: Value)
    ensures k !in Keys(d) ==> v == Null
    ensures forall i | 0 <= i < |d| && d[i].0 == k && DistinctKeys(d) :: v == d[i].1
  {
    if d == [] then Null
    else if d[0].0 == k then d[0].1
    else
      assert Keys(d) == {d[0].0} + Keys(d[1..]) by {
        assert forall i | 1 <= i < |d| :: d[i] == d[1..][i - 1];
      }
      Get(d[1..], k)
  }

  datatype Organization = Organization(name: string, license: LicenseStatus)
  datatype Role = Role(orgId: int, name: string, description: Option<string>)
  datatype Permission = Permission(name: string, description: Option<string>)

  /** A `role_permission` row; the triple is the row's identity, so the table is a set. */
  datatype RolePermission = RolePermission(roleId: int, permId: int, orgId: int)

  /**
   * A `uuh_users` row. `fields` holds the profile columns the services copy
   * without interpreting them (first_name, middle_name, last_name,
   * date_of_birth, gender, nationality and the like).
   */
  datatype User = User(
    username: string,
    password: string,
    orgId: int,
    roleId: Option<int>,
    status: UserStatus,
    fields: map<string, Value>,
    lastLogin: Option<int>)

  /** A `uuh_contact_information` row: the unique, non-null email and the other columns. */
  datatype Contact = Contact(email: string, attrs: map<string, Value>)

  datatype ArchivedUser = ArchivedUser(userId: int, orgId: int)
  datatype LoginActivity = LoginActivity(userId: int, at: int, via: LoginMethod, success: bool)

  datatype SsoProvider = SsoProvider(userId: int, uid: string, email: string, accessToken: Value, refreshToken: Value)

  /**
   * The columns of a contact row other than its keys. `hasattr(contact,
   * field)` also finds the key columns `user_id` and `address_id`, the
   * `user` relationship and the mapped class's other attributes; payloads
   * naming those are not modelled.
   */
  const ContactColumns: set<string> := {
    "email_id", "phone_number", "verified_phone_number", "emergency_number", "address",
    "street_address", "city", "state", "zip_code", "country"
  }

  /** The contact columns `register_user` fills from the registration payload besides the email. */
  const ContactPayloadFields: seq<string> := [
    "phone_number", "emergency_number", "address", "street_address", "city", "state",
    "zip_code", "country"
  ]

  predicate IdsBelow<V>(m: map<int, V>, bound: int)
  {
    forall k | k in m :: k < bound
  }

  /** The foreign key from a role to its organization. */
  predicate RolesInOrganizations(roles: map<int, Role>, orgs: map<int, Organization>)
  {
    forall k | k in roles :: roles[k].orgId in orgs
  }

  /** The user exists and belongs to the organization: the guard the endpoints apply to a user id. */
  predicate UserInOrganization(users: map<int, User>, orgId: int, userId: int)
  {
    userId in users && users[userId].orgId == orgId
  }

  /** The foreign key from a contact row to its user; contacts are keyed by user id. */
  predicate ContactsOfUsers(contacts: map<int, Contact>, users: map<int, User>)
  {
    forall k | k in contacts :: k in users
  }

  // The unique constraints.

  predicate UniqueOrganizationNames(orgs: map<int, Organization>)
  {
    forall a, b | a in orgs && b in orgs && orgs[a].name == orgs[b].name :: a == b
  }

  predicate UniqueRoleNames(roles: map<int, Role>)
  {
    forall a, b | a in roles && b in roles && roles[a].name == roles[b].name :: a == b
  }

  predicate UniquePermissionNames(perms: map<int, Permission>)
  {
    forall a, b | a in perms && b in perms && perms[a].name == perms[b].name :: a == b
  }

  predicate UniqueUsernames(users: map<int, User>)
  {
    forall a, b | a in users && b in users && users[a].username == users[b].username :: a == b
  }

  predicate UniqueEmails(contacts: map<int, Contact>)
  {
    forall a, b | a in contacts && b in contacts && contacts[a].email == contacts[b].email :: a == b
  }

  predicate UniqueProviderUids(providers: map<int, SsoProvider>)
  {
    forall a, b | a in providers && b in providers && providers[a].uid == providers[b].uid :: a == b
  }

  /** The OLTP database. Ids come from one counter, so a new row's id is never in use. */
  class Database {
    var orgs: map<int, Organization>
    var roles: map<int, Role>
    var perms: map<int, Permission>
    var rolePerms: set<RolePermission>
    var users: map<int, User>
    var contacts: map<int, Contact>        // keyed by user id: `user_id` is unique
    var archive: seq<ArchivedUser>
    var logins: seq<LoginActivity>
    var providers: map<int, SsoProvider>
    var nextId: int

    /**
     * The primary keys in use are below the counter, every role belongs to an
     * existing organization, every contact row to an existing user, and the
     * unique columns are unique.
     */
    ghost predicate Valid()
      reads this
    {
      && IdsBelow(orgs, nextId) && IdsBelow(roles, nextId) && IdsBelow(perms, nextId)
      && IdsBelow(users, nextId) && IdsBelow(providers, nextId)
      && RolesInOrganizations(roles, orgs) && ContactsOfUsers(contacts, users)
      && UniqueOrganizationNames(orgs) && UniqueRoleNames(roles) && UniquePermissionNames(perms)
      && UniqueUsernames(users) && UniqueEmails(contacts) && UniqueProviderUids(providers)
    }

    constructor ()
      ensures Valid()
      ensures orgs == map[] && roles == map[] && perms == map[] && rolePerms == {}
      ensures users == map[] && contacts == map[] && archive == [] && logins == []
      ensures providers == map[] && nextId == 1
    {
      orgs, roles, perms, rolePerms := map[], map[], map[], {};
      users, contacts, archive, logins := map[], map[], [], [];
      providers, nextId := map[], 1;
    }

    /** Inserts a role under a fresh id; the caller has checked the name is free. */
    method AddRole(role: Role) returns (id: int)
      requires Valid() && !RoleNameTaken(roles, role.name) && role.orgId in orgs
      modifies this`roles, this`nextId
      ensures Valid()
      ensures id == old(nextId) && id !in old(roles) && nextId == id + 1
      ensures roles == old(roles)[id := role]
    {
      id := nextId;
      roles := roles[id := role];
      nextId := nextId + 1;
    }

    /** Inserts a user and its contact row under a fresh id; the caller has checked both unique columns. */
    method AddUser(user: User, contact: Contact) returns (id: int)
      requires Valid() && !UsernameTaken(users, user.username) && !EmailTaken(contacts, contact.email)
      modifies this`users, this`contacts, this`nextId
      ensures Valid()
      ensures id == old(nextId) && id !in old(users) && id !in old(contacts) && nextId == id + 1
      ensures users == old(users)[id := user] && contacts == old(contacts)[id := contact]
    {
      id := nextId;
      users := users[id := user];
      contacts := contacts[id := contact];
      nextId := nextId + 1;
    }

    /** Inserts a permission under a fresh id; the caller has checked the name is free. */
    method AddPermission(perm: Permission) returns (id: int)
      requires Valid() && !PermissionNameTaken(perms, perm.name)
      modifies this`perms, this`nextId
      ensures Valid()
      ensures id == old(nextId) && id !in old(perms) && nextId == id + 1
      ensures perms == old(perms)[id := perm]
    {
      id := nextId;
      perms := perms[id := perm];
      nextId := nextId + 1;
    }
  }

  // Lookups by a unique column.

  predicate OrganizationNameTaken(orgs: map<int, Organization>, name: string)
  {
    exists id | id in orgs :: orgs[id].name == name
  }

  predicate RoleNameTaken(roles: map<int, Role>, name: string)
  {
    exists id | id in roles :: roles[id].name == name
  }

  predicate PermissionNameTaken(perms: map<int, Permission>, name: string)
  {
    exists id | id in perms :: perms[id].name == name
  }

  predicate UsernameTaken(users: map<int, User>, username: string)
  {
    exists id | id in users :: users[id].username == username
  }

  predicate EmailTaken(contacts: map<int, Contact>, email: string)
  {
    exists id | id in contacts :: contacts[id].email == email
  }
}

=== FILE: tokens.dfy ===
/**
 * The claims of the signed access tokens `core/security.py` issues and
 * `web/api/dependencies.py` reads back. Signing and verification are left
 * to the JWT library: here a token's payload is a map of claims.
 */
module Tokens {
  import opened Wrappers
  import Strings

  /**
   * A JSON claim value after decoding. A number with a fraction or an
   * exponent decodes to a binary float, the exact value
   * `mantissa * 2^exponent`.
   */
  datatype ClaimValue =
    | CNull
    | CText(text: string)
    | CInt(number: int)
    | CBool(flag: bool)
    | CFloat(mantissa: int, exponent: int)
    | COther

  function Pow2(n: nat): (p: nat)
    ensures p >= 1
  {
    if n == 0 then 1 else 2 * Pow2(n - 1)
  }

  /** `n` is `m / d` rounded toward zero, as Python's `int()` rounds a float. */
  predicate TowardZero(n: int, m: int, d: nat)
  {
    && (m >= 0 ==> 0 <= n && n * d <= m < n * d + d)
    && (m < 0 ==> n <= 0 && n * d - d < m <= n * d)
  }

  /** Euclidean division of a natural number: the quotient's multiple stays within one divisor below it. */
  lemma QuotientBounds(a: nat, d: nat)
    requires d > 0
    ensures 0 <= a / d && (a / d) * d <= a < (a / d) * d + d
  {
    assert a == d * (a / d) + a % d;
  }

  /** Truncating division of `m` by a positive `d`. */
  function TruncatedQuotient(m: int, d: nat): (n: int)
    requires d > 0
    ensures TowardZero(n, m, d)
  {
    if m >= 0 then QuotientBounds(m, d); m / d
    else
      QuotientBounds(-m, d);
      assert (-((-m) / d)) * d == -(((-m) / d) * d);
      -((-m) / d)
  }

  type Claims = map<string, ClaimValue>

  /** `payload.get(k)`, with an absent key read as `None`. */
  function Claim(payload: Claims, k: string): ClaimValue
  {
    if k in payload then payload[k] else CNull
  }

  /**
   * Python's `int(v)` on a decoded claim: a decimal string, an integer or a
   * boolean converts, and a float is truncated toward zero; `None`, a list
   * or an object raises, which `None` stands for here.
   */
  function ClaimInt(v: ClaimValue): (r: Option<int>)
    ensures v.CInt? ==> r == Some(v.number)
    ensures v.CText? ==> r == Strings.ParseInt(v.text)
    ensures v.CBool? ==> r == Some(if v.flag then 1 else 0)
    ensures v.CFloat? && v.exponent >= 0 ==> r == Some(v.mantissa * Pow2(v.exponent))
    ensures v.CFloat? && v.exponent < 0 ==> r.Some? && TowardZero(r.value, v.mantissa, Pow2(-v.exponent))
    ensures v.CNull? || v.COther? ==> r == None
  {
    match v
    case CNull => None
    case CText(s) => Strings.ParseInt(s)
    case CInt(n) => Some(n)
    case CBool(b) => Some(if b then 1 else 0)
    case CFloat(m, e) => Some(if e >= 0 then m * Pow2(e) else TruncatedQuotient(m, Pow2(-e)))
    case COther => None
  }

  /**
   * `create_access_token`: the payload `{"sub": subject, "exp": ...}` updated
   * with the extra claims. A zero lifetime falls back to the configured one;
   * `exp` is in seconds, like the NumericDate of section 4.1.4 of RFC 7519.
   */
  function AccessPayload(subject: string, expiresMinutes: int, defaultMinutes: int, now: int, claims: Claims): (p: Claims)
    ensures p.Keys == claims.Keys + {"sub", "exp"}
    ensures forall k | k in claims :: p[k] == claims[k]
    ensures "sub" !in claims ==> p["sub"] == CText(subject)
    ensures "exp" !in claims ==>
      p["exp"] == CInt(now + 60 * (if expiresMinutes != 0 then expiresMinutes else defaultMinutes))
  {
    var minutes := if expiresMinutes != 0 then expiresMinutes else defaultMinutes;
    map["sub" := CText(subject), "exp" := CInt(now + 60 * minutes)] + claims
  }
}

=== FILE: user_views.dfy ===
/**
 * The user administration endpoints (`web/api/v1/users/views.py`): the
 * organization guards (the shared one and the user access check), the
 * serialisation of users and contact rows, and the handlers that sequence
 * a service call and, after a successful change, the invalidation of the
 * RBAC cache.
 */
module UserViews {
  import opened Wrappers
  import opened Tables
  import opened Errors
  import Strings
  import RbacEngine
  import Users
  import AuthService
  import AuthViews
  import Principal

  /**
   * `_get_user_and_contact` followed by `_validate_user_access`: a user of
   * another organization is answered exactly as a missing one, 404, so its
   * existence is not revealed.
   */
  function UserAccess(principal: Principal.AuthenticatedPrincipal, users: map<int, User>, userId: int): (e: Option<HttpError>)
    ensures e == None <==> UserInOrganization(users, principal.orgId, userId)
    ensures e.Some? ==> e.value == HttpError(404, UserNotFound)
  {
    if userId !in users || users[userId].orgId != principal.orgId then Some(HttpError(404, UserNotFound)) else None
  }

  /** A contact attribute, `None` when the row or the column value is absent. */
  function Attr(contact: Option<Contact>, k: string): Value
  {
    if contact.Some? && k in contact.value.attrs then contact.value.attrs[k] else Null
  }

  /** `_serialize_contact`: the email and the eight payload fields, all `None` without a contact row. */
  function SerializeContact(contact: Option<Contact>): (r: (Option<string>, map<string, Value>))
    ensures r.0 == (if contact.Some? then Some(contact.value.email) else None)
    ensures r.1.Keys == Strings.Elems(ContactPayloadFields)
    ensures contact.None? ==> forall k | k in r.1 :: r.1[k] == Null
    ensures forall k | k in r.1 :: r.1[k] == Attr(contact, k)
  {
    var email := if contact.Some? then Some(contact.value.email) else None;
    (email, map k | k in ContactPayloadFields :: Attr(contact, k))
  }

  datatype UserResponse = UserResponse(
    userId: int,
    username: string,
    fields: map<string, Value>,
    orgId: int,
    roleId: Option<int>,
    status: UserStatus,
    email: Option<string>)

  /** `_serialize_user`: the user's columns and the email of its contact row, if any. */
  function SerializeUser(userId: int, u: User, contact: Option<Contact>): (r: UserResponse)
    ensures r.userId == userId && r.username == u.username && r.fields == u.fields
    ensures r.orgId == u.orgId && r.roleId == u.roleId && r.status == u.status
    ensures r.email == SerializeContact(contact).0
  {
    UserResponse(userId, u.username, u.fields, u.orgId, u.roleId, u.status, SerializeContact(contact).0)
  }

  function ContactOf(contacts: map<int, Contact>, userId: int): Option<Contact>
  {
    if userId in contacts then Some(contacts[userId]) else None
  }

  /** The `fields` of the "user.updated" audit event: the update's keys, sorted. */
  function AuditFields(updates: Dict): (f: seq<string>)
    ensures Strings.Ascending(f) && Strings.Elems(f) == Keys(updates)
  {
    var names := seq(|updates|, i requires 0 <= i < |updates| => updates[i].0);
    assert Strings.Elems(names) == Keys(updates) by {
      forall k | k in Keys(updates) ensures k in names {
        var i :| 0 <= i < |updates| && updates[i].0 == k;
        assert names[i] == k;
      }
    }
    Strings.SortDistinct(names)
  }

  /** The three checks of `create_user_in_organization` that run before registration. */
  predicate CreateChecksPass(principal: Principal.AuthenticatedPrincipal, orgs: map<int, Organization>, roles: map<int, Role>,
                             orgId: int, reg: AuthService.Registration)
  {
    && principal.orgId == orgId && orgId in orgs
    && (reg.roleId.Some? ==> Users.RoleInOrganization(roles, orgId, reg.roleId.value))
  }

  /**
   * POST /orgs/{org}/users. The checks run in order, all before anything
   * is written: the caller's organization (403), the organization's
   * existence (404), a given role's organization (400); then registration
   * into the path organization.
   */
  method CreateUserInOrganization(db: Database, rbac: RbacEngine.RbacService, principal: Principal.AuthenticatedPrincipal,
                                  orgId: int, reg: AuthService.Registration, h: AuthService.PasswordHasher)
    returns (resp: Response<UserResponse>)
    requires db.Valid()
    modifies db`users, db`contacts, db`nextId, rbac`loaded
    ensures db.Valid()
    ensures principal.orgId != orgId ==> resp == Failure(HttpError(403, Forbidden))
    ensures principal.orgId == orgId && orgId !in db.orgs ==> resp == Failure(HttpError(404, OrganizationNotFound))
    ensures principal.orgId == orgId && orgId in db.orgs && reg.roleId.Some?
            && !Users.RoleInOrganization(db.roles, orgId, reg.roleId.value) ==>
      resp == Failure(HttpError(400, RoleNotInOrganization))
    ensures CreateChecksPass(principal, db.orgs, db.roles, orgId, reg) && UsernameTaken(old(db.users), reg.username) ==>
      resp == Failure(HttpError(409, UsernameAlreadyExists))
    ensures CreateChecksPass(principal, db.orgs, db.roles, orgId, reg) && !UsernameTaken(old(db.users), reg.username)
            && EmailTaken(old(db.contacts), reg.email) ==>
      resp == Failure(HttpError(409, EmailAlreadyExists))
    ensures resp.Success? <==>
      && CreateChecksPass(principal, db.orgs, db.roles, orgId, reg)
      && !UsernameTaken(old(db.users), reg.username) && !EmailTaken(old(db.contacts), reg.email)
      && AuthService.Insertable(db.orgs, db.roles, reg.(orgId := orgId))
    ensures CreateChecksPass(principal, db.orgs, db.roles, orgId, reg) && resp.Failure? ==>
      resp.error == AuthViews.RegisterFailure(resp.error.code)
    ensures resp.Failure? ==> unchanged(db`users, db`contacts, db`nextId) && unchanged(rbac`loaded)
    ensures resp.Success? ==>
      && principal.orgId == orgId
      && !rbac.loaded
      && resp.body.userId == old(db.nextId)
      && db.users == old(db.users)[resp.body.userId := AuthService.NewUser(reg.(orgId := orgId), h)]
      && resp.body.orgId == orgId && resp.body.email == Some(reg.email)
  {
    var forbidden := Principal.EnsureSameOrganization(principal, orgId);
    if forbidden.Some? {
      return Failure(forbidden.value);
    }
    if orgId !in db.orgs {
      return Failure(HttpError(404, OrganizationNotFound));
    }
    if reg.roleId.Some? {
      var inOrg := Users.EnsureRoleInOrganization(db, orgId, reg.roleId.value);
      if inOrg.Err? {
        return Failure(HttpError(400, inOrg.error));
      }
    }
    var registration := reg.(orgId := orgId);
    var r := AuthService.RegisterUser(db, registration, h);
    if r.Err? {
      return Failure(AuthViews.RegisterFailure(r.error));
    }
    rbac.InvalidateCache();
    var user := AuthService.NewUser(registration, h);
    return Success(SerializeUser(r.value, user, ContactOf(db.contacts, r.value)));
  }

  /** GET /orgs/{org}/users: the organization's users, by ascending id, with their emails. */
  method ListUsersInOrganization(db: Database, principal: Principal.AuthenticatedPrincipal, orgId: int,
                                 statuses: seq<UserStatus>)
    returns (resp: Response<seq<UserResponse>>)
    ensures resp.Failure? <==> principal.orgId != orgId
    ensures resp.Failure? ==> resp.error == HttpError(403, Forbidden)
    ensures resp.Success? ==>
      && Strings.Increasing(seq(|resp.body|, i requires 0 <= i < |resp.body| => resp.body[i].userId))
      && (forall u :: (exists i | 0 <= i < |resp.body| :: resp.body[i].userId == u) <==> u in Users.Listed(db.users, orgId, statuses))
      && forall i | 0 <= i < |resp.body| ::
           var id := resp.body[i].userId;
           id in db.users && resp.body[i] == SerializeUser(id, db.users[id], ContactOf(db.contacts, id))
  {
    var forbidden := Principal.EnsureSameOrganization(principal, orgId);
    if forbidden.Some? {
      return Failure(forbidden.value);
    }
    var rows := Users.ListUsers(db, orgId, statuses);
    var items: seq<UserResponse> := [];
    var i := 0;
    while i < |rows|
      invariant 0 <= i <= |rows| && |items| == i
      invariant forall j | 0 <= j < i :: items[j].userId == rows[j].0
      invariant forall j | 0 <= j < i :: rows[j].0 in db.users &&
                  items[j] == SerializeUser(rows[j].0, db.users[rows[j].0], ContactOf(db.contacts, rows[j].0))
    {
      var (id, contact) := rows[i];
      assert id in Users.Listed(db.users, orgId, statuses);
      items := items + [SerializeUser(id, db.users[id], contact)];
      i := i + 1;
    }
    assert seq(|items|, i requires 0 <= i < |items| => items[i].userId) == seq(|rows|, i requires 0 <= i < |rows| => rows[i].0);
    return Success(items);
  }

  /** GET /users/{id}. */
  method GetUser(db: Database, principal: Principal.AuthenticatedPrincipal, userId: int)
    returns (resp: Response<UserResponse>)
    ensures resp.Failure? <==> UserAccess(principal, db.users, userId).Some?
    ensures resp.Failure? ==> resp.error == HttpError(404, UserNotFound)
    ensures resp.Success? ==> resp.body == SerializeUser(userId, db.users[userId], ContactOf(db.contacts, userId))
  {
    var denied := UserAccess(principal, db.users, userId);
    if denied.Some? {
      return Failure(denied.value);
    }
    return Success(SerializeUser(userId, db.users[userId], ContactOf(db.contacts, userId)));
  }

  /** How `update_user`'s view answers a service error: the two known codes are 400, anything else escapes as a 500. */
  function UpdateFailure(c: Code): (e: HttpError)
    ensures e.code == c
    ensures e.status == 400 <==> c == InvalidStatus || c == RoleNotInOrganization
    ensures e.status in {400, 500}
  {
    if c == InvalidStatus || c == RoleNotInOrganization then HttpError(400, c) else HttpError(500, c)
  }

  /** PATCH /users/{id}: the updated user, and the audit event's sorted field names. */
  method UpdateUser(db: Database, rbac: RbacEngine.RbacService, principal: Principal.AuthenticatedPrincipal,
                    userId: int, updates: Dict)
    returns (resp: Response<UserResponse>, audit: Option<seq<string>>)
    requires db.Valid()
    modifies db`users, rbac`loaded
    ensures db.Valid()
    ensures UserAccess(principal, old(db.users), userId).Some? ==> resp == Failure(HttpError(404, UserNotFound))
    ensures UserAccess(principal, old(db.users), userId).None? ==>
      (resp.Failure? <==> Users.UpdatedUser(old(db.users[userId]), updates, db.roles).Err?)
    ensures UserAccess(principal, old(db.users), userId).None? && resp.Failure? ==>
      resp.error == UpdateFailure(Users.UpdatedUser(old(db.users[userId]), updates, db.roles).error)
    ensures resp.Failure? ==> audit == None && unchanged(db`users) && unchanged(rbac`loaded)
    ensures resp.Success? ==>
      && !rbac.loaded
      && db.users == old(db.users)[userId := Users.UpdatedUser(old(db.users[userId]), updates, db.roles).value]
      && resp.body == SerializeUser(userId, db.users[userId], ContactOf(db.contacts, userId))
      && audit == Some(AuditFields(updates))
  {
    var denied := UserAccess(principal, db.users, userId);
    if denied.Some? {
      return Failure(denied.value), None;
    }
    var r := Users.UpdateUser(db, userId, updates);
    if r.Err? {
      return Failure(UpdateFailure(r.error)), None;
    }
    rbac.InvalidateCache();
    return Success(SerializeUser(userId, r.value, ContactOf(db.contacts, userId))), Some(AuditFields(updates));
  }

  /** DELETE /users/{id}: the user is marked inactive and archived, not removed. */
  method DeactivateUser(db: Database, rbac: RbacEngine.RbacService, principal: Principal.AuthenticatedPrincipal, userId: int)
    returns (resp: Response<UserResponse>)
    requires db.Valid()
    modifies db`users, db`archive, rbac`loaded
    ensures db.Valid()
    ensures resp.Failure? <==> UserAccess(principal, old(db.users), userId).Some?
    ensures resp.Failure? ==> resp.error == HttpError(404, UserNotFound)
                              && unchanged(db`users, db`archive) && unchanged(rbac`loaded)
    ensures resp.Success? ==>
      && !rbac.loaded
      && db.users == old(db.users)[userId := old(db.users[userId]).(status := UserStatus.Inactive)]
      && db.archive == old(db.archive) + [ArchivedUser(userId, principal.orgId)]
      && resp.body.status == UserStatus.Inactive
  {
    var denied := UserAccess(principal, db.users, userId);
    if denied.Some? {
      return Failure(denied.value);
    }
    var user := Users.DeactivateUser(db, userId);
    rbac.InvalidateCache();
    return Success(SerializeUser(userId, user, ContactOf(db.contacts, userId)));
  }

  datatype ContactResponse = ContactResponse(email: string, fields: map<string, Value>)

  /** GET /users/{id}/contact: a user without a contact row has no email, which is a 404. */
  method GetUserContact(db: Database, principal: Principal.AuthenticatedPrincipal, userId: int)
    returns (resp: Response<ContactResponse>)
    ensures UserAccess(principal, db.users, userId).Some? ==> resp == Failure(HttpError(404, UserNotFound))
    ensures UserAccess(principal, db.users, userId).None? && userId !in db.contacts ==>
      resp == Failure(HttpError(404, ContactNotFound))
    ensures resp.Success? <==> UserAccess(principal, db.users, userId).None? && userId in db.contacts
    ensures resp.Success? ==>
      resp.body == ContactResponse(db.contacts[userId].email, SerializeContact(Some(db.contacts[userId])).1)
  {
    var denied := UserAccess(principal, db.users, userId);
    if denied.Some? {
      return Failure(denied.value);
    }
    var (email, fields) := SerializeContact(ContactOf(db.contacts, userId));
    if email.None? {
      return Failure(HttpError(404, ContactNotFound));
    }
    return Success(ContactResponse(email.value, fields));
  }

  /** How `update_user_contact`'s view answers a service error. */
  function ContactFailure(c: Code): (e: HttpError)
    ensures e.code == c
    ensures e.status == 400 <==> c == EmailRequired || c == EmailAlreadyExists
    ensures e.status in {400, 500}
  {
    if c == EmailRequired || c == EmailAlreadyExists then HttpError(400, c) else HttpError(500, c)
  }

  /**
   * PATCH /users/{id}/contact. A stored contact row always has an email,
   * so the `contact_missing_email` answer cannot arise after a successful
   * upsert.
   */
  method UpdateUserContact(db: Database, rbac: RbacEngine.RbacService, principal: Principal.AuthenticatedPrincipal,
                           userId: int, updates: Dict)
    returns (resp: Response<ContactResponse>)
    requires db.Valid()
    modifies db`contacts, rbac`loaded
    ensures db.Valid()
    ensures UserAccess(principal, db.users, userId).Some? ==> resp == Failure(HttpError(404, UserNotFound))
    ensures UserAccess(principal, db.users, userId).None? ==>
      (resp.Failure? <==> Users.UpsertedContact(old(db.contacts), userId, updates).Err?)
    ensures UserAccess(principal, db.users, userId).None? && resp.Failure? ==>
      resp.error == ContactFailure(Users.UpsertedContact(old(db.contacts), userId, updates).error)
    ensures resp.Failure? ==> unchanged(db`contacts) && unchanged(rbac`loaded)
    ensures resp.Success? ==>
      && !rbac.loaded
      && var c := Users.UpsertedContact(old(db.contacts), userId, updates).value;
         && db.contacts == old(db.contacts)[userId := c]
         && resp.body == ContactResponse(c.email, SerializeContact(Some(c)).1)
  {
    var denied := UserAccess(principal, db.users, userId);
    if denied.Some? {
      return Failure(denied.value);
    }
    var r := Users.UpsertContactInformation(db, userId, updates);
    if r.Err? {
      return Failure(ContactFailure(r.error));
    }
    rbac.InvalidateCache();
    var (email, fields) := SerializeContact(Some(r.value));
    return Success(ContactResponse(email.value, fields));
  }
}

=== FILE: users.dfy ===
/**
 * User administration (`services/users.py`): the field patch of
 * `update_user`, deactivation with its archive row, the contact upsert and
 * its email rules, and the organization-scoped listing.
 */
module Users {
  import opened Wrappers
  import opened Tables
  import opened Errors
  import Strings

  // ---------------------------------------------------------------------------
  // update_user
  // ---------------------------------------------------------------------------

  /** The keys `update_user` applies; every other key is ignored. */
  const UpdatableFields: set<string> := {
    "first_name", "middle_name", "last_name", "date_of_birth", "gender", "nationality", "status", "role_id"
  }

  /**
   * The user object while the updates are applied, before the flush: the
   * profile columns, the status and the role id as Python values, since
   * `setattr` stores whatever it is given.
   */
  datatype Draft = Draft(fields: map<string, Value>, status: Value, roleId: Value)

  function DraftOf(u: User): Draft
  {
    Draft(u.fields, StatusValue(u.status), if u.roleId.Some? then Number(u.roleId.value) else Null)
  }

  /** The value of each `UserStatusEnum` member. */
  function StatusName(s: UserStatus): string
  {
    match s
    case Active => "active"
    case Inactive => "inactive"
  }

  /**
   * The status conversion: a string goes through `UserStatusEnum(value)`,
   * which knows exactly the members' values; `None` and an enum member
   * pass through; anything else is `invalid_status`.
   */
  function StatusFrom(v: Value): (r: Result<Value, Code>)
    ensures v.Null? || v.StatusValue? ==> r == Ok(v)
    ensures v.Text? ==> (r.Ok? <==> exists s :: StatusName(s) == v.text)
    ensures v.Text? && r.Ok? ==> r.value.StatusValue? && StatusName(r.value.status) == v.text
    ensures v.Text? && r.Err? ==> r.error == NotAUserStatus(v.text)
    ensures !(v.Null? || v.StatusValue? || v.Text?) ==> r == Err(InvalidStatus)
  {
    match v
    case Null => Ok(Null)
    case StatusValue(_) => Ok(v)
    case Text(s) =>
      if s == "active" then assert StatusName(UserStatus.Active) == s; Ok(StatusValue(UserStatus.Active))
      else if s == "inactive" then assert StatusName(UserStatus.Inactive) == s; Ok(StatusValue(UserStatus.Inactive))
      else Err(NotAUserStatus(s))
    case _ => Err(InvalidStatus)
  }

  /** The loop of `update_user` over the items of `updates`, in order. */
  function ApplyUpdates(d: Draft, updates: seq<(string, Value)>): Result<Draft, Code>
    decreases |updates|
  {
    if updates == [] then Ok(d)
    else
      var (field, value) := updates[0];
      if field !in UpdatableFields then ApplyUpdates(d, updates[1..])
      else if field == "status" then
        match StatusFrom(value)
        case Err(e) => Err(e)
        case Ok(s) => ApplyUpdates(d.(status := s), updates[1..])
      else if field == "role_id" then ApplyUpdates(d.(roleId := value), updates[1..])
      else ApplyUpdates(d.(fields := d.fields[field := value]), updates[1..])
  }

  /** `ensure_role_in_organization` as a predicate. */
  predicate RoleInOrganization(roles: map<int, Role>, orgId: int, roleId: int)
  {
    roleId in roles && roles[roleId].orgId == orgId
  }

  /** The flush of the patched user row: the database driver rejects a role id that is not an integer, then the foreign key and the NOT NULL columns. */
  function FlushFailure(d: Draft, roles: map<int, Role>): Option<Code>
  {
    if d.roleId != Null && !d.roleId.Number? then Some(DataError)
    else if d.roleId.Number? && d.roleId.number !in roles then Some(IntegrityError)
    else if !d.status.StatusValue? then Some(IntegrityError)
    else if "first_name" in d.fields && d.fields["first_name"] == Null then Some(IntegrityError)
    else None
  }

  /**
   * What follows the loop. With a role id set, `ensure_role_in_organization`
   * runs a query, and the session flushes the patched row before it
   * (autoflush), so the flush's errors come before the organization check;
   * with no role id the only flush is the final one.
   */
  function Commit(u: User, d: Draft, roles: map<int, Role>): Result<User, Code>
  {
    if FlushFailure(d, roles).Some? then Err(FlushFailure(d, roles).value)
    else if d.roleId.Number? && !RoleInOrganization(roles, u.orgId, d.roleId.number) then Err(RoleNotInOrganization)
    else Ok(u.(fields := d.fields, status := d.status.status, roleId := if d.roleId.Number? then Some(d.roleId.number) else None))
  }

  /** The outcome of `update_user(user, updates)`. */
  function UpdatedUser(u: User, updates: Dict, roles: map<int, Role>): Result<User, Code>
  {
    match ApplyUpdates(DraftOf(u), updates)
    case Err(e) => Err(e)
    case Ok(d) => Commit(u, d, roles)
  }

  method UpdateUser(db: Database, userId: int, updates: Dict) returns (r: Result<User, Code>)
    requires db.Valid() && userId in db.users
    modifies db`users
    ensures db.Valid()
    ensures r == UpdatedUser(old(db.users[userId]), updates, db.roles)
    ensures r.Ok? ==> db.users == old(db.users)[userId := r.value]
    ensures r.Err? ==> db.users == old(db.users)
  {
    var user := db.users[userId];
    var d := DraftOf(user);
    var i := 0;
    while i < |updates|
      invariant 0 <= i <= |updates|
      invariant ApplyUpdates(DraftOf(user), updates) == ApplyUpdates(d, updates[i..])
    {
      assert updates[i..][1..] == updates[i + 1..];
      var (field, value) := updates[i];
      if field in UpdatableFields {
        if field == "status" {
          var s := StatusFrom(value);
          if s.Err? {
            return Err(s.error);
          }
          d := d.(status := s.value);
        } else if field == "role_id" {
          d := d.(roleId := value);
        } else {
          d := d.(fields := d.fields[field := value]);
        }
      }
      i := i + 1;
    }
    r := Commit(user, d, db.roles);
    if r.Ok? {
      db.users := db.users[userId := r.value];
    }
  }

  /**
   * The whole effect of the loop: each updatable key present in `updates`
   * decides its column, every other column keeps its value, and the only
   * failure is a status that cannot be converted.
   */
  lemma {:induction false} ApplyUpdatesOutcome(d: Draft, updates: Dict)
    decreases |updates|
    ensures var r := ApplyUpdates(d, updates);
            r.Err? <==> "status" in Keys(updates) && StatusFrom(Get(updates, "status")).Err?
    ensures var r := ApplyUpdates(d, updates);
            r.Err? ==> r.error == StatusFrom(Get(updates, "status")).error
    ensures var r := ApplyUpdates(d, updates);
            var v := Get(updates, "status");
            r.Err? <==> "status" in Keys(updates) && !v.Null? && !v.StatusValue?
                        && !(v.Text? && exists s :: StatusName(s) == v.text)
    ensures var r := ApplyUpdates(d, updates);
            r.Ok? ==> && r.value.status == (if "status" in Keys(updates) then StatusFrom(Get(updates, "status")).value else d.status)
                      && r.value.roleId == (if "role_id" in Keys(updates) then Get(updates, "role_id") else d.roleId)
                      && (forall k | k in UpdatableFields - {"status", "role_id"} && k in Keys(updates) ::
                            k in r.value.fields && r.value.fields[k] == Get(updates, k))
                      && (forall k | !(k in UpdatableFields && k in Keys(updates)) ::
                            (k in r.value.fields <==> k in d.fields) && (k in d.fields ==> r.value.fields[k] == d.fields[k]))
  {
    if updates != [] {
      var rest: Dict := updates[1..];
      assert Keys(updates) == {updates[0].0} + Keys(rest) by {
        forall i | 1 <= i < |updates| ensures updates[i] == rest[i - 1] {}
      }
      assert updates[0].0 !in Keys(rest);
      var (field, value) := updates[0];
      assert Get(updates, field) == value;
      forall k | k != field ensures Get(updates, k) == Get(rest, k) {}
      if field !in UpdatableFields {
        ApplyUpdatesOutcome(d, rest);
      } else if field == "status" {
        if StatusFrom(value).Ok? {
          ApplyUpdatesOutcome(d.(status := StatusFrom(value).value), rest);
        }
      } else if field == "role_id" {
        ApplyUpdatesOutcome(d.(roleId := value), rest);
      } else {
        ApplyUpdatesOutcome(d.(fields := d.fields[field := value]), rest);
      }
    }
  }

  /**
   * A successful update changes only updatable columns: the username,
   * password, organization, last login and every other profile column keep
   * their values.
   */
  lemma UpdateKeepsOtherColumns(u: User, updates: Dict, roles: map<int, Role>)
    requires UpdatedUser(u, updates, roles).Ok?
    ensures var v := UpdatedUser(u, updates, roles).value;
            && v.username == u.username && v.password == u.password
            && v.orgId == u.orgId && v.lastLogin == u.lastLogin
            && forall k | k !in UpdatableFields :: (k in v.fields <==> k in u.fields) && (k in u.fields ==> v.fields[k] == u.fields[k])
  {
    ApplyUpdatesOutcome(DraftOf(u), updates);
  }

  /** A successful update leaves the user with a role of its own organization, or none. */
  lemma UpdateKeepsRoleInOrganization(u: User, updates: Dict, roles: map<int, Role>)
    requires UpdatedUser(u, updates, roles).Ok?
    ensures var v := UpdatedUser(u, updates, roles).value;
            v.roleId.Some? ==> RoleInOrganization(roles, u.orgId, v.roleId.value)
  {
  }

  /**
   * A role of another organization is refused once the patched row can be
   * flushed: the status converts and is not `None`, and the first name is
   * not `None`.
   */
  lemma ForeignRoleRejected(u: User, updates: Dict, roles: map<int, Role>, roleId: int)
    requires "role_id" in Keys(updates) && Get(updates, "role_id") == Number(roleId)
    requires roleId in roles && roles[roleId].orgId != u.orgId
    requires "status" in Keys(updates) ==> StatusFrom(Get(updates, "status")).Ok? && Get(updates, "status") != Null
    requires "first_name" in Keys(updates) ==> Get(updates, "first_name") != Null
    requires "first_name" !in Keys(updates) && "first_name" in u.fields ==> u.fields["first_name"] != Null
    ensures UpdatedUser(u, updates, roles) == Err(RoleNotInOrganization)
  {
    ApplyUpdatesOutcome(DraftOf(u), updates);
  }

  /** A role id that names no role breaks the foreign key at the autoflush, before the organization check can answer. */
  lemma MissingRoleIsIntegrityError(u: User, updates: Dict, roles: map<int, Role>, roleId: int)
    requires "role_id" in Keys(updates) && Get(updates, "role_id") == Number(roleId)
    requires roleId !in roles
    requires "status" in Keys(updates) ==> StatusFrom(Get(updates, "status")).Ok?
    ensures UpdatedUser(u, updates, roles) == Err(IntegrityError)
  {
    ApplyUpdatesOutcome(DraftOf(u), updates);
  }

  // ---------------------------------------------------------------------------
  // deactivate_user
  // ---------------------------------------------------------------------------

  method DeactivateUser(db: Database, userId: int) returns (user: User)
    requires db.Valid() && userId in db.users
    modifies db`users, db`archive
    ensures db.Valid()
    ensures user == old(db.users[userId]).(status := UserStatus.Inactive)
    ensures db.users == old(db.users)[userId := user]
    ensures db.archive == old(db.archive) + [ArchivedUser(userId, user.orgId)]
  {
    user := db.users[userId].(status := UserStatus.Inactive);
    db.users := db.users[userId := user];
    db.archive := db.archive + [ArchivedUser(userId, user.orgId)];
  }

  // ---------------------------------------------------------------------------
  // Contact information
  // ---------------------------------------------------------------------------

  /** Another user's contact row carries the email. */
  predicate EmailHeldByOther(contacts: map<int, Contact>, email: string, userId: int)
  {
    exists id | id in contacts && id != userId :: contacts[id].email == email
  }

  /** `_ensure_unique_email`: the count query over the other users' contacts. */
  method EnsureUniqueEmail(db: Database, email: string, excludeUserId: int) returns (r: Result<(), Code>)
    ensures r.Ok? <==> forall id | id in db.contacts && id != excludeUserId :: db.contacts[id].email != email
    ensures r.Err? ==> r.error == EmailAlreadyExists
  {
    if EmailHeldByOther(db.contacts, email, excludeUserId) {
      return Err(EmailAlreadyExists);
    }
    r := Ok(());
  }

  /** `ensure_role_in_organization`: the count query over roles. */
  method EnsureRoleInOrganization(db: Database, orgId: int, roleId: int) returns (r: Result<(), Code>)
    ensures r.Ok? <==> exists id | id in db.roles :: id == roleId && db.roles[id].orgId == orgId
    ensures r.Err? ==> r.error == RoleNotInOrganization
  {
    if !RoleInOrganization(db.roles, orgId, roleId) {
      return Err(RoleNotInOrganization);
    }
    r := Ok(());
  }

  /** The contact object while the payload is applied, before the flush. */
  datatype ContactDraft = ContactDraft(email: Value, attrs: map<string, Value>)

  /**
   * The loop of `upsert_contact_information`: a non-`None` `email` sets the
   * email, and any other key that is a non-key column of the contact row
   * is set, `email_id` included; every other key is skipped.
   */
  function ApplyContact(c: ContactDraft, payload: seq<(string, Value)>): ContactDraft
    decreases |payload|
  {
    if payload == [] then c
    else
      var (field, value) := payload[0];
      if field == "email" && value != Null then ApplyContact(c.(email := value), payload[1..])
      else if field != "email" && field in ContactColumns then
        if field == "email_id" then ApplyContact(c.(email := value), payload[1..])
        else ApplyContact(c.(attrs := c.attrs[field := value]), payload[1..])
      else ApplyContact(c, payload[1..])
  }

  /**
   * The flush of the contact row: the driver rejects an email that is not a
   * string, and the NOT NULL and unique constraints reject a `None` email,
   * an email held by another user and a `None` phone-verified flag.
   */
  function FlushContact(contacts: map<int, Contact>, userId: int, c: ContactDraft): Result<Contact, Code>
  {
    if c.email != Null && !c.email.Text? then Err(DataError)
    else if c.email == Null then Err(IntegrityError)
    else if EmailHeldByOther(contacts, c.email.text, userId) then Err(IntegrityError)
    else if "verified_phone_number" in c.attrs && c.attrs["verified_phone_number"] == Null then Err(IntegrityError)
    else Ok(Contact(c.email.text, c.attrs))
  }

  /** The outcome of `upsert_contact_information(user, payload)`. */
  function UpsertedContact(contacts: map<int, Contact>, userId: int, payload: Dict): (r: Result<Contact, Code>)
    ensures "email" in Keys(payload) && Get(payload, "email") == Null ==> r == Err(EmailRequired)
    ensures userId !in contacts && Get(payload, "email") == Null ==> r == Err(EmailRequired)
    ensures (Get(payload, "email").Text? && EmailHeldByOther(contacts, Get(payload, "email").text, userId)
             ==> r == Err(EmailAlreadyExists))
    ensures r.Ok? ==> !EmailHeldByOther(contacts, r.value.email, userId)
  {
    var email := Get(payload, "email");
    if "email" in Keys(payload) && email == Null then Err(EmailRequired)
    else if email != Null && !email.Text? then Err(DataError)
    else if email.Text? && EmailHeldByOther(contacts, email.text, userId) then Err(EmailAlreadyExists)
    else if userId !in contacts && email == Null then Err(EmailRequired)
    else
      var start := if userId in contacts then ContactDraft(Text(contacts[userId].email), contacts[userId].attrs)
                   else ContactDraft(email, map["verified_phone_number" := Flag(false)]);
      FlushContact(contacts, userId, ApplyContact(start, payload))
  }

  method UpsertContactInformation(db: Database, userId: int, payload: Dict) returns (r: Result<Contact, Code>)
    requires db.Valid() && userId in db.users
    modifies db`contacts
    ensures db.Valid()
    ensures r == UpsertedContact(old(db.contacts), userId, payload)
    ensures r.Ok? ==> db.contacts == old(db.contacts)[userId := r.value]
    ensures r.Err? ==> db.contacts == old(db.contacts)
  {
    var email := Get(payload, "email");
    if "email" in Keys(payload) && email == Null {
      return Err(EmailRequired);
    }
    if email != Null {
      if !email.Text? {
        return Err(DataError);
      }
      var unique := EnsureUniqueEmail(db, email.text, userId);
      if unique.Err? {
        return Err(unique.error);
      }
    }
    var c: ContactDraft;
    if userId in db.contacts {
      c := ContactDraft(Text(db.contacts[userId].email), db.contacts[userId].attrs);
    } else {
      if email == Null {
        return Err(EmailRequired);
      }
      c := ContactDraft(email, map["verified_phone_number" := Flag(false)]);
    }
    ghost var start := c;
    var i := 0;
    while i < |payload|
      invariant 0 <= i <= |payload|
      invariant ApplyContact(start, payload) == ApplyContact(c, payload[i..])
    {
      assert payload[i..][1..] == payload[i + 1..];
      var (field, value) := payload[i];
      if field == "email" && value != Null {
        c := c.(email := value);
      } else if field != "email" && field in ContactColumns {
        if field == "email_id" {
          c := c.(email := value);
        } else {
          c := c.(attrs := c.attrs[field := value]);
        }
      }
      i := i + 1;
    }
    r := FlushContact(db.contacts, userId, c);
    if r.Ok? {
      db.contacts := db.contacts[userId := r.value];
    }
  }

  /** The whole effect of the contact loop on each column. */
  lemma {:induction false} ApplyContactOutcome(c: ContactDraft, payload: Dict)
    decreases |payload|
    ensures var e := Get(payload, "email");
            var d := ApplyContact(c, payload);
            && (forall k | k in ContactColumns - {"email_id"} && k in Keys(payload) :: k in d.attrs && d.attrs[k] == Get(payload, k))
            && (forall k | !(k in ContactColumns && k in Keys(payload)) ::
                  (k in d.attrs <==> k in c.attrs) && (k in c.attrs ==> d.attrs[k] == c.attrs[k]))
            && ("email_id" !in Keys(payload) && e == Null ==> d.email == c.email)
            && ("email_id" !in Keys(payload) && e != Null ==> d.email == e)
  {
    if payload != [] {
      var rest: Dict := payload[1..];
      assert Keys(payload) == {payload[0].0} + Keys(rest) by {
        forall i | 1 <= i < |payload| ensures payload[i] == rest[i - 1] {}
      }
      assert payload[0].0 !in Keys(rest);
      var (field, value) := payload[0];
      assert Get(payload, field) == value;
      forall k | k != field ensures Get(payload, k) == Get(rest, k) {}
      if field == "email" && value != Null {
        ApplyContactOutcome(c.(email := value), rest);
      } else if field != "email" && field in ContactColumns {
        if field == "email_id" {
          ApplyContactOutcome(c.(email := value), rest);
        } else {
          ApplyContactOutcome(c.(attrs := c.attrs[field := value]), rest);
        }
      } else {
        ApplyContactOutcome(c, rest);
      }
    }
  }

  /** A user may resubmit the email it already holds. */
  lemma OwnEmailAccepted(contacts: map<int, Contact>, userId: int, payload: Dict)
    requires UniqueEmails(contacts) && userId in contacts
    requires Get(payload, "email") == Text(contacts[userId].email)
    ensures UpsertedContact(contacts, userId, payload) != Err(EmailAlreadyExists)
  {
  }

  /**
   * A successful upsert stores the given email (when `email_id` is not also
   * given) and every given column, and keeps the columns not named.
   */
  lemma UpsertStoresPayload(contacts: map<int, Contact>, userId: int, payload: Dict)
    requires UpsertedContact(contacts, userId, payload).Ok?
    ensures var c := UpsertedContact(contacts, userId, payload).value;
            && (Get(payload, "email").Text? && "email_id" !in Keys(payload) ==> c.email == Get(payload, "email").text)
            && (Get(payload, "email") == Null && "email_id" !in Keys(payload) ==> userId in contacts && c.email == contacts[userId].email)
            && (forall k | k in ContactColumns - {"email_id"} && k in Keys(payload) :: k in c.attrs && c.attrs[k] == Get(payload, k))
            && (userId in contacts ==> forall k | k !in Keys(payload) && k in contacts[userId].attrs ::
                  k in c.attrs && c.attrs[k] == contacts[userId].attrs[k])
  {
    var email := Get(payload, "email");
    var start := if userId in contacts then ContactDraft(Text(contacts[userId].email), contacts[userId].attrs)
                 else ContactDraft(email, map["verified_phone_number" := Flag(false)]);
    ApplyContactOutcome(start, payload);
  }

  // ---------------------------------------------------------------------------
  // list_users
  // ---------------------------------------------------------------------------

  /** The users `list_users` selects: the organization's, filtered by status when a non-empty filter is given. */
  ghost function Listed(users: map<int, User>, orgId: int, statuses: seq<UserStatus>): set<int>
  {
    set u | u in users && users[u].orgId == orgId && (statuses == [] || users[u].status in statuses)
  }

  /** `list_users`: the selected users by ascending id, each with its contact row when it has one. */
  method ListUsers(db: Database, orgId: int, statuses: seq<UserStatus>) returns (rows: seq<(int, Option<Contact>)>)
    ensures Strings.Increasing(seq(|rows|, i requires 0 <= i < |rows| => rows[i].0))
    ensures forall u :: (exists i | 0 <= i < |rows| :: rows[i].0 == u) <==> u in Listed(db.users, orgId, statuses)
    ensures forall i | 0 <= i < |rows| ::
              rows[i].1 == if rows[i].0 in db.contacts then Some(db.contacts[rows[i].0]) else None
  {
    var selected := set u | u in db.users && db.users[u].orgId == orgId && (statuses == [] || db.users[u].status in statuses);
    var ids := Strings.SortedIds(selected);
    rows := [];
    var i := 0;
    while i < |ids|
      invariant 0 <= i <= |ids| && |rows| == i
      invariant forall j | 0 <= j < i :: rows[j].0 == ids[j]
      invariant forall j | 0 <= j < i ::
                  rows[j].1 == if ids[j] in db.contacts then Some(db.contacts[ids[j]]) else None
    {
      var contact := if ids[i] in db.contacts then Some(db.contacts[ids[i]]) else None;
      rows := rows + [(ids[i], contact)];
      i := i + 1;
    }
    assert seq(|rows|, i requires 0 <= i < |rows| => rows[i].0) == ids;
    forall u ensures (exists i | 0 <= i < |rows| :: rows[i].0 == u) <==> u in Listed(db.users, orgId, statuses) {
      if u in selected {
        assert u in Strings.Elems(ids);
        var i :| 0 <= i < |ids| && ids[i] == u;
        assert rows[i].0 == u;
      }
    }
  }
}

=== FILE: wrappers.dfy ===
/** Small value wrappers shared by every module of the model. */
module Wrappers {

  /** Python's `None` or a value. */
  datatype Option<+T> = None | Some(value: T)

  /** The outcome of a service call: a value, or the error code the service raises. */
  datatype Result<+T, +E> = Ok(value: T) | Err(error: E)

  /** One key of a Python update dict: absent, or present with a value (which may itself be `None`). */
  datatype Patch<+T> = Absent | Given(value: T)
}
